=== FILE: README.md ===
# Retirement countdown: the policy and time-distribution core in Dafny

This project models the core of a retirement-countdown phone app. A user enters a
profile: name, gender, birth date, work start date and job category. The app then does
the following:

- It resolves the Chinese statutory retirement age for that gender and category. Men
  retire at 60, or at 55 in a special job. Women retire at 50 in a general job, at 45 in
  a special job and at 55 in the other categories. When the work start is known, a
  special job needs ten years of work for its lower age; with fewer years the age is that
  of a general job (60 or 50). The table also carries an early age of 45 for women in a
  general job, which no computation uses.
- It applies the gradual-delay rule, capped at 60 months. Men are delayed 4 months per
  birth year from 1962 on. Women in a general job are delayed 4 months per birth year
  from 1965 on. Women who are civil servants or enterprise managers are delayed 6 months
  per birth year from 1963 on. Women in special or flexible jobs are not delayed. The
  retirement date is the birth date moved by the age in years and then by the delay in
  months.
- It counts down to that date in several units and shows career progress as a
  percentage.
- It splits each day into work, sleep and free hours, from a schedule or from defaults
  for weekdays, weekends and public holidays.
- It projects these shares over the whole career from the recorded history.
- It keeps a newest-first history of daily records, one per day. It also keeps a store
  of profile, schedules and settings.
- It draws a 42-cell month calendar of the history.
- It checks the onboarding and settings forms before a profile is created or edited.

Modules, one per part of the program:

| file | module | what it holds |
|---|---|---|
| basics.dfy | `Basics` | `Option`, and `Number`, a real number or NaN, with arithmetic that propagates NaN |
| text.dfy | `Text` | decimal rendering, `parseInt`-style prefix parsing, `Number(...)`, `trim`, `split` |
| calendar.dfy | `Calendar` | a JavaScript `Date` in one time zone with its normalising constructor and setters, the day count, the weekday and the `"YYYY-MM-DD"` key |
| types.dfy | `Types` | the profile, schedule, record and settings types |
| policy.dfy | `RetirementPolicy` | the policy table, the delay rule, the retirement computation, the explanation text |
| timeanalysis.dfy | `TimeAnalysis` | the daily split, the schedule analysis, the countdown, the progress, the career projection |
| dateutils.dfy | `DateUtils` | age, added years, today/yesterday labels, safe formatting, clock parsing |
| timerecords.dfy | `TimeRecords` | the record history as a class with upsert and newest-first sort |
| storage.dfy | `Storage` | the key-value store for profile, schedules and settings as a class |
| historycalendar.dfy | `HistoryCalendar` | the month grid and the month navigation |
| profileform.dfy | `ProfileForm` | the shared form checks, onboarding, and the settings edit screen as a class |

Modelling choices:

- A `Date` is `DateTime(year, month0, day, msOfDay)`, always normalised.
  `NewDate(y, m, d)` behaves like `new Date(y, m, d)` for a year outside 0..99: day and
  month overflow roll into the next month or year, and day 0 is the last day of the month
  before. The constructor's mapping of years 0..99 to 1900 + y is not modelled (see
  "## Left out").
  `SetMonth` and `SetFullYear` keep the day and normalise in the same way.
- `Time` is milliseconds from 1970-01-01 in the single time zone of the model.
- An invalid date is the `Invalid` case of `Stamp`. A NaN number is the `NaN` case of
  `Number`.
- The clock (`new Date()`, `Date.now()`) is an explicit `now`/`today` parameter.
- AsyncStorage keys are fields of the store classes. `None` means the key is absent.
- Fractional constants become exact ratios: 30.44 days per month is 3044/100, and
  365.25 days per year is 1461/4.

## Model

| member | source | states |
|---|---|---|
| Basics.Number.Plus | src/services/TimeAnalysisService.ts:158-161 | the sum is a number exactly when both operands are, and then it is their sum |
| Basics.Number.Minus | src/services/TimeAnalysisService.ts:84 | the difference is a number exactly when both operands are, and then it is their difference |
| Basics.Number.Times | src/services/TimeAnalysisService.ts:40 | the product is a number exactly when both operands are, and then it is their product |
| Basics.Number.Over | src/services/TimeAnalysisService.ts:35-37 | division by a non-zero constant keeps NaN and otherwise inverts multiplication |
| Basics.MaxZero | src/services/TimeAnalysisService.ts:84 | `Math.max(0, x)`: NaN stays NaN; otherwise the result is non-negative, at least x, and either 0 or x |
| Text.DigitChar | src/screens/SettingsScreen.tsx:45-50 | the character is a decimal digit whose code is '0' plus the value |
| Text.NatToString | src/screens/SettingsScreen.tsx:45-50 | `toString()` of a natural number is a non-empty run of digits without a leading zero |
| Text.IntToString | src/screens/SettingsScreen.tsx:45-50 | `toString()` of an integer is non-empty and starts with a digit exactly when the number is non-negative, and with '-' otherwise |
| Text.NatToStringRoundTrip | src/screens/SettingsScreen.tsx:45-50 | reading back the digits of a rendered natural number gives the number |
| Text.IntToStringInjective | src/screens/OnboardingScreen.tsx:112-123 | distinct integers render as distinct strings, so ids from distinct instants differ |
| Text.TrimStart | src/screens/OnboardingScreen.tsx:43-46 | trimming the front never lengthens the string |
| Text.TrimEnd | src/screens/OnboardingScreen.tsx:43-46 | trimming the back never lengthens the string |
| Text.TrimStartSpec | src/screens/OnboardingScreen.tsx:43-46 | the result is a suffix of the input, everything cut is white space, and the result is empty or starts with a non-space |
| Text.TrimEndSpec | src/screens/OnboardingScreen.tsx:43-46 | the result is a prefix of the input, everything cut is white space, and the result is empty or ends with a non-space |
| Text.TrimSpec | src/screens/OnboardingScreen.tsx:43-46 | `trim()` is empty exactly when the input is blank; otherwise it starts and ends with a non-space |
| Text.TrimStartOfNonSpace | src/screens/OnboardingScreen.tsx:43-46 | a string that starts with a non-space is its own `trimStart()` |
| Text.DigitPrefix | src/screens/OnboardingScreen.tsx:48-50 | the longest leading run of digits: a prefix of the input, all digits, followed by a non-digit or the end |
| Text.DigitPrefixOfDigits | src/screens/OnboardingScreen.tsx:48-50 | a string of digits is its own digit prefix |
| Text.DigitPrefixOfDigitsThen | src/screens/OnboardingScreen.tsx:48-50 | digits followed by a non-digit have exactly those digits as prefix |
| Text.ParseIntOfDigits | src/screens/OnboardingScreen.tsx:48-50 | `parseInt` of digits followed by a tail that is neither a digit nor a base-16 "x" gives the digits' value and ignores the tail |
| Text.ParseIntOfNegativeDigits | src/screens/OnboardingScreen.tsx:48-50 | `parseInt` of '-' and digits gives the negated value |
| Text.UnsignedText | src/screens/OnboardingScreen.tsx:48-50 | a string without a base-16 prefix whose leading digit run is a given non-empty run parses as that run's value |
| Text.NegativeText | src/screens/OnboardingScreen.tsx:48-50 | a minus sign before such a string parses as the negated value |
| Text.ParseIntOfIntToString | src/screens/SettingsScreen.tsx:45-50 | `parseInt(n.toString() + tail)` is n for every integer n and every tail that starts with neither a digit nor "x" |
| Text.ParseIntOfNatToString | src/screens/SettingsScreen.tsx:45-50 | `parseInt` of a rendered natural number, with a non-digit tail, gives the number |
| Text.ParseIntOfNegatedNatToString | src/screens/SettingsScreen.tsx:45-50 | `parseInt` of '-' and a rendered natural number, with a non-digit tail, gives its negation |
| Text.NegativeValue | src/screens/SettingsScreen.tsx:45-50 | '-' and digits worth n, with a non-digit tail, parse as -n |
| Text.ToNumber | src/services/TimeAnalysisService.ts:278-281 | `Number(s)` is the digits' value for a digit string and 0 for a blank string; signed and fractional text is stated by `ToNumberOfDecimal` and `ToNumberOfInteger` |
| Text.SplitOnce | src/services/TimeAnalysisService.ts:279 | the head holds no separator; with a tail, the input is head, separator and tail; without one, the input is the head |
| Text.SplitOnceAt | src/services/TimeAnalysisService.ts:279 | splitting a string at its first separator gives back the two parts |
| Text.SplitOnceWithoutSep | src/services/TimeAnalysisService.ts:279 | a string without the separator splits into itself alone |
| Text.FirstTwoFields | src/services/TimeAnalysisService.ts:279 | the first two fields of `split(':')` contain no separator |
| Text.FirstTwoFieldsOfPair | src/services/TimeAnalysisService.ts:279 | "a:b" with no colons in a or b splits into a and b |
| Text.ParseInt | src/screens/OnboardingScreen.tsx:48-50 | `parseInt` without a radix: leading white space skipped, then a signed magnitude; its read-back of rendered integers is `ParseIntOfIntToString`, its base-16 case `ParseIntOfHexText` (definition, no contract of its own) |
| Text.ParseSigned | src/screens/OnboardingScreen.tsx:68-70 | a leading '-' negates the magnitude and a leading '+' is skipped (definition, no contract of its own) |
| Text.ParseMagnitude | src/screens/OnboardingScreen.tsx:48-50 | without a "0x" prefix the number is read exactly when the text starts with a decimal digit, and is the value of the longest run of digits |
| Text.HexPrefix | src/screens/SettingsScreen.tsx:80-85 | the longest prefix of base-16 digits: all of it is base-16 digits and the next character is not one |
| Text.HexDigitValue | src/screens/SettingsScreen.tsx:80-85 | a base-16 digit is worth less than 16 |
| Text.ParseIntOfHexText | src/screens/SettingsScreen.tsx:80-85 | a field such as "0x7B0" is read in base 16, as 1968, not as 0 |
| Text.Trim | src/screens/OnboardingScreen.tsx:43-46 | `trim()` is `trimEnd` of `trimStart`; `TrimSpec` states what it removes (definition, no contract of its own) |
| Text.IsWhiteSpace | src/screens/OnboardingScreen.tsx:43-46 | the white-space and line-terminator characters `trim` removes (definition, no contract of its own) |
| Text.DigitsValue | src/screens/OnboardingScreen.tsx:48-50 | the base-10 value of a run of digits; `NatToStringRoundTrip` ties it to rendering (definition, no contract of its own) |
| Text.DecimalLiteral | src/services/TimeAnalysisService.ts:278-281 | the value of an unsigned decimal literal with an optional fraction (definition; `ToNumberOfDecimal` and `ToNumberOfInteger` state it on each form) |
| Text.Fraction | src/utils/dateUtils.ts:13-18 | the digits after the point are worth at least 0 and less than 1 |
| Text.Power10 | src/utils/dateUtils.ts:13-18 | a power of ten is at least 1 |
| Text.DigitsBelowPower | src/utils/dateUtils.ts:13-18 | k digits are worth less than 10^k |
| Text.Ratio | src/utils/dateUtils.ts:13-18 | a ratio of a non-negative number to a larger one lies in [0, 1) |
| Text.DigitTextIsItsOwnLiteral | src/services/TimeAnalysisService.ts:278-281 | a non-empty run of digits is unchanged by `trim` and is its own digit prefix |
| Text.TrimOfUnspaced | src/services/TimeAnalysisService.ts:278-281 | a text with no white space at either end is its own `trim` |
| Text.DecimalLiteralOfPoint | src/utils/dateUtils.ts:13-18 | digits, a point and digits read as the whole part plus the fraction |
| Text.DecimalLiteralOfDigits | src/utils/dateUtils.ts:13-18 | a run of digits reads as its value |
| Text.ToNumberOfSigned | src/utils/dateUtils.ts:13-18 | `Number` reads a literal as its value, and with a leading minus as the negated value |
| Text.ToNumberOfDecimal | src/utils/dateUtils.ts:13-18 | `Number("8.5")` is 8.5 and `Number("-8.5")` is -8.5: a point and fraction digits are read, and so is a minus sign |
| Text.ToNumberOfInteger | src/utils/dateUtils.ts:13-18 | `Number("1")` is 1 and `Number("-1")` is -1 |
| Calendar.DaysInMonth | src/screens/HistoryCalendarScreen.tsx:62-70 | every month has 28 to 31 days, and 28 exactly for February of a non-leap year |
| Calendar.KeyOf | src/screens/HistoryCalendarScreen.tsx:95 | the "YYYY-MM-DD" key of a date carries its year, 1-based month and day |
| Calendar.NormDay | src/screens/OnboardingScreen.tsx:90-91 | day overflow normalisation keeps the time of day and leaves a day that exists unchanged |
| Calendar.MakeDate | src/screens/OnboardingScreen.tsx:90-91 | the date constructor keeps the time of day and leaves an existing day unchanged |
| Calendar.NewDate | src/screens/OnboardingScreen.tsx:90-91 | `new Date(y, m, d)` is at midnight |
| Calendar.SetHours | src/utils/dateUtils.ts:13-18 | `setHours(h, m, s, ms)` sets the time of day to that clock reading modulo one day |
| Calendar.SetMonthKeepsDay | src/services/RetirementPolicyService.ts:171 | `setMonth(m)` on a day up to the 28th carries whole years and keeps the day |
| Calendar.SetFullYearKeepsDay | src/services/RetirementPolicyService.ts:35-36 | `setFullYear(y)` keeps month and day when that day exists in year y |
| Calendar.SetFullYearLeapDayRollsOver | src/services/RetirementPolicyService.ts:35-36 | 29 February 2000 moved to 2001 becomes 1 March 2001 |
| Calendar.WeekDay | src/services/TimeAnalysisService.ts:230-233 | `getDay()` is between 0 and 6 |
| Calendar.EpochOrigin | src/services/TimeAnalysisService.ts:283-289 | 1 January 1970 is time 0 and a Thursday |
| Calendar.DivStep | src/services/RetirementPolicyService.ts:35-36 | each leap-year counter steps by one exactly at its multiples |
| Calendar.YearLength | src/services/RetirementPolicyService.ts:35-36 | a year has 366 days when leap and 365 otherwise |
| Calendar.MonthLength | src/services/RetirementPolicyService.ts:171 | consecutive months are as many days apart as the first one has |
| Calendar.NormDayNumber | src/screens/OnboardingScreen.tsx:90-91 | the normalised date of an overflowing day is that many days from the first of the month |
| Calendar.PreviousMonthDayNumber | src/screens/OnboardingScreen.tsx:90-91 | day d of a month has the same day count as day d plus the previous month's length, counted in the previous month |
| Calendar.NextMonthDayNumber | src/screens/OnboardingScreen.tsx:90-91 | day d past a month's end has the same day count as day d minus its length, counted in the next month |
| Calendar.ShiftedEpochDays | src/utils/dateUtils.ts:42-50 | `setDate(getDate() + k)` moves the date by exactly k days |
| Calendar.ShiftDaysTime | src/services/TimeDataStorageService.ts:87-90 | `setDate(getDate() + k)` moves the time by exactly k days of milliseconds |
| Calendar.DaysBeforeYearGrows | src/screens/OnboardingScreen.tsx:94-97 | n years later is at least 365·n days later |
| Calendar.DayOfYearBounds | src/screens/OnboardingScreen.tsx:94-97 | the day of the year of an existing date lies inside its year |
| Calendar.MonthsInOrder | src/screens/OnboardingScreen.tsx:94-97 | within a year, a day of an earlier month comes before any day of a later month |
| Calendar.EpochDaysOrder | src/services/TimeDataStorageService.ts:45 | a calendar day before another has a smaller day count |
| Calendar.EpochDaysInjective | src/utils/dateUtils.ts:33-40 | two dates have the same day count exactly when they fall on the same calendar day |
| Calendar.SetFullYear | src/services/RetirementPolicyService.ts:35-36 | `setFullYear` on a copy: the year replaced and the day normalised; `SetFullYearKeepsDay` and `SetFullYearLeapDayRollsOver` state its results (definition, no contract of its own) |
| Calendar.SetMonth | src/services/RetirementPolicyService.ts:171 | `setMonth` on a copy, the month carrying into the year; `SetMonthKeepsDay` states its result (definition, no contract of its own) |
| Calendar.SetDate | src/utils/dateUtils.ts:42-50 | `setDate` on a copy, the day carrying into the months; `ShiftedEpochDays` and `ShiftDaysTime` state its result (definition, no contract of its own) |
| Calendar.Time | src/utils/dateUtils.ts:57 | `getTime()`: milliseconds from 1970-01-01 00:00; `EpochOrigin` fixes its origin (definition, no contract of its own) |
| Calendar.EpochDays | src/utils/dateUtils.ts:57-58 | the day count of a date from 1970-01-01; `EpochDaysOrder` and `EpochDaysInjective` state that it orders and identifies days (definition, no contract of its own) |
| Calendar.DayNumber | src/utils/dateUtils.ts:57-58 | the day count of a (year, month, day) triple in the proleptic Gregorian calendar; `NormDayNumber` ties it to normalisation (definition, no contract of its own) |
| Calendar.SetHoursTime | src/utils/dateUtils.ts:16 | `setHours(h, m, s, ms)` puts the instant at exactly that many hours, minutes, seconds and milliseconds after the date's midnight, for any signs and sizes, so out-of-range hours carry into the neighbouring days |
| RetirementPolicy.GetRetirementPolicy | src/services/RetirementPolicyService.ts:66-148 | men retire at 60 (special work 55), women at 50, 55 or 45 by category, and only general-category women have an early age, 45 |
| RetirementPolicy.WorkYearsSpec | src/services/RetirementPolicyService.ts:57-61 | the years worked are the largest whole number of 365.25-day years that fits into the time from work start to now |
| RetirementPolicy.PreDelayAgeRule | src/services/RetirementPolicyService.ts:20-32 | the age before the delay is the general age (60 for men, 50 for women) exactly for a special worker with a known start and under ten whole years; otherwise it is the table age |
| RetirementPolicy.DelayMonths | src/services/RetirementPolicyService.ts:154-207 | the delay is between 0 and 60 months |
| RetirementPolicy.ApplyDelayedRetirementPolicy | src/services/RetirementPolicyService.ts:154-207 | the adjusted age is between the base age and five years more |
| RetirementPolicy.ApplyDelayMatchesRuleTable | src/services/RetirementPolicyService.ts:154-207 | the delay applies exactly for births from 1962 in the delayed categories; then age and date move by the rule's months, otherwise both stay as given |
| RetirementPolicy.CalculateRetirement | src/services/RetirementPolicyService.ts:14-52 | the policy is the table's, and the age is the pre-delay age plus whole years of delay, at most five more |
| RetirementPolicy.RetirementFromAge | src/services/RetirementPolicyService.ts:34-51 | from any pre-delay age: the policy is the table's and the age grows by the delay's whole years, at most five |
| RetirementPolicy.RetirementDateSpec | src/services/RetirementPolicyService.ts:35-45 | the date is the birth date moved by the pre-delay age in years, then by the delay in months when it applies |
| RetirementPolicy.CalculateRetirementDate | src/services/RetirementPolicyService.ts:35-45 | for a given pre-delay age, the resolved date is the birth date moved by that age in years, then by the delay in months |
| RetirementPolicy.CalculateRetirementUnfold | src/services/RetirementPolicyService.ts:14-52 | the resolver is the tenure rule followed by the date and delay steps from that age |
| RetirementPolicy.RetirementFromDate | src/services/RetirementPolicyService.ts:34-45 | from any pre-delay age, the date is that anniversary moved by the delay months |
| RetirementPolicy.RetirementFromUnfold | src/services/RetirementPolicyService.ts:34-45 | the date step hands the anniversary at the pre-delay age to the delay rule |
| RetirementPolicy.DelayedAge | src/services/RetirementPolicyService.ts:154-207 | the delay rule adds the delay's whole years to the age |
| RetirementPolicy.DelayedDate | src/services/RetirementPolicyService.ts:154-207 | the delay rule moves the date by the delay months, which leaves it unchanged when there is no delay |
| RetirementPolicy.DelayMonotone | src/services/RetirementPolicyService.ts:167-201 | a later birth year never gets a shorter delay, and no delay exceeds 60 months |
| RetirementPolicy.MaleDelayPlateau | src/services/RetirementPolicyService.ts:192-201 | men born 1977 or later get the full 60-month delay |
| RetirementPolicy.FemaleNeverDelayed | src/services/RetirementPolicyService.ts:203-206 | women in the special, flexible and unlisted categories keep the base age and date |
| RetirementPolicy.BaseAgeWithoutDelay | src/services/RetirementPolicyService.ts:24-45 | anyone born before 1962, outside the special-tenure fallback, retires at the table age |
| RetirementPolicy.SpecialTenureFallback | src/services/RetirementPolicyService.ts:24-32 | a special worker with under ten years of tenure gets the general age as the base |
| RetirementPolicy.SpecialWithoutWorkStart | src/services/RetirementPolicyService.ts:24-32 | without a work start the special age stands: 55 for men, 45 for women |
| RetirementPolicy.RetirementDateByMonths | src/services/RetirementPolicyService.ts:35-45 | for a birth day up to the 28th, the retirement date is that day, months and years later by the pre-delay age and the delay |
| RetirementPolicy.RetirementFromByMonths | src/services/RetirementPolicyService.ts:34-45 | from any pre-delay age, a birth day up to the 28th is kept and the months carry into years |
| RetirementPolicy.MaleGeneral1990Example | src/services/RetirementPolicyService.ts:192-201 | a general-category man born 1 January 1990 retires at 65 on 1 January 2055 |
| RetirementPolicy.GetJobTypeDescription | src/services/RetirementPolicyService.ts:212-221 | each of the five category keys reads its own label, an unknown key reads "其他", and exactly the unknown keys do |
| RetirementPolicy.TenureNote | src/services/RetirementPolicyService.ts:233-242 | the note shows the years worked (NaN for an invalid start); from ten years on it says the special-job condition is met, and below ten, or for NaN, that ten years are needed |
| RetirementPolicy.ExplanationShape | src/services/RetirementPolicyService.ts:226-254 | description, optional note and optional delay sentence can be told apart in the joined text |
| RetirementPolicy.DescriptionsAreShort | src/services/RetirementPolicyService.ts:66-148 | every table description is shorter than the delay sentence |
| RetirementPolicy.ExplanationWorkYears | src/services/RetirementPolicyService.ts:233-236 | definition: the years worked from a valid stored start date, none (NaN) otherwise; used in the contract of `GetPolicyExplanation` |
| RetirementPolicy.Joined | src/services/RetirementPolicyService.ts:226-254 | definition: the description, then the note when it is added, then the delay sentence when it is added; its layout is stated by `ExplanationShape` and `ExplanationParts` |
| RetirementPolicy.ExplanationParts | src/services/RetirementPolicyService.ts:226-254 | the joined text is as long as its parts, and when the note is added it sits right after the description |
| RetirementPolicy.GetPolicyExplanation | src/services/RetirementPolicyService.ts:226-254 | the text starts with the description; for a special worker with a start date the `TenureNote` of the years worked from a valid start (NaN otherwise) follows it; it ends with the delay sentence exactly when the delay applies; its length is exactly description + note (when added) + delay sentence (when added) |
| RetirementPolicy.CalculateWorkYears | src/services/RetirementPolicyService.ts:57-61 | whole 365.25-day years between the two dates, rounded down; `WorkYearsSpec` states the bounds (definition, no contract of its own) |
| RetirementPolicy.PreDelayAge | src/services/RetirementPolicyService.ts:20-32 | the age before the delay; `PreDelayAgeRule` states both cases (definition, no contract of its own) |
| RetirementPolicy.DelayApplies | src/services/RetirementPolicyService.ts:167-201 | the three guards of the graduated delay; `ApplyDelayMatchesRuleTable` states them as a table (definition, no contract of its own) |
| RetirementPolicy.Delayed | src/services/RetirementPolicyService.ts:168-176 | a delay adds its whole years to the age and its months to the date; `DelayedAge` and `DelayedDate` state it (definition, no contract of its own) |
| RetirementPolicy.RetirementFrom | src/services/RetirementPolicyService.ts:34-51 | the retirement from a pre-delay age; `RetirementFromAge` and `RetirementFromDate` state it (definition, no contract of its own) |
| TimeAnalysis.ParseClock | src/services/TimeAnalysisService.ts:278-281 | a time without a colon-separated minute field is NaN |
| TimeAnalysis.ParseClockOfDigits | src/services/TimeAnalysisService.ts:278-281 | "h:m" in digits reads as h + m/60 |
| TimeAnalysis.ParseClockExample | src/services/TimeAnalysisService.ts:278-281 | "09:30" reads as 9.5 and is a clock reading |
| TimeAnalysis.WorkHoursSpec | src/services/TimeAnalysisService.ts:254-264 | work hours are a number exactly when both times parse; they are end minus start, plus 24 across midnight, and lie in [0, 24) for clock readings |
| TimeAnalysis.SleepHoursSpec | src/services/TimeAnalysisService.ts:266-276 | sleep hours are a number exactly when both times parse; they are wake minus sleep, plus 24 when not positive, and lie in (0, 24] for clock readings |
| TimeAnalysis.HolidaysAreFiveDays | src/services/TimeAnalysisService.ts:238-252 | the holidays are exactly 1 Jan, 1 May, and 1, 2 and 3 Oct |
| TimeAnalysis.WeekendRecursWeekly | src/services/TimeAnalysisService.ts:230-233 | whole weeks later the weekday and weekend status are the same |
| TimeAnalysis.WholeWeeks | src/services/TimeAnalysisService.ts:230-233 | adding whole weeks leaves the weekday index unchanged |
| TimeAnalysis.DayPercent | src/services/TimeAnalysisService.ts:86-99 | the percentage of a day is hours·100/24, and NaN for NaN hours |
| TimeAnalysis.DailyTimeDistribution | src/services/TimeAnalysisService.ts:57-100 | without a schedule: the rest-day split on weekends and holidays, the work-day split otherwise; with one: work and sleep hours, free as max(0, 24 − work − sleep), each with its day percentage |
| TimeAnalysis.ScheduledSplitFillsTheDay | src/services/TimeAnalysisService.ts:82-99 | when work and sleep fit in 24 hours, the three parts add up to 24 hours and 100 percent |
| TimeAnalysis.ThreeDayPercents | src/services/TimeAnalysisService.ts:86-99 | three day percentages of parts adding to 24 hours add to 100 |
| TimeAnalysis.ScheduledSplitOverrun | src/services/TimeAnalysisService.ts:82-99 | when work and sleep exceed 24 hours, free time is 0 and the parts add to more than a day |
| TimeAnalysis.DefaultSplitsFillTheDay | src/services/TimeAnalysisService.ts:60-80 | the default splits fill 24 hours; the rest-day percentages add to 100, the work-day ones to 99.9 |
| TimeAnalysis.NewYearIsRestDay | src/services/TimeAnalysisService.ts:60-80 | without a schedule, 1 January 2024 gets the rest-day split |
| TimeAnalysis.SumIsNumber | src/services/TimeAnalysisService.ts:25-33 | a sum is a number exactly when every term is |
| TimeAnalysis.SumsFillTheDays | src/services/TimeAnalysisService.ts:25-33 | if every day's parts fill 24 hours, the three sums fill 24 hours per day |
| TimeAnalysis.TotalIsNumber | src/services/TimeAnalysisService.ts:25-33 | a bucket's total is a number exactly when every schedule's hours parse |
| TimeAnalysis.TotalsFillTheDays | src/services/TimeAnalysisService.ts:25-33 | when every schedule parses, the three totals add to 24 hours per schedule |
| TimeAnalysis.EveryDaySplits | src/services/TimeAnalysisService.ts:25-33 | position by position, parsable schedules give work and sleep numbers and free time of 24 minus both |
| TimeAnalysis.FreeIsTheRest | src/services/TimeAnalysisService.ts:28-30 | a parsable schedule's free hours are 24 minus its work and sleep hours |
| TimeAnalysis.DaysUntil | src/services/TimeAnalysisService.ts:283-289 | days left are 0 once the date has passed; otherwise they are the days remaining, rounded up |
| TimeAnalysis.DaysUntilRetirement | src/services/TimeAnalysisService.ts:283-289 | NaN exactly for an invalid retirement date; otherwise the non-negative days left |
| TimeAnalysis.CalculateTimeAnalysis | src/services/TimeAnalysisService.ts:4-52 | no schedules give all zeros; otherwise the per-bucket totals, the averages over the schedules, and free time projected over the days left |
| TimeAnalysis.RunningTotals | src/services/TimeAnalysisService.ts:25-33 | the loop's three running totals end as the sums of the schedules' work, sleep and free hours |
| TimeAnalysis.AveragesFillOneDay | src/services/TimeAnalysisService.ts:35-40 | when every schedule parses, the three average hours add up to one day |
| TimeAnalysis.ThreeAverages | src/services/TimeAnalysisService.ts:35-40 | totals adding to 24·n hours have averages adding to 24 |
| TimeAnalysis.CountdownUnitsNest | src/services/TimeAnalysisService.ts:310-335 | years ≤ months ≤ days ≤ hours ≤ minutes ≤ seconds ≤ ms; days are whole days; years and months use 365.25 and 30.44 days; an unknown unit shows days |
| TimeAnalysis.FormatTimeUntilRetirement | src/services/TimeAnalysisService.ts:291-340 | an invalid date shows the error text; the retired text shows exactly when the date has passed; otherwise the text reads back as the count in the chosen unit |
| TimeAnalysis.CountText | src/services/TimeAnalysisService.ts:310-335 | the decimal text of a non-negative count parses back to that count and is never the retired text |
| TimeAnalysis.CountdownExample | src/services/TimeAnalysisService.ts:310-335 | 1000 days and 1 ms show as 1000 days, 32 months and 2 years |
| TimeAnalysis.EffectiveWorkStart | src/services/TimeAnalysisService.ts:348-358 | a valid work start is used; otherwise the start is the birth day 22 years on, at midnight |
| TimeAnalysis.ProgressPercent | src/services/TimeAnalysisService.ts:366-380 | progress lies in [0, 100]; it is 0 before the start and 100 exactly once retired; in between it is elapsed over total times 100 |
| TimeAnalysis.ProgressPercentMonotone | src/services/TimeAnalysisService.ts:366-380 | progress never decreases as time passes |
| TimeAnalysis.PositiveFactor | src/services/TimeAnalysisService.ts:376-380 | a ratio of a non-negative value to a positive total is non-negative |
| TimeAnalysis.RetirementProgress | src/services/TimeAnalysisService.ts:342-385 | progress lies in [0, 100]; it is 0 for an invalid date or before the start, and 100 exactly once a valid retirement date has passed |
| TimeAnalysis.ProgressMonotone | src/services/TimeAnalysisService.ts:342-385 | for a fixed profile, progress never decreases as time passes |
| TimeAnalysis.CareerPercent | src/services/TimeAnalysisService.ts:163-189 | a share of a positive grand total is hours·100/total, and 0 when the total is not positive |
| TimeAnalysis.WholeDaysBetween | src/services/TimeAnalysisService.ts:125-127 | the whole days elapsed, and 0 when the end is before the start |
| TimeAnalysis.SixPercentsSumTo100 | src/services/TimeAnalysisService.ts:163-189 | six shares of their own sum add to 100 |
| TimeAnalysis.ShareOfTotal | src/services/TimeAnalysisService.ts:163-189 | the percentage equals part/total·100 |
| TimeAnalysis.Average | src/services/TimeAnalysisService.ts:142-144 | the average of an empty history is 8 hours; otherwise average times count is the total |
| TimeAnalysis.ProjectedHours | src/services/TimeAnalysisService.ts:147-161 | spent plus remaining hours per bucket are the average times all career days; unspent is the remaining total; a NaN day count makes the remaining parts NaN |
| TimeAnalysis.Distribute | src/services/TimeAnalysisService.ts:148-155 | multiplication distributes over the spent and remaining days |
| TimeAnalysis.ProjectedPercentages | src/services/TimeAnalysisService.ts:163-194 | with a positive grand total the six percentages add to 100; otherwise all seven are 0 |
| TimeAnalysis.CareerTimeDistributionFromHistory | src/services/TimeAnalysisService.ts:105-207 | the averages are the history's totals over its length (8 hours when empty); days worked since the effective start; total and remaining days NaN exactly for an invalid retirement date, remaining never negative; then the projection |
| TimeAnalysis.HistoryTotals | src/services/TimeAnalysisService.ts:130-139 | the loop's three running totals end as the sums of the records' work, sleep and free hours |
| TimeAnalysis.Sum6 | src/services/TimeAnalysisService.ts:158-161 | the grand total is a number exactly when all six parts are, and then it is their sum |
| TimeAnalysis.WorkHours | src/services/TimeAnalysisService.ts:254-264 | end minus start, plus 24 when negative; `WorkHoursSpec` states its range and meaning (definition, no contract of its own) |
| TimeAnalysis.SleepHours | src/services/TimeAnalysisService.ts:266-276 | wake minus sleep, plus 24 when not positive; `SleepHoursSpec` states its range and meaning (definition, no contract of its own) |
| TimeAnalysis.IsWeekend | src/services/TimeAnalysisService.ts:230-233 | Sunday or Saturday; `WeekendRecursWeekly` states its weekly period (definition, no contract of its own) |
| TimeAnalysis.IsHoliday | src/services/TimeAnalysisService.ts:238-252 | month and day in the five-day list; `HolidaysAreFiveDays` states which days (definition, no contract of its own) |
| TimeAnalysis.HoursOf | src/services/TimeAnalysisService.ts:26-28 | one schedule's work, sleep or unclamped free hours; `EveryDaySplits` and `FreeIsTheRest` state them (definition, no contract of its own) |
| TimeAnalysis.Sum | src/services/TimeAnalysisService.ts:158-161 | the left-to-right sum of hours; `SumIsNumber` and `SumsFillTheDays` state it (definition, no contract of its own) |
| TimeAnalysis.Total | src/services/TimeAnalysisService.ts:25-33 | the loop's running total per bucket; `TotalIsNumber` and `TotalsFillTheDays` state it (definition, no contract of its own) |
| TimeAnalysis.CountdownValue | src/services/TimeAnalysisService.ts:310-335 | the countdown number per unit; `CountdownUnitsNest` and `CountdownExample` state it (definition, no contract of its own) |
| TimeAnalysis.Projected | src/services/TimeAnalysisService.ts:147-194 | the projection over the career; `ProjectedHours` and `ProjectedPercentages` state it (definition, no contract of its own) |
| DateUtils.CalculateAge | src/utils/dateUtils.ts:67-77 | the age is the number of birthdays reached: this one is reached, the next is not |
| DateUtils.AddYears | src/utils/dateUtils.ts:79-83 | the year moves by n and the day stays, except that 29 February becomes 1 March in a non-leap year |
| DateUtils.IsToday | src/utils/dateUtils.ts:33-40 | true exactly when the date falls on today's calendar day |
| DateUtils.IsYesterday | src/utils/dateUtils.ts:42-50 | true exactly when the date falls on the calendar day before today |
| DateUtils.GetDateString | src/utils/dateUtils.ts:52-65 | "今天" exactly for today, "昨天" exactly for yesterday, the date itself, for locale rendering, exactly when it is neither and lies at least 7 whole days back, and otherwise "n天前" with n the whole days back, whatever its sign |
| DateUtils.DaysAgoLabel | src/utils/dateUtils.ts:56-62 | a past date that is neither today nor yesterday and under 7 days back reads "n天前" with n between 1 and 6, and n parses back from the label |
| DateUtils.SafeFormatDate | src/utils/dateUtils.ts:20-31 | a missing date reads "未设置", an invalid one "日期错误", and only a valid date is formatted |
| DateUtils.Truncate | src/utils/dateUtils.ts:13-18 | truncation of a non-negative real is its floor |
| DateUtils.MinuteMultiple | src/utils/dateUtils.ts:13-18 | a whole number of minutes is still whole minutes modulo one day |
| DateUtils.ParseTime | src/utils/dateUtils.ts:13-18 | the result is valid exactly when both fields are numbers; it falls on whole minutes, on today at h:m for an in-range time, and for any hours and minutes at today's midnight plus those hours and minutes, carrying into the neighbouring days |
| DateUtils.DayDifference | src/utils/dateUtils.ts:57-58 | `Math.floor` of the millisecond difference over one day; `DaysAgoLabel` and `FutureDayLabel` state its sign and range (definition, no contract of its own) |
| DateUtils.FutureDayLabel | src/utils/dateUtils.ts:52-65 | a day later than today is labelled with a negative count: `getDateString` of tomorrow reads "-1天前" or less, never "今天" or "昨天" |
| DateUtils.TruncateBetween | src/utils/dateUtils.ts:16 | `setHours` drops a non-negative fraction: a number between n and n + 1 truncates to n |
| DateUtils.TruncateWhole | src/utils/dateUtils.ts:16 | a whole number, of either sign, truncates to itself |
| DateUtils.ClockFields | src/utils/dateUtils.ts:14 | `split(':').map(Number)`, the minutes NaN when there is no ':'; `ClockFieldsOfPair` states it (definition, no contract of its own) |
| DateUtils.ClockFieldsOfPair | src/utils/dateUtils.ts:14 | "h:m" splits into `Number(h)` and `Number(m)` |
| DateUtils.ClockFieldsOfNegativeHour | src/utils/dateUtils.ts:13-18 | "-1:00" reads as hour -1 and minute 0, which `ParseTime` then carries to 23:00 of the day before |
| DateUtils.ClockFieldsOfFractionalHour | src/utils/dateUtils.ts:13-18 | "8.5:30" reads as hour 8.5 and minute 30, which `ParseTime` truncates to 8:30 |
| DateUtils.ClockOnDay | src/utils/dateUtils.ts:16-17 | hours and minutes set on a day give a whole number of minutes after its midnight, the same day when they lie inside it, and the instant midnight plus those hours and minutes otherwise |
| TimeRecords.IndexOfDate | src/services/TimeDataStorageService.ts:34 | `findIndex`: the first record of that day, or -1 when there is none |
| TimeRecords.FindByDate | src/services/TimeDataStorageService.ts:54-62 | `find`: the first record of that day in the list, none exactly when no record has that day, and the only one when days are unique |
| TimeRecords.UpsertSpec | src/services/TimeDataStorageService.ts:36-42 | the new record is in, records of other days stay, nothing else comes in, and the length grows only for a new day |
| TimeRecords.UpsertKeepsDatesUnique | src/services/TimeDataStorageService.ts:36-42 | an upsert keeps one record per day |
| TimeRecords.Insert | src/services/TimeDataStorageService.ts:45 | inserting adds exactly the record to the multiset |
| TimeRecords.InsertMembers | src/services/TimeDataStorageService.ts:45 | the members after inserting are the old ones and the record |
| TimeRecords.InsertKeepsNewestFirst | src/services/TimeDataStorageService.ts:45 | inserting into a newest-first list keeps it newest first |
| TimeRecords.NewestFirstCons | src/services/TimeDataStorageService.ts:45 | a record no older than every record of a newest-first list can go in front of it |
| TimeRecords.SortNewestFirst | src/services/TimeDataStorageService.ts:45 | the sort is a permutation, newest first |
| TimeRecords.InsertKeepsDatesUnique | src/services/TimeDataStorageService.ts:45 | inserting a record of a new day keeps days unique |
| TimeRecords.UniqueDatesCons | src/services/TimeDataStorageService.ts:45 | a record of a day missing from a list with unique days can go in front of it |
| TimeRecords.SortKeepsDatesUnique | src/services/TimeDataStorageService.ts:45 | sorting keeps days unique |
| TimeRecords.DisplayDateRoundTrip | src/services/TimeDataStorageService.ts:117-122 | the "M月D日" label reads back as month and day |
| TimeRecords.DisplayDateDistinguishes | src/services/TimeDataStorageService.ts:117-122 | equal labels mean equal month and day |
| TimeRecords.YesterdayKey | src/services/TimeDataStorageService.ts:87-90 | yesterday's key names the day before now |
| TimeRecords.TimeRecordStore.constructor | src/services/TimeDataStorageService.ts:18-26 | a new store holds no history and no yesterday data |
| TimeRecords.TimeRecordStore.Records | src/services/TimeDataStorageService.ts:18-26 | `getAllTimeRecords`: [] when nothing is stored, else the stored list |
| TimeRecords.TimeRecordStore.GetTimeRecordByDate | src/services/TimeDataStorageService.ts:54-62 | the record of that day, or none exactly when no record has that day |
| TimeRecords.TimeRecordStore.SaveTimeRecord | src/services/TimeDataStorageService.ts:29-51 | the history becomes the newest-first sort of the upsert; the record is in, other days are kept, nothing foreign appears, and unique days stay unique |
| TimeRecords.SavedRecords | src/services/TimeDataStorageService.ts:29-51 | the saved list holds the record and every record of another day, nothing else, newest first, and unique days when they were unique before |
| TimeRecords.TimeRecordStore.GetYesterdayTimeData | src/services/TimeDataStorageService.ts:65-73 | returns the stored yesterday data |
| TimeRecords.TimeRecordStore.SaveYesterdayTimeData | src/services/TimeDataStorageService.ts:76-82 | stores the data and leaves the history alone |
| TimeRecords.TimeRecordStore.CheckAndSaveYesterdayRecord | src/services/TimeDataStorageService.ts:85-114 | nothing changes when yesterday already has a record or there is no data; otherwise yesterday's record with the data is added and the list sorted |
| TimeRecords.Upsert | src/services/TimeDataStorageService.ts:34-42 | replace the first record of the day or append; `UpsertSpec` states what changes (definition, no contract of its own) |
| TimeRecords.FormatDateForDisplay | src/services/TimeDataStorageService.ts:117-122 | "M月D日" of a record key; `DisplayDateRoundTrip` reads it back (definition, no contract of its own) |
| TimeRecords.ParseDisplayDate | src/services/TimeDataStorageService.ts:117-122 | the inverse reading of "M月D日"; `DisplayDateRoundTrip` states that it undoes the formatting (definition, no contract of its own) |
| Storage.Revive | src/services/StorageService.ts:74-83 | a schedule with its `createdAt` comes back unchanged; one without it comes back with `createdAt` set to now and nothing else changed |
| Storage.ReviveStash | src/services/StorageService.ts:54-88 | a schedule that was written reads back unchanged |
| Storage.ScheduleIndex | src/services/StorageService.ts:56 | `findIndex`: the first schedule of that day, or -1 |
| Storage.UpsertScheduleSpec | src/services/StorageService.ts:56-63 | the first schedule of the day is replaced in place, or the new one appended; nothing else moves |
| Storage.FindSchedule | src/services/StorageService.ts:90-98 | the first schedule of that day in the list, none exactly when there is none |
| Storage.SavedScheduleReadsBack | src/services/StorageService.ts:54-98 | after saving, the day reads back the saved schedule and every other day reads as before |
| Storage.Store.constructor | src/services/StorageService.ts:4-9 | a new store has all four keys absent |
| Storage.Store.Schedules | src/services/StorageService.ts:72-88 | [] when nothing is stored, else every stored schedule revived |
| Storage.Store.SaveUserProfile | src/services/StorageService.ts:13-20 | the profile is stored and the other keys are untouched |
| Storage.Store.GetUserProfile | src/services/StorageService.ts:22-51 | returns the stored profile, or none |
| Storage.Store.GetAllDailySchedules | src/services/StorageService.ts:72-88 | one schedule per stored entry, same days, those with `createdAt` unchanged |
| Storage.Store.GetDailySchedule | src/services/StorageService.ts:90-98 | the first stored schedule of that day, after reviving, or none exactly when there is none |
| Storage.Store.SaveDailySchedule | src/services/StorageService.ts:54-70 | every schedule is written with its `createdAt`, so the stored list reads back, at any later time, as the upsert of the list read at the save; the other keys are untouched |
| Storage.Store.SaveAppSettings | src/services/StorageService.ts:101-108 | the app settings are stored, other keys untouched |
| Storage.Store.GetAppSettings | src/services/StorageService.ts:110-119 | returns the stored app settings, or none |
| Storage.Store.SaveWidgetSettings | src/services/StorageService.ts:121-128 | the widget settings are stored, other keys untouched |
| Storage.Store.GetWidgetSettings | src/services/StorageService.ts:130-139 | returns the stored widget settings, or none |
| Storage.Store.ClearAllData | src/services/StorageService.ts:141-148 | all four keys are removed, and the record history is not in its frame |
| Storage.UpsertSchedule | src/services/StorageService.ts:56-63 | replace the first schedule of the day or append; `UpsertScheduleSpec` states what changes (definition, no contract of its own) |
| Storage.Stash | src/services/StorageService.ts:54-70 | a saved schedule has every field; `ReviveStash` states that it reads back unchanged (definition, no contract of its own) |
| HistoryCalendar.CellAt | src/screens/HistoryCalendarScreen.tsx:78-86 | a cell has a record exactly when some record has its key, and then shows the first one's split |
| HistoryCalendar.FirstWeekDay | src/screens/HistoryCalendarScreen.tsx:62-66 | the weekday of the first of the month is in 0..6 |
| HistoryCalendar.DayZeroIsPreviousMonthEnd | src/screens/HistoryCalendarScreen.tsx:69-70 | day 0 of a month is the last day of the month before |
| HistoryCalendar.MonthLengths | src/screens/HistoryCalendarScreen.tsx:62-70 | the lengths the grid reads are the previous and current month lengths |
| HistoryCalendar.NeighbourKeysAsWrittenMissRecords | src/screens/HistoryCalendarScreen.tsx:77 | as written, January's leading cells and December's trailing cells find no record |
| HistoryCalendar.NeighbourKeyCounterexample | src/screens/HistoryCalendarScreen.tsx:77 | for January 2025, a record of 31 December 2024 is missed as written and found with the corrected key |
| HistoryCalendar.GenerateCalendarData | src/screens/HistoryCalendarScreen.tsx:56-123 | 42 cells, each the cell the three loops build with the neighbour-month keys as written (`WrittenCell`) |
| HistoryCalendar.GridFits | src/screens/HistoryCalendarScreen.tsx:107-108 | leading cells and month days leave at least five cells for the next month |
| HistoryCalendar.GridIsConsecutiveDays | src/screens/HistoryCalendarScreen.tsx:56-123 | cell k shows the day k days after the grid's first Sunday, is in the month exactly when that date is, and looks up that date's record |
| HistoryCalendar.CellWeekDay | src/screens/HistoryCalendarScreen.tsx:37 | cell k falls on weekday k mod 7, matching the Sunday-first header |
| HistoryCalendar.SameWeekDayOffset | src/screens/HistoryCalendarScreen.tsx:75-76 | shifting back to the week's start keeps the column arithmetic |
| HistoryCalendar.CellDateShape | src/screens/HistoryCalendarScreen.tsx:75-120 | a cell's date is in the previous, current or next month according to its index |
| HistoryCalendar.TodayMarkedOnce | src/screens/HistoryCalendarScreen.tsx:91-93 | a cell is today exactly when today is in the displayed month at that cell |
| HistoryCalendar.ChangeMonthAsWrittenSkipsFebruary | src/screens/HistoryCalendarScreen.tsx:131-139 | as written, Next from 31 January 2025 shows 3 March, two months on |
| HistoryCalendar.ChangeMonthMovesOneMonth | src/screens/HistoryCalendarScreen.tsx:131-139 | the corrected navigation moves exactly one month either way |
| HistoryCalendar.ChangeMonthAsWrittenEarlyDays | src/screens/HistoryCalendarScreen.tsx:131-139 | as written, navigation is right from any day up to the 28th |
| HistoryCalendar.PrevMonthDays | src/screens/HistoryCalendarScreen.tsx:69-70 | the length of the previous month via day 0; `MonthLengths` states it (definition, no contract of its own) |
| HistoryCalendar.MonthDays | src/screens/HistoryCalendarScreen.tsx:63 | the length of the month via day 0 of the next; `MonthLengths` states it (definition, no contract of its own) |
| HistoryCalendar.LeadingKey | src/screens/HistoryCalendarScreen.tsx:77 | the corrected previous-month key, across the year boundary; `GridIsConsecutiveDays` states that it names the cell's own day (definition, no contract of its own) |
| HistoryCalendar.CurrentKey | src/screens/HistoryCalendarScreen.tsx:95 | the key of a day of the displayed month (definition, no contract of its own) |
| HistoryCalendar.TrailingKey | src/screens/HistoryCalendarScreen.tsx:110 | the corrected next-month key, across the year boundary (definition, no contract of its own) |
| HistoryCalendar.LeadingKeyAsWritten | src/screens/HistoryCalendarScreen.tsx:77 | the previous-month key as written: the displayed year and the 0-based month (definition; `NeighbourKeysAsWrittenMissRecords` states its January failure) |
| HistoryCalendar.TrailingKeyAsWritten | src/screens/HistoryCalendarScreen.tsx:110 | the next-month key as written: the displayed year and month + 2 (definition; `NeighbourKeysAsWrittenMissRecords` states its December failure) |
| HistoryCalendar.CellDate | src/screens/HistoryCalendarScreen.tsx:75-120 | the date cell k stands for; `CellDateShape` and `CellWeekDay` state it (definition, no contract of its own) |
| HistoryCalendar.GridCell | src/screens/HistoryCalendarScreen.tsx:75-120 | cell k from the first weekday and the two month lengths, with the written or the corrected neighbour keys (definition, no contract of its own) |
| HistoryCalendar.ExpectedCell | src/screens/HistoryCalendarScreen.tsx:56-123 | the grid as intended, every cell looking up its own day; `GridIsConsecutiveDays` states it (definition, no contract of its own) |
| HistoryCalendar.WrittenCell | src/screens/HistoryCalendarScreen.tsx:56-123 | the grid as the three loops write it; `GenerateCalendarData` computes it and `WrittenGridAgainstExpected` compares it with the intended grid (definition, no contract of its own) |
| HistoryCalendar.WrittenGridAgainstExpected | src/screens/HistoryCalendarScreen.tsx:75-120 | the written grid equals the intended one except for January's previous-December cells and December's next-January cells, which keep day and flags but never show a record |
| HistoryCalendar.ChangeMonthAsWritten | src/screens/HistoryCalendarScreen.tsx:131-139 | `setMonth(getMonth() ± 1)` on the displayed date; `ChangeMonthAsWrittenSkipsFebruary` and `ChangeMonthAsWrittenEarlyDays` state it (definition, no contract of its own) |
| HistoryCalendar.ChangeMonth | src/screens/HistoryCalendarScreen.tsx:131-139 | the navigation from the 1st of the month; `ChangeMonthMovesOneMonth` states it (definition, no contract of its own) |
| ProfileForm.ValidateProfileInput | src/screens/OnboardingScreen.tsx:43-97 | an accepted form has parsed dates, and its entry is the trimmed name with the dates the fields build |
| ProfileForm.CheckFields | src/screens/OnboardingScreen.tsx:52-97 | the checks in their order; acceptance builds the entry from the parsed dates |
| ProfileForm.FirstFailureReported | src/screens/OnboardingScreen.tsx:43-97 | a rejection names a failing check, and every earlier check passed |
| ProfileForm.AcceptedIffNoCheckFails | src/screens/OnboardingScreen.tsx:43-97 | a form is accepted exactly when no check fails |
| ProfileForm.AcceptedPassesEveryCheck | src/screens/OnboardingScreen.tsx:43-97 | an accepted form fails none of the checks |
| ProfileForm.FormDay | src/screens/OnboardingScreen.tsx:90-91 | a form date with day 1..31 stays in its year and is that many days into the month |
| ProfileForm.WorkStartLongAfterBirth | src/screens/OnboardingScreen.tsx:72-75 | a work year at least 16 after the birth year starts at least 15·365 days after birth |
| ProfileForm.WorkBeforeBirthNeverReported | src/screens/OnboardingScreen.tsx:94-97 | the work-before-birth check never fires, because the year checks already exclude it |
| ProfileForm.WorkNotBeforeBirth | src/screens/OnboardingScreen.tsx:94-97 | a work start at least sixteen years after the birth year, with months and days in range, is not before the birth |
| ProfileForm.AcceptedDates | src/screens/OnboardingScreen.tsx:52-91 | accepted dates are at midnight, with birth year 1940..current−16 and work year birth+16..current |
| ProfileForm.AcceptedName | src/screens/OnboardingScreen.tsx:43-46 | an accepted name is not blank and is stored trimmed |
| ProfileForm.HandleComplete | src/screens/OnboardingScreen.tsx:41-140 | a rejected form stores nothing; an accepted one stores the new profile and reports whether its retirement date has passed |
| ProfileForm.NewProfileCarriesEntry | src/screens/OnboardingScreen.tsx:100-123 | the new profile carries the entry's name, gender, category and dates, no image, and now as both timestamps |
| ProfileForm.NewProfileRetirementAge | src/screens/OnboardingScreen.tsx:100-123 | the saved retirement age is the pre-delay age plus the delay's whole years, at most five more |
| ProfileForm.NewProfileRetirementDate | src/screens/OnboardingScreen.tsx:100-123 | the saved retirement date is the birth date at the pre-delay age, moved forward by the delay months |
| ProfileForm.NewProfileRetirement | src/screens/OnboardingScreen.tsx:100-110 | the saved age and date are those the policy resolver returns for the entry |
| ProfileForm.ReviseKeepsIdentity | src/hooks/useUserProfile.ts:72-82 | an edit keeps id, creation time and image, and everything else is what onboarding would build |
| ProfileForm.SettingsScreen.constructor | src/screens/SettingsScreen.tsx:21-32 | the screen starts not editing, with the empty form |
| ProfileForm.SettingsScreen.StartEditing | src/screens/SettingsScreen.tsx:34-54 | without a profile nothing changes; otherwise editing starts with the profile's fields |
| ProfileForm.SettingsScreen.CancelEditing | src/screens/SettingsScreen.tsx:56-69 | editing stops and the form is cleared |
| ProfileForm.SettingsScreen.SaveChanges | src/screens/SettingsScreen.tsx:71-146 | no profile: nothing; rejected: nothing changes; accepted: the revised profile is stored and editing stops |
| ProfileForm.DateFieldsReadBack | src/screens/SettingsScreen.tsx:45-50 | the year, month and day strings of a valid date parse back, and those of an invalid one do not parse |
| ProfileForm.ParsedFormOf | src/screens/SettingsScreen.tsx:37-50 | parsing the edit form gives back the profile's date fields |
| ProfileForm.FormOfDateFields | src/screens/SettingsScreen.tsx:34-54 | the edit form carries the birth date's fields and the work start's fields, today's when no work start is stored |
| ProfileForm.ParseOfDateFields | src/screens/SettingsScreen.tsx:45-50 | a form whose date fields are the texts written for two dates parses to those dates' year, month and day numbers (NaN for an invalid date) |
| ProfileForm.ParseIntOfIntToStringAlone | src/screens/SettingsScreen.tsx:45-50 | a number's text on its own parses back as that number |
| ProfileForm.ParseOfForm | src/screens/SettingsScreen.tsx:80-85 | parsing a form reads each of the six date fields on its own |
| ProfileForm.MidnightOfFields | src/screens/SettingsScreen.tsx:118-119 | rebuilding a date from its fields gives the same day at midnight |
| ProfileForm.CheckFieldsOfDates | src/screens/SettingsScreen.tsx:87-124 | fields from two dates pass exactly when the name is non-empty and the years are in range; they rebuild the dates at midnight |
| ProfileForm.EditRoundTrip | src/screens/SettingsScreen.tsx:34-146 | saving an unchanged edit form succeeds exactly when the stored name is not blank and the years are in range, and gives back the same days at midnight |
| ProfileForm.Parse | src/screens/OnboardingScreen.tsx:48-70 | the six fields read with `parseInt` (definition, no contract of its own) |
| ProfileForm.Fails | src/screens/OnboardingScreen.tsx:43-97 | each check's rejecting condition; `AcceptedIffNoCheckFails` and `FirstFailureReported` state the order (definition, no contract of its own) |
| ProfileForm.BirthDate | src/screens/OnboardingScreen.tsx:90 | `new Date(year, month - 1, day)` (definition; `AcceptedDates` states it for accepted forms) |
| ProfileForm.WorkStartDate | src/screens/OnboardingScreen.tsx:91 | `new Date(workYear, workMonth - 1, workDay)` (definition; `AcceptedDates` states it for accepted forms) |
| ProfileForm.RetirementOf | src/screens/OnboardingScreen.tsx:100-105 | the resolver's retirement with the work start known (definition; `NewProfileRetirement` states its use) |
| ProfileForm.NewProfile | src/screens/OnboardingScreen.tsx:112-123 | the profile of an accepted form; the four `NewProfile…` lemmas state its fields (definition, no contract of its own) |
| ProfileForm.Revise | src/hooks/useUserProfile.ts:72-82 | `updateProfile` with the edited fields; `ReviseKeepsIdentity` states what it keeps (definition, no contract of its own) |
| ProfileForm.DateFields | src/screens/SettingsScreen.tsx:45-50 | the three date texts `startEditing` writes; `DateFieldsReadBack` reads them back (definition, no contract of its own) |
| ProfileForm.FormOf | src/screens/SettingsScreen.tsx:34-54 | the form `startEditing` fills; `ParsedFormOf` states what it parses to (definition, no contract of its own) |

## Left out

- Floating point is not modelled. Hours and percentages are exact reals, and
  `toFixed(1)` rounding is not modelled. `Math.floor` is exact over integers.
- The `try`/`catch` branches and `console.error` logging are left out. The model's
  operations do not throw, apart from storage I/O failures, which are also left out.
- `Alert.alert` dialogs, the loading flag, and the alert that shows the policy
  explanation after onboarding are left out.
- AsyncStorage serialisation is not modelled. The stored values are the values
  themselves, and reading back is the identity. JSON would turn an invalid date into
  `null`.
- Time zones and locale are not modelled. `toISOString` keys are the local date
  triple. `toLocaleDateString` is a `LocaleDate` value, not text. The zero padding of
  years before 1000 is not modelled.
- `getTodayDateString`, `getYesterdayDateString`, `formatDate`, `parseDate`,
  `generateMockDailySchedule` and the widget bridge are not part of this model. The
  services that use them are modelled through `KeyOf` and `YesterdayKey`.
- The global profile hook is modelled through `Storage.Store.profile`. Its listeners
  and re-renders are left out.
- `Date.now().toString()` as the profile id is modelled as the rendered time of `now`.
- A stored job category outside the five the forms offer is the single value `Unlisted`.
  The policy table gives it the default branch of the switch.
- TimeRecords.SortNewestFirst: the sort is a stable insertion sort over the keys' time.
  The engine's own sort algorithm is not modelled. Its order among equal keys does not
  matter for saved histories: their dates are unique (`SavedRecords`,
  `SortKeepsDatesUnique`) and distinct days have distinct times (`EpochDaysInjective`),
  so the comparator never sees a tie there.
- The hours inside stored history records are reals. A NaN inside a record is not
  modelled.
- TimeAnalysis.Projected has no contract of its own. ProjectedHours and
  ProjectedPercentages state what it computes.
- Calendar.NewDate: a year argument in 0..99 is kept as it is; `new Date(y, m, d)` reads
  it as 1900 + y. The members built on it inherit this: `HistoryCalendar.FirstWeekDay`,
  `PrevMonthDays`, `MonthDays` and `CellDate`, `TimeAnalysis.EffectiveWorkStart`, and
  `ProfileForm.BirthDate`, `WorkStartDate` and `MidnightOfFields`. The form checks accept
  only years from 1940 on, so the last three never see such a year. The other callers
  receive `getFullYear()` of a current or stored date, or a birth year plus 22.
- Text.ToNumber: reads trimmed text with an optional sign, digits and an optional
  decimal fraction. Exponents ("1e1"), "Infinity" and the "0x", "0o" and "0b" literals
  are NaN in the model, although `Number` reads them; hours and minutes typed as clock
  text never take those forms.
- Text.ParseInt: reads any number of digits exactly. A double loses precision beyond
  2^53, and that rounding is not modelled.
- DateUtils.ParseTime: an instant outside the range of a JavaScript date (more than
  8.64e15 ms from 1970) makes the Invalid Date; the model has no such bound.
- RetirementPolicy.GetJobTypeDescription: a key inherited from `Object.prototype`, such
  as "toString", returns that inherited function rather than a label; such keys are
  modelled as unknown keys.
- The screens' rendering is not modelled: rings, progress bars, the tab bar and
  pickers. Only the data each screen computes is modelled.

Unreachable check: `WorkStartLongAfterBirth` and `WorkBeforeBirthNeverReported` show
that the work-before-birth check in both forms can never reject anything. The
work-year check already puts the work start at least 16 calendar years after the
birth year. The check is modelled as written.

## Findings

| source | as written | input that shows it | evidently intended | confidence | as-written member | corrected member |
|---|---|---|---|---|---|---|
| src/screens/HistoryCalendarScreen.tsx:77-110 | previous-month cells look up `year-month` with the 0-based month of the displayed month, and next-month cells use `year-(month+2)` | displaying January 2025 with a record for 2024-12-31: the cell asks for "2025-00-31" and shows no record; December gives "13" | the key of the cell's own date, across the year boundary (`ExpectedCell`; `GenerateCalendarData` keeps the written keys, and `WrittenGridAgainstExpected` bounds the difference to those cells) | not executed | HistoryCalendar.NeighbourKeyCounterexample | HistoryCalendar.GridIsConsecutiveDays |
| src/screens/HistoryCalendarScreen.tsx:131-139 | `setMonth(getMonth() ± 1)` on the displayed date keeps its day, so a 29th–31st overflows | displaying 31 January 2025 and pressing next shows 3 March 2025, skipping February | move exactly one month | not executed | HistoryCalendar.ChangeMonthAsWrittenSkipsFebruary | HistoryCalendar.ChangeMonthMovesOneMonth |

=== FILE: basics.dfy ===
/** Small value types shared by every module: an optional value, and a JavaScript
    number that may be NaN (the only non-finite value the modelled code produces). */
module Basics {

  datatype Option<+T> = None | Some(value: T)

  /** A JavaScript number as the modelled code can produce it: a finite value or NaN.
      Every arithmetic operation with a NaN operand yields NaN. */
  datatype Number = Val(v: real) | NaN {

    function Plus(other: Number): (r: Number)
      ensures r.Val? <==> Val? && other.Val?
      ensures r.Val? ==> r.v == v + other.v
    {
      if Val? && other.Val? then Val(v + other.v) else NaN
    }

    function Minus(other: Number): (r: Number)
      ensures r.Val? <==> Val? && other.Val?
      ensures r.Val? ==> r.v == v - other.v
    {
      if Val? && other.Val? then Val(v - other.v) else NaN
    }

    function Times(other: Number): (r: Number)
      ensures r.Val? <==> Val? && other.Val?
      ensures r.Val? ==> r.v == v * other.v
    {
      if Val? && other.Val? then Val(v * other.v) else NaN
    }

    /** Division by a non-zero constant. */
    function Over(k: real): (r: Number)
      requires k != 0.0
      ensures r.Val? <==> Val?
      ensures r.Val? ==> r.v * k == v
    {
      if Val? then Val(v / k) else NaN
    }
  }

  /** `Math.max(0, x)`: NaN stays NaN. */
  function MaxZero(x: Number): (r: Number)
    ensures r.Val? <==> x.Val?
    ensures r.Val? ==> r.v >= 0.0 && r.v >= x.v && (r.v == 0.0 || r.v == x.v)
  {
    match x
    case NaN => NaN
    case Val(a) => if a > 0.0 then Val(a) else Val(0.0)
  }

  function Max(a: int, b: int): int { if a >= b then a else b }

  function Min(a: int, b: int): int { if a <= b then a else b }
}

=== FILE: calendar.dfy ===
/** JavaScript `Date` arithmetic in the proleptic Gregorian calendar.

    A date is kept as its local calendar fields (`getFullYear`, `getMonth` counted from 0,
    `getDate`) plus the milliseconds since local midnight. The setters normalise overflow as
    JavaScript's MakeDay does: a month outside 0..11 carries into the year, and a day outside
    the month carries into the neighbouring months ("Jan 31 + 1 month" is 2 or 3 March).
    `getTime()` counts milliseconds from 1970-01-01 00:00; there is a single time zone. */
module Calendar {
  import opened Basics

  const SECOND_MS: int := 1000
  const MINUTE_MS: int := 60_000
  const HOUR_MS: int := 3_600_000
  const DAY_MS: int := 86_400_000

  predicate IsLeapYear(y: int)
  {
    y % 4 == 0 && (y % 100 != 0 || y % 400 == 0)
  }

  function DaysInMonth(y: int, m: int): (n: int)
    requires 0 <= m < 12
    ensures 28 <= n <= 31
    ensures n == 28 <==> m == 1 && !IsLeapYear(y)
  {
    if m == 1 then (if IsLeapYear(y) then 29 else 28)
    else if m == 3 || m == 5 || m == 8 || m == 10 then 30
    else 31
  }

  datatype DateTime = DateTime(year: int, month: int, day: int, msOfDay: int)
  {
    predicate WellFormed()
    {
      0 <= month < 12 && 1 <= day <= DaysInMonth(year, month) && 0 <= msOfDay < DAY_MS
    }
  }

  /** A valid JavaScript Date: month 0..11, a day that exists in that month, a time of day. */
  type Date = d: DateTime | d.WellFormed() witness DateTime(1970, 0, 1, 0)

  /** A Date object, which may be the Invalid Date (its `getTime()` is NaN). */
  datatype Stamp = Valid(date: Date) | Invalid

  /** A "YYYY-MM-DD" text, kept as its three numbers (month counted from 1). The zero-padded
      format is injective on these numbers, so comparing keys compares the texts. */
  datatype DateKey = DateKey(year: int, month: int, day: int)
  {
    predicate IsCalendarDay()
    {
      1 <= month <= 12 && 1 <= day <= DaysInMonth(year, month - 1)
    }
  }

  /** A key that names a real calendar day, as every stored record date does. */
  type CalendarKey = k: DateKey | k.IsCalendarDay() witness DateKey(1970, 1, 1)

  /** The key of a date's calendar day. */
  function KeyOf(d: Date): (k: CalendarKey)
    ensures k.year == d.year && k.month == d.month + 1 && k.day == d.day
  {
    DateKey(d.year, d.month + 1, d.day)
  }

  // ----- normalisation -----

  /** Day `d` counted from the first of month `m` of year `y`; `d` may lie outside the month. */
  function NormDay(y: int, m: int, d: int, ms: int): (r: Date)
    requires 0 <= m < 12 && 0 <= ms < DAY_MS
    ensures r.msOfDay == ms
    ensures 1 <= d <= DaysInMonth(y, m) ==> r == DateTime(y, m, d, ms)
    decreases if d < 1 then 1 else 0, if d < 1 then -d else d
  {
    if d < 1 then
      var py := if m == 0 then y - 1 else y;
      var pm := if m == 0 then 11 else m - 1;
      NormDay(py, pm, d + DaysInMonth(py, pm), ms)
    else if d > DaysInMonth(y, m) then
      var ny := if m == 11 then y + 1 else y;
      var nm := if m == 11 then 0 else m + 1;
      NormDay(ny, nm, d - DaysInMonth(y, m), ms)
    else
      DateTime(y, m, d, ms)
  }

  /** MakeDay(y, m, d) at a given time of day: any month and day numbers are accepted. */
  function MakeDate(y: int, m: int, d: int, ms: int): (r: Date)
    requires 0 <= ms < DAY_MS
    ensures r.msOfDay == ms
    ensures 0 <= m < 12 && 1 <= d <= DaysInMonth(y, m) ==> r == DateTime(y, m, d, ms)
  {
    NormDay(y + m / 12, m % 12, d, ms)
  }

  /** `new Date(y, m, d)` for a year outside 0..99: local midnight of the normalised day. */
  function NewDate(y: int, m: int, d: int): (r: Date)
    ensures r.msOfDay == 0
  {
    MakeDate(y, m, d, 0)
  }

  /** `date.setFullYear(y)` on a copy. */
  function SetFullYear(date: Date, y: int): Date
  {
    MakeDate(y, date.month, date.day, date.msOfDay)
  }

  /** `date.setMonth(m)` on a copy. */
  function SetMonth(date: Date, m: int): Date
  {
    MakeDate(date.year, m, date.day, date.msOfDay)
  }

  /** `date.setDate(d)` on a copy. */
  function SetDate(date: Date, d: int): Date
  {
    MakeDate(date.year, date.month, d, date.msOfDay)
  }

  /** `date.setHours(h, min, s, ms)` on a copy: a time of day outside one day carries
      into the neighbouring days. */
  function SetHours(date: Date, h: int, min: int, s: int, ms: int): (r: Date)
    ensures r.msOfDay == (h * HOUR_MS + min * MINUTE_MS + s * SECOND_MS + ms) % DAY_MS
  {
    var t := h * HOUR_MS + min * MINUTE_MS + s * SECOND_MS + ms;
    MakeDate(date.year, date.month, date.day + t / DAY_MS, t % DAY_MS)
  }

  /** Adding whole months keeps the day of the month when that day exists in every month. */
  lemma SetMonthKeepsDay(date: Date, m: int)
    requires date.day <= 28
    ensures SetMonth(date, m) == DateTime(date.year + m / 12, m % 12, date.day, date.msOfDay)
  {
  }

  /** Shifting the year keeps month and day unless the day is 29 February and the target
      year is not a leap year. */
  lemma SetFullYearKeepsDay(date: Date, y: int)
    requires date.day <= DaysInMonth(y, date.month)
    ensures SetFullYear(date, y) == date.(year := y)
  {
  }

  /** The documented 29 February roll-over: 2000-02-29 moved to 2001 is 2001-03-01. */
  lemma SetFullYearLeapDayRollsOver()
    ensures SetFullYear(DateTime(2000, 1, 29, 0), 2001) == DateTime(2001, 2, 1, 0)
  {
  }

  // ----- getTime and getDay -----

  function LeapYearsBefore(y: int): int
  {
    (y - 1) / 4 - (y - 1) / 100 + (y - 1) / 400
  }

  function DaysBeforeYear(y: int): int
  {
    365 * (y - 1970) + LeapYearsBefore(y) - LeapYearsBefore(1970)
  }

  function DaysBeforeMonth(y: int, m: int): int
    requires 0 <= m < 12
  {
    var common :=
      if m < 6 then
        (if m == 0 then 0 else if m == 1 then 31 else if m == 2 then 59
         else if m == 3 then 90 else if m == 4 then 120 else 151)
      else
        (if m == 6 then 181 else if m == 7 then 212 else if m == 8 then 243
         else if m == 9 then 273 else if m == 10 then 304 else 334);
    common + (if m >= 2 && IsLeapYear(y) then 1 else 0)
  }

  /** Days from 1970-01-01 to day `d` of month `m` of year `y` (`d` may lie outside the month). */
  function DayNumber(y: int, m: int, d: int): int
    requires 0 <= m < 12
  {
    DaysBeforeYear(y) + DaysBeforeMonth(y, m) + d - 1
  }

  function EpochDays(date: Date): int
  {
    DayNumber(date.year, date.month, date.day)
  }

  /** `date.getTime()`. */
  function Time(date: Date): int
  {
    EpochDays(date) * DAY_MS + date.msOfDay
  }

  /** `date.getDay()`: 0 is Sunday, 6 is Saturday (1970-01-01 was a Thursday). */
  function WeekDay(date: Date): (w: int)
    ensures 0 <= w < 7
  {
    (EpochDays(date) + 4) % 7
  }

  /** `new Date("YYYY-MM-DD").getTime()`: midnight of the keyed day. */
  function KeyTime(k: CalendarKey): int
  {
    DayNumber(k.year, k.month - 1, k.day) * DAY_MS
  }

  lemma EpochOrigin()
    ensures Time(DateTime(1970, 0, 1, 0)) == 0
    ensures WeekDay(DateTime(1970, 0, 1, 0)) == 4
  {
  }

  lemma DivStep(y: int)
    ensures y / 4 - (y - 1) / 4 == (if y % 4 == 0 then 1 else 0)
    ensures y / 100 - (y - 1) / 100 == (if y % 100 == 0 then 1 else 0)
    ensures y / 400 - (y - 1) / 400 == (if y % 400 == 0 then 1 else 0)
  {
  }

  /** A year has 366 days exactly when it is a leap year. */
  lemma {:induction false} YearLength(y: int)
    ensures DaysBeforeYear(y + 1) - DaysBeforeYear(y) == (if IsLeapYear(y) then 366 else 365)
  {
    DivStep(y);
  }

  /** The first of the next month comes `DaysInMonth` days after the first of this one. */
  lemma {:induction false} MonthLength(y: int, m: int)
    requires 0 <= m < 12
    ensures var ny := if m == 11 then y + 1 else y;
            var nm := if m == 11 then 0 else m + 1;
            DayNumber(ny, nm, 1) == DayNumber(y, m, 1) + DaysInMonth(y, m)
  {
    if m == 11 {
      YearLength(y);
    }
  }

  /** Normalisation does not move the day: it only renames it. */
  lemma {:induction false} NormDayNumber(y: int, m: int, d: int, ms: int)
    requires 0 <= m < 12 && 0 <= ms < DAY_MS
    ensures EpochDays(NormDay(y, m, d, ms)) == DayNumber(y, m, d)
    decreases if d < 1 then 1 else 0, if d < 1 then -d else d
  {
    if d < 1 {
      var py := if m == 0 then y - 1 else y;
      var pm := if m == 0 then 11 else m - 1;
      var back := d + DaysInMonth(py, pm);
      assert NormDay(y, m, d, ms) == NormDay(py, pm, back, ms);
      NormDayNumber(py, pm, back, ms);
      PreviousMonthDayNumber(y, m, d);
    } else if d > DaysInMonth(y, m) {
      var ny := if m == 11 then y + 1 else y;
      var nm := if m == 11 then 0 else m + 1;
      var on := d - DaysInMonth(y, m);
      assert NormDay(y, m, d, ms) == NormDay(ny, nm, on, ms);
      NormDayNumber(ny, nm, on, ms);
      NextMonthDayNumber(y, m, d);
    }
  }

  /** Day `d` of a month is day `d` plus the length of the previous month, counted in it. */
  lemma PreviousMonthDayNumber(y: int, m: int, d: int)
    requires 0 <= m < 12
    ensures var py := if m == 0 then y - 1 else y;
            var pm := if m == 0 then 11 else m - 1;
            DayNumber(y, m, d) == DayNumber(py, pm, d + DaysInMonth(py, pm))
  {
    var py := if m == 0 then y - 1 else y;
    var pm := if m == 0 then 11 else m - 1;
    MonthLength(py, pm);
  }

  /** Day `d` of a month, past its end, is day `d` minus its length in the next month. */
  lemma NextMonthDayNumber(y: int, m: int, d: int)
    requires 0 <= m < 12
    ensures var ny := if m == 11 then y + 1 else y;
            var nm := if m == 11 then 0 else m + 1;
            DayNumber(y, m, d) == DayNumber(ny, nm, d - DaysInMonth(y, m))
  {
    MonthLength(y, m);
  }

  /** `setDate(getDate() + k)` moves the day by exactly `k` days. */
  lemma ShiftedEpochDays(date: Date, k: int)
    ensures EpochDays(SetDate(date, date.day + k)) == EpochDays(date) + k
  {
    assert date.month / 12 == 0 && date.month % 12 == date.month;
    assert SetDate(date, date.day + k) == NormDay(date.year, date.month, date.day + k, date.msOfDay);
    NormDayNumber(date.year, date.month, date.day + k, date.msOfDay);
  }

  /** `setDate(getDate() + k)` moves the instant by exactly `k` days. */
  lemma ShiftDaysTime(date: Date, k: int)
    ensures Time(SetDate(date, date.day + k)) == Time(date) + k * DAY_MS
  {
    ShiftedEpochDays(date, k);
    assert SetDate(date, date.day + k).msOfDay == date.msOfDay;
  }

  /** `setHours` moves the instant to that many hours, minutes, seconds and milliseconds
      after the date's midnight, whatever their signs and sizes. */
  lemma SetHoursTime(date: Date, h: int, min: int, s: int, ms: int)
    ensures Time(SetHours(date, h, min, s, ms))
            == EpochDays(date) * DAY_MS + h * HOUR_MS + min * MINUTE_MS + s * SECOND_MS + ms
  {
    var t := h * HOUR_MS + min * MINUTE_MS + s * SECOND_MS + ms;
    assert date.month / 12 == 0 && date.month % 12 == date.month;
    assert SetHours(date, h, min, s, ms) == NormDay(date.year, date.month, date.day + t / DAY_MS, t % DAY_MS);
    NormDayNumber(date.year, date.month, date.day + t / DAY_MS, t % DAY_MS);
  }

  // ----- calendar order -----

  /** Calendar day `(y1, m1, d1)` comes strictly before `(y2, m2, d2)`. */
  predicate DayBefore(y1: int, m1: int, d1: int, y2: int, m2: int, d2: int)
  {
    y1 < y2 || (y1 == y2 && (m1 < m2 || (m1 == m2 && d1 < d2)))
  }

  predicate SameDay(a: Date, b: Date)
  {
    a.year == b.year && a.month == b.month && a.day == b.day
  }

  /** Every year has at least 365 days. */
  lemma {:induction false} DaysBeforeYearGrows(y1: int, y2: int)
    requires y1 < y2
    ensures DaysBeforeYear(y2) - DaysBeforeYear(y1) >= 365 * (y2 - y1)
    decreases y2 - y1
  {
    YearLength(y1);
    if y1 + 1 < y2 {
      DaysBeforeYearGrows(y1 + 1, y2);
    }
  }

  /** The days of a year are numbered 0 .. length - 1 from its first day, in calendar order. */
  lemma DayOfYearBounds(y: int, m: int, d: int)
    requires 0 <= m < 12 && 1 <= d <= DaysInMonth(y, m)
    ensures 0 <= DaysBeforeMonth(y, m) + d - 1 < DaysBeforeYear(y + 1) - DaysBeforeYear(y)
  {
    YearLength(y);
  }

  lemma MonthsInOrder(y: int, m1: int, d1: int, m2: int, d2: int)
    requires 0 <= m1 < m2 < 12 && 1 <= d1 <= DaysInMonth(y, m1) && 1 <= d2
    ensures DaysBeforeMonth(y, m1) + d1 < DaysBeforeMonth(y, m2) + d2
  {
  }

  /** Day numbers follow the calendar order of real days. */
  lemma EpochDaysOrder(a: Date, b: Date)
    requires DayBefore(a.year, a.month, a.day, b.year, b.month, b.day)
    ensures EpochDays(a) < EpochDays(b)
  {
    if a.year < b.year {
      DayOfYearBounds(a.year, a.month, a.day);
      DayOfYearBounds(b.year, b.month, b.day);
      if a.year + 1 < b.year {
        DaysBeforeYearGrows(a.year + 1, b.year);
      }
    } else if a.month < b.month {
      MonthsInOrder(a.year, a.month, a.day, b.month, b.day);
    }
  }

  /** Two real days with the same day number are the same calendar day. */
  lemma EpochDaysInjective(a: Date, b: Date)
    ensures EpochDays(a) == EpochDays(b) <==> SameDay(a, b)
  {
    if DayBefore(a.year, a.month, a.day, b.year, b.month, b.day) {
      EpochDaysOrder(a, b);
    } else if DayBefore(b.year, b.month, b.day, a.year, a.month, a.day) {
      EpochDaysOrder(b, a);
    }
  }
}

=== FILE: dateutils.dfy ===
/** The date helpers of src/utils/dateUtils.ts: whole-year age, shifting by years, the
    same-day tests against today and yesterday, the relative-day label, the guarded date
    formatting and reading an "HH:mm" text onto today's date. "Today" is a parameter; the
    locale rendering of a date is kept as the date it renders. */
module DateUtils {
  import opened Basics
  import opened Calendar
  import Text

  const NOT_SET: string := "未设置"
  const DATE_ERROR: string := "日期错误"
  const TODAY: string := "今天"
  const YESTERDAY: string := "昨天"
  const DAYS_AGO: string := "天前"

  /** A displayed date: a fixed phrase, or `toLocaleDateString('zh-CN')` of a date. */
  datatype DateLabel = Phrase(text: string) | LocaleDate(date: Date)

  // ----- age and year shift -----

  /** The birthday `years` years after `birth` has come by `today`, comparing (year, month,
      day) in calendar order; in a year without 29 February that birthday comes on 1 March. */
  predicate AnniversaryReached(birth: Date, today: Date, years: int)
  {
    !DayBefore(today.year, today.month, today.day, birth.year + years, birth.month, birth.day)
  }

  /** `calculateAge`: the year difference, one less when today's month and day come before
      the birthday's. The result is the number of birthdays that have come: the last one
      reached and the next one not. */
  method CalculateAge(birthDate: Date, today: Date) returns (age: int)
    ensures AnniversaryReached(birthDate, today, age)
    ensures !AnniversaryReached(birthDate, today, age + 1)
  {
    age := today.year - birthDate.year;
    var monthDiff := today.month - birthDate.month;
    if monthDiff < 0 || (monthDiff == 0 && today.day < birthDate.day) {
      age := age - 1;
    }
  }

  /** `addYears`: a copy of the date with its year moved; month, day and time of day stay,
      except that 29 February in a year that is not a leap year becomes 1 March. The
      argument is a value and is left as it was. */
  method AddYears(date: Date, years: int) returns (newDate: Date)
    ensures newDate.year == date.year + years && newDate.msOfDay == date.msOfDay
    ensures date.day <= DaysInMonth(date.year + years, date.month) ==>
              newDate.month == date.month && newDate.day == date.day
    ensures date.day > DaysInMonth(date.year + years, date.month) ==>
              date.month == 1 && date.day == 29 && newDate.month == 2 && newDate.day == 1
  {
    newDate := date;
    newDate := SetFullYear(newDate, newDate.year + years);
    if date.day > DaysInMonth(date.year + years, date.month) {
      assert date.month == 1 && date.day == 29;
      assert newDate == NormDay(date.year + years, 2, 1, date.msOfDay);
    }
  }

  // ----- today and yesterday -----

  /** `isToday`: day, month and year all equal today's; that is, the same day number. */
  function IsToday(date: Date, today: Date): (b: bool)
    ensures b <==> EpochDays(date) == EpochDays(today)
  {
    EpochDaysInjective(date, today);
    date.day == today.day && date.month == today.month && date.year == today.year
  }

  /** `isYesterday`: the same test against today moved back one day with `setDate`; that
      is, the day number just before today's. */
  function IsYesterday(date: Date, today: Date): (b: bool)
    ensures b <==> EpochDays(date) == EpochDays(today) - 1
  {
    var yesterday := SetDate(today, today.day - 1);
    ShiftedEpochDays(today, -1);
    EpochDaysInjective(date, yesterday);
    date.day == yesterday.day && date.month == yesterday.month && date.year == yesterday.year
  }

  /** Whole days from the date to now, rounded down (negative for a later date). */
  function DayDifference(date: Date, now: Date): int
  {
    (Time(now) - Time(date)) / DAY_MS
  }

  /** `getDateString`: "今天", else "昨天", else "n天前" for a difference under 7 days, else the
      locale rendering of the date. */
  function GetDateString(date: Date, now: Date): (shown: DateLabel)
    ensures shown == Phrase(TODAY) <==> IsToday(date, now)
    ensures shown == Phrase(YESTERDAY) <==> !IsToday(date, now) && IsYesterday(date, now)
    ensures shown.LocaleDate? <==>
              !IsToday(date, now) && !IsYesterday(date, now) && DayDifference(date, now) >= 7
    ensures shown.LocaleDate? ==> shown.date == date
    ensures !IsToday(date, now) && !IsYesterday(date, now) && DayDifference(date, now) < 7 ==>
              shown == Phrase(Text.IntToString(DayDifference(date, now)) + DAYS_AGO)
  {
    if IsToday(date, now) then Phrase(TODAY)
    else if IsYesterday(date, now) then Phrase(YESTERDAY)
    else
      var diffDays := DayDifference(date, now);
      if diffDays < 7 then
        var text := Text.IntToString(diffDays) + DAYS_AGO;
        assert |text| > 2;
        Phrase(text)
      else LocaleDate(date)
  }

  /** A past day before yesterday, less than a week back, is labelled with a count of at
      least one day that reads back as that count. */
  lemma DaysAgoLabel(date: Date, now: Date)
    requires Time(date) <= Time(now)
    requires !IsToday(date, now) && !IsYesterday(date, now) && DayDifference(date, now) < 7
    ensures var n := DayDifference(date, now);
            && 1 <= n < 7
            && GetDateString(date, now) == Phrase(Text.IntToString(n) + DAYS_AGO)
            && Text.ParseInt(GetDateString(date, now).text) == Some(n)
  {
    var n := DayDifference(date, now);
    assert EpochDays(date) <= EpochDays(now) - 2;
    assert Time(now) - Time(date) >= DAY_MS;
    Text.ParseIntOfIntToString(n, DAYS_AGO);
  }

  /** A later day than today is labelled with a negative count: the day after reads
      "-1天前" or less. */
  lemma FutureDayLabel(date: Date, now: Date)
    requires EpochDays(date) > EpochDays(now)
    ensures DayDifference(date, now) < 0
    ensures GetDateString(date, now) == Phrase(Text.IntToString(DayDifference(date, now)) + DAYS_AGO)
    ensures GetDateString(date, now).text[0] == '-'
  {
    assert Time(date) - Time(now) > 0;
  }

  // ----- formatting and parsing -----

  /** The argument of `safeFormatDate`: `Missing` is a falsy one (undefined, null or the
      empty text); `Given` is a Date object, or a non-empty text with the Date that
      `new Date(text)` builds from it. */
  datatype DateInput = Missing | Given(stamp: Stamp)

  /** `safeFormatDate`: "未设置" for a missing date, "日期错误" for the Invalid Date, and the
      locale rendering otherwise. */
  function SafeFormatDate(input: DateInput): (shown: DateLabel)
    ensures input.Missing? ==> shown == Phrase(NOT_SET)
    ensures input == Given(Invalid) ==> shown == Phrase(DATE_ERROR)
    ensures shown.LocaleDate? <==> input.Given? && input.stamp.Valid?
    ensures shown.LocaleDate? ==> shown.date == input.stamp.date
  {
    match input
    case Missing => Phrase(NOT_SET)
    case Given(Invalid) => Phrase(DATE_ERROR)
    case Given(Valid(d)) => LocaleDate(d)
  }

  /** `ToIntegerOrInfinity` on a finite number: the fraction is dropped toward zero. */
  function Truncate(x: real): (n: int)
    ensures x >= 0.0 ==> n as real <= x < n as real + 1.0
  {
    if x >= 0.0 then x.Floor else -((-x).Floor)
  }

  /** A non-negative number truncates to the whole number just below or at it. */
  lemma TruncateBetween(x: real, n: int)
    requires 0 <= n && n as real <= x < n as real + 1.0
    ensures Truncate(x) == n
  {
  }

  /** A whole number truncates to itself, whatever its sign. */
  lemma TruncateWhole(n: int)
    ensures Truncate(n as real) == n
  {
    if n < 0 {
      assert -(n as real) == (-n) as real;
      TruncateBetween((-n) as real, -n);
    } else {
      TruncateBetween(n as real, n);
    }
  }

  /** The hours and minutes fields of `s.split(':').map(Number)`; a missing minutes field is
      `undefined`, which reads as NaN. */
  function ClockFields(s: string): (Number, Number)
  {
    var (hours, minutes) := Text.FirstTwoFields(s, ':');
    (Text.ToNumber(hours), match minutes case None => NaN case Some(m) => Text.ToNumber(m))
  }

  lemma MinuteMultiple(k: int)
    ensures (k * MINUTE_MS) % DAY_MS % MINUTE_MS == 0
  {
    var q := (k * MINUTE_MS) / DAY_MS;
    assert (k * MINUTE_MS) % DAY_MS == (k - 1440 * q) * MINUTE_MS;
  }

  /** `parseTime`: today's date with hours and minutes set from the text and seconds and
      milliseconds set to 0; NaN in either field makes it the Invalid Date. */
  method ParseTime(timeString: string, today: Date) returns (date: Stamp)
    ensures date.Valid? <==> ClockFields(timeString).0.Val? && ClockFields(timeString).1.Val?
    ensures date.Valid? ==> date.date.msOfDay % MINUTE_MS == 0
    ensures date.Valid? ==>
              var h := Truncate(ClockFields(timeString).0.v);
              var m := Truncate(ClockFields(timeString).1.v);
              0 <= h < 24 && 0 <= m < 60 ==>
                SameDay(date.date, today) && date.date.msOfDay == h * HOUR_MS + m * MINUTE_MS
    ensures date.Valid? ==>
              Time(date.date) == EpochDays(today) * DAY_MS
                                 + Truncate(ClockFields(timeString).0.v) * HOUR_MS
                                 + Truncate(ClockFields(timeString).1.v) * MINUTE_MS
  {
    var (hours, minutes) := ClockFields(timeString);
    date := Valid(today);
    if hours.NaN? || minutes.NaN? {
      date := Invalid;
    } else {
      var h, m := Truncate(hours.v), Truncate(minutes.v);
      var d := SetHours(today, h, m, 0, 0);
      ClockOnDay(today, h, m);
      date := Valid(d);
    }
  }

  /** Hours and minutes set on a day: a whole number of minutes after the day's midnight,
      on that same day when they lie within it. */
  lemma ClockOnDay(today: Date, h: int, m: int)
    ensures var d := SetHours(today, h, m, 0, 0);
            && d.msOfDay % MINUTE_MS == 0
            && (0 <= h < 24 && 0 <= m < 60 ==> SameDay(d, today) && d.msOfDay == h * HOUR_MS + m * MINUTE_MS)
            && Time(d) == EpochDays(today) * DAY_MS + h * HOUR_MS + m * MINUTE_MS
  {
    SetHoursTime(today, h, m, 0, 0);
    MinuteMultiple(h * 60 + m);
    assert h * HOUR_MS + m * MINUTE_MS + 0 * SECOND_MS + 0 == (h * 60 + m) * MINUTE_MS;
    if 0 <= h < 24 && 0 <= m < 60 {
      var t := h * HOUR_MS + m * MINUTE_MS;
      assert t / DAY_MS == 0 && t % DAY_MS == t;
    }
  }

  /** "h:m" splits into the two numbers `Number` reads from its fields. */
  lemma ClockFieldsOfPair(hours: string, minutes: string)
    requires ':' !in hours && ':' !in minutes
    ensures ClockFields(hours + [':'] + minutes) == (Text.ToNumber(hours), Text.ToNumber(minutes))
  {
    Text.FirstTwoFieldsOfPair(hours, ':', minutes);
  }

  /** A signed hour: "-1:00" reads as hour -1 and minute 0 (which `setHours` carries to
      23:00 of the day before). */
  lemma ClockFieldsOfNegativeHour(hours: string, minutes: string)
    requires hours != [] && Text.AllDigits(hours) && minutes != [] && Text.AllDigits(minutes)
    ensures ClockFields("-" + hours + ":" + minutes)
            == (Val(-(Text.DigitsValue(hours) as real)), Val(Text.DigitsValue(minutes) as real))
  {
    assert ':' !in "-" + hours by { assert forall i :: 0 <= i < |hours| ==> Text.IsDigit(hours[i]); }
    ClockFieldsOfPair("-" + hours, minutes);
    assert "-" + hours + ":" + minutes == ("-" + hours) + [':'] + minutes;
    Text.ToNumberOfInteger(hours);
    Text.ToNumberOfInteger(minutes);
  }

  /** A fractional hour: "8.5:30" reads as hour 8.5 (which `setHours` truncates to 8, as
      `TruncateBetween` states). */
  lemma ClockFieldsOfFractionalHour(whole: string, frac: string, minutes: string)
    requires whole != [] && Text.AllDigits(whole) && Text.AllDigits(frac)
    requires minutes != [] && Text.AllDigits(minutes)
    ensures ClockFields(whole + "." + frac + ":" + minutes)
            == (Val(Text.DigitsValue(whole) as real + Text.Fraction(frac)), Val(Text.DigitsValue(minutes) as real))
  {
    var hours := whole + "." + frac;
    assert ':' !in hours by {
      assert forall i :: 0 <= i < |hours| ==> hours[i] == '.' || Text.IsDigit(hours[i]);
    }
    ClockFieldsOfPair(hours, minutes);
    assert whole + "." + frac + ":" + minutes == hours + [':'] + minutes;
    assert hours == whole + "." + frac;
    Text.ToNumberOfDecimal(whole, frac);
    Text.ToNumberOfInteger(minutes);
  }
}

=== FILE: historycalendar.dfy ===
/** The month grid of the history calendar (src/screens/HistoryCalendarScreen.tsx): 42
    cells, six weeks starting on a Sunday, made of the trailing days of the previous month,
    every day of the displayed month and the leading days of the next one; each cell shows
    the history record of its day. Also the month navigation. */
module HistoryCalendar {
  import opened Basics
  import opened Calendar
  import opened Types
  import opened TimeRecords

  const GRID_CELLS: int := 42

  /** One cell: its day of the month, whether it belongs to the displayed month, whether it
      is today, and the record of its day when there is one. */
  datatype DayData = DayData(day: int, isCurrentMonth: bool, isToday: bool, hasRecord: bool,
                             timeData: Option<TimeData>)

  /** A cell for `day` looked up under `key`: it has a record exactly when some record is
      of that day, and then it shows the first such record's split. */
  function CellAt(day: int, isCurrentMonth: bool, isToday: bool, key: DateKey,
                  records: seq<DailyTimeRecord>): (cell: DayData)
    ensures cell.day == day && cell.isCurrentMonth == isCurrentMonth && cell.isToday == isToday
    ensures cell.hasRecord <==> exists x :: x in records && x.date == key
    ensures cell.hasRecord <==> cell.timeData.Some?
    ensures cell.hasRecord ==> cell.timeData == Some(FindByDate(records, key).value.timeData)
  {
    var record := FindByDate(records, key);
    DayData(day, isCurrentMonth, isToday, record.Some?,
            if record.Some? then Some(record.value.timeData) else None)
  }

  // ----- month arithmetic -----

  /** `new Date(year, month, 1).getDay()`. */
  function FirstWeekDay(year: int, month: int): (w: int)
    ensures 0 <= w < 7
  {
    WeekDay(NewDate(year, month, 1))
  }

  /** `new Date(year, month, 0).getDate()`. */
  function PrevMonthDays(year: int, month: int): int
  {
    NewDate(year, month, 0).day
  }

  /** `new Date(year, month + 1, 0).getDate()`. */
  function MonthDays(year: int, month: int): int
  {
    NewDate(year, month + 1, 0).day
  }

  /** Day 0 of a month is the last day of the month before. */
  lemma DayZeroIsPreviousMonthEnd(year: int, month: int)
    requires 0 <= month < 12
    ensures var py := if month == 0 then year - 1 else year;
            var pm := if month == 0 then 11 else month - 1;
            NewDate(year, month, 0) == DateTime(py, pm, DaysInMonth(py, pm), 0)
  {
    assert NewDate(year, month, 0) == NormDay(year, month, 0, 0);
  }

  /** The lengths the grid uses are the calendar's month lengths. */
  lemma MonthLengths(year: int, month: int)
    requires 0 <= month < 12
    ensures PrevMonthDays(year, month) == (if month == 0 then DaysInMonth(year - 1, 11) else DaysInMonth(year, month - 1))
    ensures MonthDays(year, month) == DaysInMonth(year, month)
  {
    DayZeroIsPreviousMonthEnd(year, month);
    if month == 11 {
      assert NewDate(year, 12, 0) == NewDate(year + 1, 0, 0);
      DayZeroIsPreviousMonthEnd(year + 1, 0);
    } else {
      DayZeroIsPreviousMonthEnd(year, month + 1);
    }
  }

  // ----- cell keys -----

  /** The key a previous-month cell looks up: "YYYY-MM-DD" of that day. */
  function LeadingKey(year: int, month: int, day: int): DateKey
  {
    if month == 0 then DateKey(year - 1, 12, day) else DateKey(year, month, day)
  }

  /** The key a cell of the displayed month looks up. */
  function CurrentKey(year: int, month: int, day: int): DateKey
  {
    DateKey(year, month + 1, day)
  }

  /** The key a next-month cell looks up. */
  function TrailingKey(year: int, month: int, day: int): DateKey
  {
    if month == 11 then DateKey(year + 1, 1, day) else DateKey(year, month + 2, day)
  }

  /** The previous-month key as the screen writes it: the 0-based month of the displayed
      month, in the displayed year. */
  function LeadingKeyAsWritten(year: int, month: int, day: int): DateKey
  {
    DateKey(year, month, day)
  }

  /** The next-month key as the screen writes it: month + 2, in the displayed year. */
  function TrailingKeyAsWritten(year: int, month: int, day: int): DateKey
  {
    DateKey(year, month + 2, day)
  }

  /** In January the written previous-month key has month "00" and in December the written
      next-month key has month "13": neither names a day, so those cells never find the
      record that exists for their day. */
  lemma NeighbourKeysAsWrittenMissRecords(records: seq<DailyTimeRecord>, year: int, day: int)
    ensures FindByDate(records, LeadingKeyAsWritten(year, 0, day)).None?
    ensures FindByDate(records, TrailingKeyAsWritten(year, 11, day)).None?
  {
    forall x | x in records
      ensures x.date != LeadingKeyAsWritten(year, 0, day) && x.date != TrailingKeyAsWritten(year, 11, day)
    {
      assert x.date.IsCalendarDay();
    }
  }

  /** January 2025 with a record for 31 December 2024: the written key misses it, the
      corrected key finds it. */
  lemma NeighbourKeyCounterexample(data: TimeData)
    ensures var records := [DailyTimeRecord(DateKey(2024, 12, 31), data, 0)];
            && FindByDate(records, LeadingKeyAsWritten(2025, 0, 31)).None?
            && FindByDate(records, LeadingKey(2025, 0, 31)) == Some(records[0])
  {
    var records := [DailyTimeRecord(DateKey(2024, 12, 31), data, 0)];
    NeighbourKeysAsWrittenMissRecords(records, 2025, 31);
  }

  // ----- the grid -----

  /** The date cell `k` stands for: `k - firstDayWeek` days after the first of the month. */
  function CellDate(year: int, month: int, k: int): Date
  {
    NewDate(year, month, 1 + k - FirstWeekDay(year, month))
  }

  /** Cell `k` of the grid for month `month` of `year` as it is meant to be: every cell,
      including the neighbour months' cells, looks up the key of its own day. */
  function ExpectedCell(year: int, month: int, today: Date, records: seq<DailyTimeRecord>, k: int): DayData
  {
    GridCell(FirstWeekDay(year, month), PrevMonthDays(year, month), MonthDays(year, month),
             year, month, today, records, false, k)
  }

  /** Cell `k` of the grid built as the three loops build it, with the neighbour months'
      keys written as the screen writes them. */
  function WrittenCell(year: int, month: int, today: Date, records: seq<DailyTimeRecord>, k: int): DayData
  {
    GridCell(FirstWeekDay(year, month), PrevMonthDays(year, month), MonthDays(year, month),
             year, month, today, records, true, k)
  }

  /** Cell `k` of a grid whose month starts on weekday `firstDayWeek`, has `lastDay` days
      and follows a month of `prevMonthDays` days; `written` selects the neighbour-month
      keys as the screen writes them. */
  function GridCell(firstDayWeek: int, prevMonthDays: int, lastDay: int,
                    year: int, month: int, today: Date, records: seq<DailyTimeRecord>,
                    written: bool, k: int): DayData
  {
    if k < firstDayWeek then
      var day := prevMonthDays - firstDayWeek + 1 + k;
      var key := if written then LeadingKeyAsWritten(year, month, day) else LeadingKey(year, month, day);
      CellAt(day, false, false, key, records)
    else if k < firstDayWeek + lastDay then
      var day := k - firstDayWeek + 1;
      var isToday := year == today.year && month == today.month && day == today.day;
      CellAt(day, true, isToday, CurrentKey(year, month, day), records)
    else
      var day := k - firstDayWeek - lastDay + 1;
      var key := if written then TrailingKeyAsWritten(year, month, day) else TrailingKey(year, month, day);
      CellAt(day, false, false, key, records)
  }

  /** The written grid is the intended one in every month from February to November, and
      in January and December too except for the cells of the previous year's December and
      the next year's January: those show the right day but never a record. */
  lemma WrittenGridAgainstExpected(year: int, month: int, today: Date, records: seq<DailyTimeRecord>, k: int)
    requires 0 <= month < 12 && 0 <= k < GRID_CELLS
    ensures var firstDayWeek := FirstWeekDay(year, month);
            var lastDay := MonthDays(year, month);
            var written := WrittenCell(year, month, today, records, k);
            var expected := ExpectedCell(year, month, today, records, k);
            && (month == 0 && k < firstDayWeek ==>
                  written == expected.(hasRecord := false, timeData := None))
            && (month == 11 && firstDayWeek + lastDay <= k ==>
                  written == expected.(hasRecord := false, timeData := None))
            && (!(month == 0 && k < firstDayWeek) && !(month == 11 && firstDayWeek + lastDay <= k) ==>
                  written == expected)
  {
    var firstDayWeek := FirstWeekDay(year, month);
    var lastDay := MonthDays(year, month);
    if month == 0 && k < firstDayWeek {
      NeighbourKeysAsWrittenMissRecords(records, year, PrevMonthDays(year, month) - firstDayWeek + 1 + k);
    } else if month == 11 && firstDayWeek + lastDay <= k {
      NeighbourKeysAsWrittenMissRecords(records, year, k - firstDayWeek - lastDay + 1);
    }
  }

  /** `generateCalendarData` for the displayed date `currentDate`. */
  method GenerateCalendarData(currentDate: Date, today: Date, timeRecords: seq<DailyTimeRecord>)
    returns (days: seq<DayData>)
    ensures |days| == GRID_CELLS
    ensures forall k :: 0 <= k < GRID_CELLS ==>
              days[k] == WrittenCell(currentDate.year, currentDate.month, today, timeRecords, k)
  {
    var year := currentDate.year;
    var month := currentDate.month;
    var lastDay := MonthDays(year, month);
    var firstDayWeek := FirstWeekDay(year, month);
    var prevMonthDays := PrevMonthDays(year, month);
    MonthLengths(year, month);
    GridFits(year, month);
    days := [];
    var i := firstDayWeek - 1;
    while i >= 0
      invariant -1 <= i < firstDayWeek
      invariant |days| == firstDayWeek - 1 - i
      invariant forall k :: 0 <= k < |days| ==>
                  days[k] == GridCell(firstDayWeek, prevMonthDays, lastDay, year, month, today, timeRecords, true, k)
    {
      var day := prevMonthDays - i;
      var dateStr := LeadingKeyAsWritten(year, month, day);
      days := days + [CellAt(day, false, false, dateStr, timeRecords)];
      i := i - 1;
    }
    var day := 1;
    while day <= lastDay
      invariant 1 <= day <= lastDay + 1
      invariant |days| == firstDayWeek + day - 1
      invariant forall k :: 0 <= k < |days| ==>
                  days[k] == GridCell(firstDayWeek, prevMonthDays, lastDay, year, month, today, timeRecords, true, k)
    {
      var isToday := year == today.year && month == today.month && day == today.day;
      var dateStr := CurrentKey(year, month, day);
      days := days + [CellAt(day, true, isToday, dateStr, timeRecords)];
      day := day + 1;
    }
    var remainingDays := GRID_CELLS - |days|;
    day := 1;
    while day <= remainingDays
      invariant 1 <= day <= remainingDays + 1
      invariant |days| == GRID_CELLS - remainingDays + day - 1
      invariant forall k :: 0 <= k < |days| ==>
                  days[k] == GridCell(firstDayWeek, prevMonthDays, lastDay, year, month, today, timeRecords, true, k)
    {
      var dateStr := TrailingKeyAsWritten(year, month, day);
      days := days + [CellAt(day, false, false, dateStr, timeRecords)];
      day := day + 1;
    }
  }

  /** Six weeks always suffice: at most 6 leading cells and at most 31 days leave at least
      5 cells for the next month. */
  lemma GridFits(year: int, month: int)
    requires 0 <= month < 12
    ensures FirstWeekDay(year, month) + MonthDays(year, month) <= GRID_CELLS - 5
  {
    MonthLengths(year, month);
  }

  /** The grid is 42 consecutive days from the Sunday on or before the first of the month:
      cell `k` shows the day of `CellDate(k)`, belongs to the displayed month exactly when
      that date does, and looks up that date's key. */
  lemma GridIsConsecutiveDays(year: int, month: int, today: Date, records: seq<DailyTimeRecord>, k: int)
    requires 0 <= month < 12 && 0 <= k < GRID_CELLS
    ensures var cell := ExpectedCell(year, month, today, records, k);
            var date := CellDate(year, month, k);
            && cell.day == date.day
            && (cell.isCurrentMonth <==> date.year == year && date.month == month)
            && cell.hasRecord == FindByDate(records, KeyOf(date)).Some?
  {
    MonthLengths(year, month);
    CellDateShape(year, month, k);
  }

  /** Cell `k` falls on weekday `k % 7`: the columns run Sunday to Saturday. */
  lemma CellWeekDay(year: int, month: int, k: int)
    requires 0 <= month < 12 && 0 <= k < GRID_CELLS
    ensures WeekDay(CellDate(year, month, k)) == k % 7
  {
    var firstDayWeek := FirstWeekDay(year, month);
    var first := NewDate(year, month, 1);
    assert first == DateTime(year, month, 1, 0);
    assert CellDate(year, month, k) == SetDate(first, first.day + (k - firstDayWeek));
    ShiftedEpochDays(first, k - firstDayWeek);
    SameWeekDayOffset(EpochDays(first) + 4, k);
  }

  lemma SameWeekDayOffset(e: int, k: int)
    ensures (e + k - e % 7) % 7 == k % 7
  {
    assert e - e % 7 == 7 * (e / 7);
  }

  /** Where `CellDate(k)` lies: in the previous month, the displayed month or the next. */
  lemma CellDateShape(year: int, month: int, k: int)
    requires 0 <= month < 12 && 0 <= k < GRID_CELLS
    ensures var firstDayWeek := FirstWeekDay(year, month);
            var lastDay := MonthDays(year, month);
            var date := CellDate(year, month, k);
            && (k < firstDayWeek ==>
                  var py := if month == 0 then year - 1 else year;
                  var pm := if month == 0 then 11 else month - 1;
                  date == DateTime(py, pm, PrevMonthDays(year, month) - firstDayWeek + 1 + k, 0))
            && (firstDayWeek <= k < firstDayWeek + lastDay ==>
                  date == DateTime(year, month, k - firstDayWeek + 1, 0))
            && (firstDayWeek + lastDay <= k ==>
                  var ny := if month == 11 then year + 1 else year;
                  var nm := if month == 11 then 0 else month + 1;
                  date == DateTime(ny, nm, k - firstDayWeek - lastDay + 1, 0))
  {
    var firstDayWeek := FirstWeekDay(year, month);
    var d := 1 + k - firstDayWeek;
    MonthLengths(year, month);
    assert CellDate(year, month, k) == NormDay(year, month, d, 0);
    if d < 1 {
      var py := if month == 0 then year - 1 else year;
      var pm := if month == 0 then 11 else month - 1;
      assert NormDay(year, month, d, 0) == NormDay(py, pm, d + DaysInMonth(py, pm), 0);
    } else if d > DaysInMonth(year, month) {
      var ny := if month == 11 then year + 1 else year;
      var nm := if month == 11 then 0 else month + 1;
      assert NormDay(year, month, d, 0) == NormDay(ny, nm, d - DaysInMonth(year, month), 0);
    }
  }

  /** Exactly one cell is marked today when today lies in the displayed month (the cell of
      today's day), and none otherwise. */
  lemma TodayMarkedOnce(year: int, month: int, today: Date, records: seq<DailyTimeRecord>, k: int)
    requires 0 <= month < 12 && 0 <= k < GRID_CELLS
    ensures ExpectedCell(year, month, today, records, k).isToday <==>
              today.year == year && today.month == month && k == FirstWeekDay(year, month) + today.day - 1
  {
    MonthLengths(year, month);
  }

  // ----- month navigation -----

  datatype Direction = Prev | Next

  /** Months counted from year 0, so that consecutive months differ by one. */
  function MonthIndex(date: Date): int
  {
    date.year * 12 + date.month
  }

  /** `changeMonth` as written: `setMonth(getMonth() ± 1)` on a copy of the displayed date,
      which keeps its day of the month and so overflows from the 29th, 30th or 31st. */
  function ChangeMonthAsWritten(currentDate: Date, direction: Direction): Date
  {
    SetMonth(currentDate, currentDate.month + (if direction == Prev then -1 else 1))
  }

  /** As written, moving on from 31 January 2025 shows March, skipping February. */
  lemma ChangeMonthAsWrittenSkipsFebruary()
    ensures ChangeMonthAsWritten(DateTime(2025, 0, 31, 0), Next) == DateTime(2025, 2, 3, 0)
    ensures MonthIndex(ChangeMonthAsWritten(DateTime(2025, 0, 31, 0), Next)) == MonthIndex(DateTime(2025, 0, 31, 0)) + 2
  {
    assert ChangeMonthAsWritten(DateTime(2025, 0, 31, 0), Next) == NormDay(2025, 1, 31, 0);
  }

  /** `changeMonth` with the displayed date first moved to the 1st of its month. */
  function ChangeMonth(currentDate: Date, direction: Direction): Date
  {
    SetMonth(currentDate.(day := 1), currentDate.month + (if direction == Prev then -1 else 1))
  }

  /** The corrected navigation moves the displayed month by exactly one, either way. */
  lemma ChangeMonthMovesOneMonth(currentDate: Date, direction: Direction)
    ensures MonthIndex(ChangeMonth(currentDate, direction))
            == MonthIndex(currentDate) + (if direction == Prev then -1 else 1)
    ensures ChangeMonth(currentDate, direction).day == 1
  {
    var delta := if direction == Prev then -1 else 1;
    var m := currentDate.month + delta;
    SetMonthKeepsDay(currentDate.(day := 1), m);
    assert (currentDate.year + m / 12) * 12 + m % 12 == currentDate.year * 12 + m;
  }

  /** The written navigation is right whenever the day exists in every month. */
  lemma ChangeMonthAsWrittenEarlyDays(currentDate: Date, direction: Direction)
    requires currentDate.day <= 28
    ensures MonthIndex(ChangeMonthAsWritten(currentDate, direction))
            == MonthIndex(currentDate) + (if direction == Prev then -1 else 1)
  {
    var m := currentDate.month + (if direction == Prev then -1 else 1);
    SetMonthKeepsDay(currentDate, m);
    assert (currentDate.year + m / 12) * 12 + m % 12 == currentDate.year * 12 + m;
  }
}

=== FILE: policy.dfy ===
/** The retirement-policy resolver: (gender, job type, birth date, work start) to a
    retirement age and date, by a base-age table, the special-category tenure rule and
    the graduated delay (src/services/RetirementPolicyService.ts). */
module RetirementPolicy {
  import opened Basics
  import opened Calendar
  import opened Types
  import Text

  /** 365.25 days in milliseconds: the year `calculateWorkYears` divides by. */
  const WORK_YEAR_MS: int := 31_557_600_000
  /** Years a special-category worker must have worked to retire at the special age. */
  const REQUIRED_SPECIAL_YEARS: int := 10
  /** The graduated delay never exceeds five years. */
  const MAX_DELAY_MONTHS: int := 60

  datatype RetirementPolicy = RetirementPolicy(
    normalRetirementAge: int,
    earlyRetirementAge: Option<int>,
    description: string)

  datatype Retirement = Retirement(retirementAge: int, retirementDate: Date, policy: RetirementPolicy)

  datatype AgeAndDate = AgeAndDate(age: int, date: Date)

  /** The base-age table, keyed by job type and gender. */
  function GetRetirementPolicy(gender: Gender, jobType: JobType): (p: RetirementPolicy)
    ensures gender == Male ==> p.normalRetirementAge == (if jobType == Special then 55 else 60)
    ensures gender == Female ==>
              p.normalRetirementAge == (if jobType == Special then 45 else if jobType == General then 50 else 55)
    ensures p.earlyRetirementAge.Some? <==> gender == Female && jobType == General
    ensures p.earlyRetirementAge.Some? ==> p.earlyRetirementAge.value == 45
  {
    match jobType
    case General =>
      if gender.Male? then RetirementPolicy(60, None, "男性职工正常退休年龄60岁")
      else RetirementPolicy(50, Some(45), "女性职工正常退休年龄50岁，特殊工种45岁")
    case CivilServant =>
      if gender.Male? then RetirementPolicy(60, None, "男性公务员/事业单位正常退休年龄60岁")
      else RetirementPolicy(55, None, "女性公务员/事业单位正常退休年龄55岁")
    case Enterprise =>
      if gender.Male? then RetirementPolicy(60, None, "男性企业职工正常退休年龄60岁")
      else RetirementPolicy(55, None, "女性企业管理人员正常退休年龄55岁")
    case Special =>
      if gender.Male? then RetirementPolicy(55, None, "男性特殊工种正常退休年龄55岁")
      else RetirementPolicy(45, None, "女性特殊工种正常退休年龄45岁")
    case Flexible =>
      if gender.Male? then RetirementPolicy(60, None, "男性灵活就业人员正常退休年龄60岁")
      else RetirementPolicy(55, None, "女性灵活就业人员正常退休年龄55岁")
    case Unlisted =>
      RetirementPolicy(if gender.Male? then 60 else 55, None, "按一般政策执行")
  }

  /** Whole years worked: the elapsed time divided by 365.25 days, rounded down. */
  function CalculateWorkYears(workStartDate: Date, currentDate: Date): int
  {
    (Time(currentDate) - Time(workStartDate)) / WORK_YEAR_MS
  }

  /** The whole years worked are the largest count of 365.25-day years that fits into the
      elapsed time. */
  lemma WorkYearsSpec(workStartDate: Date, currentDate: Date)
    ensures var years := CalculateWorkYears(workStartDate, currentDate);
            years * WORK_YEAR_MS <= Time(currentDate) - Time(workStartDate) < (years + 1) * WORK_YEAR_MS
  {
  }

  /** The age before the delay: the table's age, except that a special-category worker
      with a known work start and fewer than ten years of tenure gets the general age. */
  function PreDelayAge(gender: Gender, jobType: JobType, workStartDate: Option<Date>, now: Date): int
  {
    var age := GetRetirementPolicy(gender, jobType).normalRetirementAge;
    if jobType == Special && workStartDate.Some? then
      var workYears := CalculateWorkYears(workStartDate.value, now);
      var requiredYears := if gender == Male then 10 else 10;
      if workYears < requiredYears then (if gender == Male then 60 else 50) else age
    else age
  }

  /** The tenure rule: the general age exactly when a special-category worker with a known
      work start has fewer than ten whole years; the table's age otherwise. */
  lemma PreDelayAgeRule(gender: Gender, jobType: JobType, workStartDate: Option<Date>, now: Date)
    ensures var age := PreDelayAge(gender, jobType, workStartDate, now);
            && (jobType == Special && workStartDate.Some?
                && CalculateWorkYears(workStartDate.value, now) < REQUIRED_SPECIAL_YEARS
                ==> age == (if gender == Male then 60 else 50))
            && (!(jobType == Special && workStartDate.Some?
                  && CalculateWorkYears(workStartDate.value, now) < REQUIRED_SPECIAL_YEARS)
                ==> age == GetRetirementPolicy(gender, jobType).normalRetirementAge)
  {
  }

  /** The guard of the graduated delay, as both the resolver and the explanation test it. */
  predicate DelayApplies(gender: Gender, jobType: JobType, birthYear: int)
  {
    (gender == Female && jobType == General && birthYear >= 1965)
    || (gender == Female && (jobType == CivilServant || jobType == Enterprise) && birthYear >= 1963)
    || (gender == Male && birthYear >= 1962)
  }

  /** The delay as a rule table: for each group, the first birth year affected and the
      months added per later birth year. */
  function DelayRule(gender: Gender, jobType: JobType): Option<(int, int)>
  {
    match (gender, jobType)
    case (Female, General) => Some((1965, 4))
    case (Female, CivilServant) => Some((1963, 6))
    case (Female, Enterprise) => Some((1963, 6))
    case (Female, _) => None
    case (Male, _) => Some((1962, 4))
  }

  /** Months of delay according to the rule table, capped at five years. */
  function DelayMonths(gender: Gender, jobType: JobType, birthYear: int): (months: int)
    ensures 0 <= months <= MAX_DELAY_MONTHS
  {
    match DelayRule(gender, jobType)
    case None => 0
    case Some((pivot, perYear)) =>
      if birthYear >= pivot then Min((birthYear - pivot) * perYear, MAX_DELAY_MONTHS) else 0
  }

  /** A delay of `months` months: whole years onto the age, the months onto the date. */
  function Delayed(baseAge: int, baseDate: Date, months: int): AgeAndDate
  {
    AgeAndDate(baseAge + months / 12, SetMonth(baseDate, baseDate.month + months))
  }

  /** The graduated delay as the resolver writes it: three guarded branches, first match wins. */
  function ApplyDelayedRetirementPolicy(
    birthDate: Date, gender: Gender, jobType: JobType, baseRetirementAge: int, baseRetirementDate: Date
  ): (r: AgeAndDate)
    ensures baseRetirementAge <= r.age <= baseRetirementAge + 5
  {
    var birthYear := birthDate.year;
    if gender == Female && jobType == General && birthYear >= 1965 then
      Delayed(baseRetirementAge, baseRetirementDate, Min((birthYear - 1965) * 4, 60))
    else if gender == Female && (jobType == CivilServant || jobType == Enterprise) && birthYear >= 1963 then
      Delayed(baseRetirementAge, baseRetirementDate, Min((birthYear - 1963) * 6, 60))
    else if gender == Male && birthYear >= 1962 then
      Delayed(baseRetirementAge, baseRetirementDate, Min((birthYear - 1962) * 4, 60))
    else
      AgeAndDate(baseRetirementAge, baseRetirementDate)
  }

  /** The three guarded branches agree with the rule table: the delay fires exactly when
      the table has a rule for the group and the birth year reaches its first year, and it
      then adds `DelayMonths` to the date and their whole years to the age. */
  lemma ApplyDelayMatchesRuleTable(
    birthDate: Date, gender: Gender, jobType: JobType, baseAge: int, baseDate: Date)
    ensures DelayApplies(gender, jobType, birthDate.year) <==>
            (DelayRule(gender, jobType).Some? && birthDate.year >= DelayRule(gender, jobType).value.0)
    ensures var months := DelayMonths(gender, jobType, birthDate.year);
            ApplyDelayedRetirementPolicy(birthDate, gender, jobType, baseAge, baseDate) ==
              if DelayApplies(gender, jobType, birthDate.year)
              then Delayed(baseAge, baseDate, months)
              else AgeAndDate(baseAge, baseDate)
  {
  }

  /** `calculateRetirement`: the policy entry, the age after tenure rule and delay, and the
      date: the birth date with its year shifted by the pre-delay age, then the delay's
      months added. The policy returned is the table entry even when the tenure rule fired. */
  function CalculateRetirement(
    gender: Gender, jobType: JobType, birthDate: Date, workStartDate: Option<Date>, now: Date
  ): (r: Retirement)
    ensures r.policy == GetRetirementPolicy(gender, jobType)
    ensures var pre := PreDelayAge(gender, jobType, workStartDate, now);
            r.retirementAge == pre + DelayMonths(gender, jobType, birthDate.year) / 12
            && pre <= r.retirementAge <= pre + 5
  {
    var retirementAge := PreDelayAge(gender, jobType, workStartDate, now);
    RetirementFromAge(gender, jobType, birthDate, retirementAge);
    RetirementFrom(gender, jobType, birthDate, retirementAge)
  }

  /** The rest of `calculateRetirement` once the pre-delay age is known: the birth date's
      year shifted by that age, then the delay applied to age and date. */
  function RetirementFrom(gender: Gender, jobType: JobType, birthDate: Date, retirementAge: int): Retirement
  {
    var adjusted := ApplyDelayedRetirementPolicy(birthDate, gender, jobType, retirementAge,
                                                 SetFullYear(birthDate, birthDate.year + retirementAge));
    Retirement(adjusted.age, adjusted.date, GetRetirementPolicy(gender, jobType))
  }

  /** The policy is the table entry and the delay adds its whole years to the age. */
  lemma RetirementFromAge(gender: Gender, jobType: JobType, birthDate: Date, pre: int)
    ensures var r := RetirementFrom(gender, jobType, birthDate, pre);
            && r.policy == GetRetirementPolicy(gender, jobType)
            && r.retirementAge == pre + DelayMonths(gender, jobType, birthDate.year) / 12
            && pre <= r.retirementAge <= pre + 5
  {
    DelayedAge(birthDate, gender, jobType, pre, SetFullYear(birthDate, birthDate.year + pre));
  }

  /** The retirement date is the birth date with its year shifted by the pre-delay age,
      then moved forward by the rule table's months (none when the delay does not apply). */
  lemma RetirementDateSpec(
    gender: Gender, jobType: JobType, birthDate: Date, workStartDate: Option<Date>, now: Date)
    ensures var pre := PreDelayAge(gender, jobType, workStartDate, now);
            var preDate := SetFullYear(birthDate, birthDate.year + pre);
            CalculateRetirement(gender, jobType, birthDate, workStartDate, now).retirementDate ==
              SetMonth(preDate, preDate.month + DelayMonths(gender, jobType, birthDate.year))
  {
    CalculateRetirementDate(gender, jobType, birthDate, workStartDate, now, PreDelayAge(gender, jobType, workStartDate, now));
  }

  /** The same, with the pre-delay age given a name. */
  lemma CalculateRetirementDate(
    gender: Gender, jobType: JobType, birthDate: Date, workStartDate: Option<Date>, now: Date, pre: int)
    requires pre == PreDelayAge(gender, jobType, workStartDate, now)
    ensures var preDate := SetFullYear(birthDate, birthDate.year + pre);
            CalculateRetirement(gender, jobType, birthDate, workStartDate, now).retirementDate ==
              SetMonth(preDate, preDate.month + DelayMonths(gender, jobType, birthDate.year))
  {
    RetirementFromDate(gender, jobType, birthDate, pre);
    CalculateRetirementUnfold(gender, jobType, birthDate, workStartDate, now, pre);
  }

  /** One step of `CalculateRetirement`, with the pre-delay age given a name. */
  lemma CalculateRetirementUnfold(
    gender: Gender, jobType: JobType, birthDate: Date, workStartDate: Option<Date>, now: Date, pre: int)
    requires pre == PreDelayAge(gender, jobType, workStartDate, now)
    ensures CalculateRetirement(gender, jobType, birthDate, workStartDate, now) ==
            RetirementFrom(gender, jobType, birthDate, pre)
  {
  }

  /** The same for any pre-delay age. */
  lemma RetirementFromDate(gender: Gender, jobType: JobType, birthDate: Date, pre: int)
    ensures var preDate := SetFullYear(birthDate, birthDate.year + pre);
            RetirementFrom(gender, jobType, birthDate, pre).retirementDate ==
              SetMonth(preDate, preDate.month + DelayMonths(gender, jobType, birthDate.year))
  {
    var preDate := SetFullYear(birthDate, birthDate.year + pre);
    RetirementFromUnfold(gender, jobType, birthDate, pre, preDate);
    DelayedDate(birthDate, gender, jobType, pre, preDate);
  }

  /** One step of `RetirementFrom`, with the shifted date given a name. */
  lemma RetirementFromUnfold(gender: Gender, jobType: JobType, birthDate: Date, pre: int, preDate: Date)
    requires preDate == SetFullYear(birthDate, birthDate.year + pre)
    ensures RetirementFrom(gender, jobType, birthDate, pre).retirementDate ==
            ApplyDelayedRetirementPolicy(birthDate, gender, jobType, pre, preDate).date
  {
  }

  /** The age half of the rule-table reading, on its own: the delay's whole years. */
  lemma DelayedAge(birthDate: Date, gender: Gender, jobType: JobType, baseAge: int, baseDate: Date)
    ensures ApplyDelayedRetirementPolicy(birthDate, gender, jobType, baseAge, baseDate).age ==
            baseAge + DelayMonths(gender, jobType, birthDate.year) / 12
  {
    ApplyDelayMatchesRuleTable(birthDate, gender, jobType, baseAge, baseDate);
  }

  /** The date half of the rule-table reading, on its own: a date the delay does not touch
      is moved by zero months, which leaves it as it is. */
  lemma DelayedDate(birthDate: Date, gender: Gender, jobType: JobType, baseAge: int, baseDate: Date)
    ensures ApplyDelayedRetirementPolicy(birthDate, gender, jobType, baseAge, baseDate).date ==
            SetMonth(baseDate, baseDate.month + DelayMonths(gender, jobType, birthDate.year))
  {
    ApplyDelayMatchesRuleTable(birthDate, gender, jobType, baseAge, baseDate);
    if !DelayApplies(gender, jobType, birthDate.year) {
      assert DelayMonths(gender, jobType, birthDate.year) == 0;
      assert SetMonth(baseDate, baseDate.month) == baseDate;
    }
  }

  /** The delay grows with the birth year and never exceeds 60 months. */
  lemma {:induction false} DelayMonotone(gender: Gender, jobType: JobType, y1: int, y2: int)
    requires y1 <= y2
    ensures DelayMonths(gender, jobType, y1) <= DelayMonths(gender, jobType, y2) <= 60
  {
    match DelayRule(gender, jobType)
    case None =>
    case Some((pivot, perYear)) =>
      if y1 >= pivot {
        assert (y1 - pivot) * perYear <= (y2 - pivot) * perYear;
      }
  }

  /** Men born in 1977 or later get the full five-year delay. */
  lemma MaleDelayPlateau(jobType: JobType, birthYear: int)
    requires birthYear >= 1962 + 15
    ensures DelayMonths(Male, jobType, birthYear) == 60
  {
  }

  /** Female special, flexible and unlisted workers are never delayed: their date is the
      birth date shifted by the pre-delay age. */
  lemma FemaleNeverDelayed(jobType: JobType, birthDate: Date, workStartDate: Option<Date>, now: Date)
    requires jobType == Special || jobType == Flexible || jobType == Unlisted
    ensures var r := CalculateRetirement(Female, jobType, birthDate, workStartDate, now);
            var pre := PreDelayAge(Female, jobType, workStartDate, now);
            r.retirementAge == pre && r.retirementDate == SetFullYear(birthDate, birthDate.year + pre)
  {
    RetirementDateSpec(Female, jobType, birthDate, workStartDate, now);
    var preDate := SetFullYear(birthDate, birthDate.year + PreDelayAge(Female, jobType, workStartDate, now));
    assert DelayMonths(Female, jobType, birthDate.year) == 0;
    assert SetMonth(preDate, preDate.month) == preDate;
  }

  /** Without a delay (everyone born before 1962) and without the tenure fallback, the age
      is exactly the table's. */
  lemma BaseAgeWithoutDelay(
    gender: Gender, jobType: JobType, birthDate: Date, workStartDate: Option<Date>, now: Date)
    requires birthDate.year < 1962
    requires jobType == Special && workStartDate.Some? ==>
             CalculateWorkYears(workStartDate.value, now) >= REQUIRED_SPECIAL_YEARS
    ensures CalculateRetirement(gender, jobType, birthDate, workStartDate, now).retirementAge ==
            GetRetirementPolicy(gender, jobType).normalRetirementAge
  {
  }

  /** A special-category worker short of ten years of tenure retires at the general age
      (60 for men, plus their delay; 50 for women, never delayed), not the special one. */
  lemma SpecialTenureFallback(gender: Gender, birthDate: Date, workStartDate: Date, now: Date)
    requires CalculateWorkYears(workStartDate, now) < REQUIRED_SPECIAL_YEARS
    ensures var r := CalculateRetirement(gender, Special, birthDate, Some(workStartDate), now);
            r.retirementAge == (if gender == Male then 60 + DelayMonths(Male, Special, birthDate.year) / 12 else 50)
            && r.policy.normalRetirementAge == (if gender == Male then 55 else 45)
  {
  }

  /** With no work start given, the tenure rule cannot fire: a special-category worker
      keeps the special age before any delay. */
  lemma SpecialWithoutWorkStart(gender: Gender, birthDate: Date, now: Date)
    ensures PreDelayAge(gender, Special, None, now) == (if gender == Male then 55 else 45)
  {
  }

  /** For a birth day that exists in every month, the retirement date is the birth day and
      month moved forward by the pre-delay age in years and the delay in months. */
  lemma RetirementDateByMonths(
    gender: Gender, jobType: JobType, birthDate: Date, workStartDate: Option<Date>, now: Date)
    requires birthDate.day <= 28
    ensures var r := CalculateRetirement(gender, jobType, birthDate, workStartDate, now);
            var pre := PreDelayAge(gender, jobType, workStartDate, now);
            var months := birthDate.month + DelayMonths(gender, jobType, birthDate.year);
            r.retirementDate == DateTime(birthDate.year + pre + months / 12, months % 12,
                                         birthDate.day, birthDate.msOfDay)
  {
    var pre := PreDelayAge(gender, jobType, workStartDate, now);
    CalculateRetirementUnfold(gender, jobType, birthDate, workStartDate, now, pre);
    RetirementFromByMonths(gender, jobType, birthDate, pre);
  }

  /** The same for any pre-delay age. */
  lemma RetirementFromByMonths(gender: Gender, jobType: JobType, birthDate: Date, pre: int)
    requires birthDate.day <= 28
    ensures var months := birthDate.month + DelayMonths(gender, jobType, birthDate.year);
            RetirementFrom(gender, jobType, birthDate, pre).retirementDate ==
              DateTime(birthDate.year + pre + months / 12, months % 12, birthDate.day, birthDate.msOfDay)
  {
    var delay := DelayMonths(gender, jobType, birthDate.year);
    var preDate := SetFullYear(birthDate, birthDate.year + pre);
    RetirementFromDate(gender, jobType, birthDate, pre);
    SetFullYearKeepsDay(birthDate, birthDate.year + pre);
    assert preDate == DateTime(birthDate.year + pre, birthDate.month, birthDate.day, birthDate.msOfDay);
    SetMonthKeepsDay(preDate, birthDate.month + delay);
  }

  /** The worked example: a man in a general job born on 1990-01-01 retires at 65 on
      2055-01-01 (base age 60, delay min(28 * 4, 60) = 60 months). */
  lemma MaleGeneral1990Example(workStartDate: Option<Date>, now: Date)
    ensures var r := CalculateRetirement(Male, General, DateTime(1990, 0, 1, 0), workStartDate, now);
            r.retirementAge == 65 && r.retirementDate == DateTime(2055, 0, 1, 0)
  {
    RetirementDateByMonths(Male, General, DateTime(1990, 0, 1, 0), workStartDate, now);
  }

  /** `getJobTypeDescription`: the label of a known job-type key, '其他' for anything else. */
  function GetJobTypeDescription(jobType: string): (text: string)
    ensures text == "其他" <==>
            jobType !in {"general", "special", "civil_servant", "enterprise", "flexible"}
    ensures jobType == "general" ==> text == "一般职工"
    ensures jobType == "special" ==> text == "特殊工种"
    ensures jobType == "civil_servant" ==> text == "公务员/事业单位"
    ensures jobType == "enterprise" ==> text == "企业管理人员"
    ensures jobType == "flexible" ==> text == "灵活就业人员"
  {
    var descriptions := map[
      "general" := "一般职工",
      "special" := "特殊工种",
      "civil_servant" := "公务员/事业单位",
      "enterprise" := "企业管理人员",
      "flexible" := "灵活就业人员"];
    if jobType in descriptions then descriptions[jobType] else "其他"
  }

  const DELAY_NOTE: string := "\n\n注意：根据延迟退休政策，您的实际退休时间可能会有所调整。"
  const TENURE_HEAD: string := "\n工作年限："

  predicate EndsWith(s: string, suffix: string)
  {
    |suffix| <= |s| && s[|s| - |suffix|..] == suffix
  }

  const TENURE_MET: string := "满足特殊工种退休条件。"
  const TENURE_UNMET: string := "需满" + Text.IntToString(REQUIRED_SPECIAL_YEARS) + "年才能按特殊工种退休。"

  /** The tenure note of the explanation; `workYears` is NaN (None) for an invalid work start.
      It shows the years worked and says the special-job condition is met from ten years on. */
  function TenureNote(workYears: Option<int>): (note: string)
    ensures |note| >= |TENURE_HEAD| && note[..|TENURE_HEAD|] == TENURE_HEAD
    ensures note[|note| - 1] == '。' && note[|note| - 2] != '整'
    ensures workYears.Some? && workYears.value >= REQUIRED_SPECIAL_YEARS ==>
              note == TENURE_HEAD + Text.IntToString(workYears.value) + "年，" + TENURE_MET
    ensures workYears.Some? && workYears.value < REQUIRED_SPECIAL_YEARS ==>
              note == TENURE_HEAD + Text.IntToString(workYears.value) + "年，" + TENURE_UNMET
    ensures workYears.None? ==> note == TENURE_HEAD + "NaN年，" + TENURE_UNMET
  {
    var shown := if workYears.Some? then Text.IntToString(workYears.value) else "NaN";
    if workYears.Some? && workYears.value >= 10 then
      HeadedNote(shown, "年，", TENURE_MET);
      TENURE_HEAD + shown + "年，" + TENURE_MET
    else
      HeadedNote(shown, "年，", TENURE_UNMET);
      TENURE_HEAD + shown + "年，" + TENURE_UNMET
  }

  /** A note made of the head, the years shown and an ending keeps the head and the ending's
      last two characters. */
  lemma HeadedNote(shown: string, middle: string, ending: string)
    requires |ending| >= 2
    ensures var note := TENURE_HEAD + shown + middle + ending;
            && |note| >= |TENURE_HEAD| && note[..|TENURE_HEAD|] == TENURE_HEAD
            && note[|note| - 1] == ending[|ending| - 1] && note[|note| - 2] == ending[|ending| - 2]
  {
    var note := TENURE_HEAD + shown + middle + ending;
    assert note[..|TENURE_HEAD|] == TENURE_HEAD;
    assert note[|note| - 1] == ending[|ending| - 1];
  }

  /** The explanation is the description, then optionally the tenure note, then optionally
      the delay note; each part can be recognised in the result. */
  lemma ExplanationShape(description: string, note: string, withNote: bool, delayed: bool)
    requires |description| < |DELAY_NOTE|
    requires |note| >= |TENURE_HEAD| && note[..|TENURE_HEAD|] == TENURE_HEAD && note[|note| - 2] != '整'
    ensures var text := Joined(description, note, withNote, delayed);
            var n := |description|;
            && text[..n] == description
            && (EndsWith(text, DELAY_NOTE) <==> delayed)
            && (withNote <==> |text| >= n + |TENURE_HEAD| && text[n..n + |TENURE_HEAD|] == TENURE_HEAD)
  {
    var n := |description|;
    var D := DELAY_NOTE;
    var T := TENURE_HEAD;
    if withNote {
      var wt := description + note;
      SliceOfRight(description, note, n, n + |T|);
      SliceOfLeft(description, note, 0, n);
      if delayed {
        var text := wt + D;
        SliceOfLeft(wt, D, 0, n);
        SliceOfLeft(wt, D, n, n + |T|);
        SliceOfRight(wt, D, |wt|, |text|);
      } else {
        assert wt[|wt| - 2] == note[|note| - 2];
        assert D[|D| - 2] == '整';
        if |D| <= |wt| {
          assert wt[|wt| - |D|..][|D| - 2] == wt[|wt| - 2];
        }
      }
    } else if delayed {
      var text := description + D;
      SliceOfLeft(description, D, 0, n);
      SliceOfRight(description, D, n, |text|);
      assert text[n + 1] == D[1];
      assert T[1] != D[1];
      assert text[n..n + |T|][1] == text[n + 1];
    } else {
      assert description[..n] == description;
    }
  }

  /** A slice inside the left part of a concatenation. */
  lemma SliceOfLeft(a: string, b: string, i: int, j: int)
    requires 0 <= i <= j <= |a|
    ensures (a + b)[i..j] == a[i..j]
  {
  }

  /** A slice inside the right part of a concatenation. */
  lemma SliceOfRight(a: string, b: string, i: int, j: int)
    requires |a| <= i <= j <= |a| + |b|
    ensures (a + b)[i..j] == b[i - |a|..j - |a|]
  {
  }

  lemma DescriptionsAreShort(gender: Gender, jobType: JobType)
    ensures |GetRetirementPolicy(gender, jobType).description| < |DELAY_NOTE|
  {
  }

  /** The years the explanation shows: `calculateWorkYears` of a valid stored work start,
      NaN (None) for a missing or invalid one. */
  function ExplanationWorkYears(profile: UserProfile, now: Date): Option<int>
  {
    if profile.workStartDate.Some? && profile.workStartDate.value.Valid?
    then Some(CalculateWorkYears(profile.workStartDate.value.date, now))
    else None
  }

  /** The explanation is exactly its parts: the note, when present, follows the description,
      and the length is the sum of the parts' lengths. */
  lemma ExplanationParts(description: string, note: string, withNote: bool, delayed: bool)
    ensures var text := Joined(description, note, withNote, delayed);
            var n := |description|;
            && |text| == n + (if withNote then |note| else 0) + (if delayed then |DELAY_NOTE| else 0)
            && (withNote ==> text[n..n + |note|] == note)
  {
    if withNote {
      var wt := description + note;
      SliceOfRight(description, note, |description|, |wt|);
      if delayed {
        SliceOfLeft(wt, DELAY_NOTE, |description|, |wt|);
      }
    }
  }

  /** `getPolicyExplanation`: the table's description, then a tenure note for a special
      worker whose profile holds a work start, then the delay note exactly when the delay
      guard holds for the birth year. */
  function GetPolicyExplanation(profile: UserProfile, now: Date): (text: string)
    ensures var description := GetRetirementPolicy(profile.gender, profile.jobType).description;
            |description| <= |text| && text[..|description|] == description
    ensures var n := |GetRetirementPolicy(profile.gender, profile.jobType).description|;
            var note := TenureNote(ExplanationWorkYears(profile, now));
            var withNote := profile.workStartDate.Some? && profile.jobType == Special;
            var delayed := DelayApplies(profile.gender, profile.jobType, profile.birthDate.year);
            && |text| == n + (if withNote then |note| else 0) + (if delayed then |DELAY_NOTE| else 0)
            && (withNote ==> text[n..n + |note|] == note)
    ensures EndsWith(text, DELAY_NOTE) <==>
            DelayApplies(profile.gender, profile.jobType, profile.birthDate.year)
    ensures var n := |GetRetirementPolicy(profile.gender, profile.jobType).description|;
            (profile.workStartDate.Some? && profile.jobType == Special) <==>
            (|text| >= n + |TENURE_HEAD| && text[n..n + |TENURE_HEAD|] == TENURE_HEAD)
  {
    var policy := GetRetirementPolicy(profile.gender, profile.jobType);
    var birthYear := profile.birthDate.year;
    var explanation := policy.description;
    var withNote := profile.workStartDate.Some? && profile.jobType == Special;
    var note := TenureNote(ExplanationWorkYears(profile, now));
    var delayed := DelayApplies(profile.gender, profile.jobType, birthYear);
    DescriptionsAreShort(profile.gender, profile.jobType);
    ExplanationShape(explanation, note, withNote, delayed);
    ExplanationParts(explanation, note, withNote, delayed);
    Joined(explanation, note, withNote, delayed)
  }

  /** The description, then the note when it is shown, then the delay note when it applies. */
  function Joined(description: string, note: string, withNote: bool, delayed: bool): string
  {
    var withTenure := if withNote then description + note else description;
    if delayed then withTenure + DELAY_NOTE else withTenure
  }
}

=== FILE: profileform.dfy ===
/** The profile form shared by the onboarding screen (src/screens/OnboardingScreen.tsx) and
    the editing mode of the settings screen (src/screens/SettingsScreen.tsx): eight text
    fields and two choices, one validation chain that stops at the first failing check,
    and the profile built or revised from a form that passes. */
module ProfileForm {
  import opened Basics
  import opened Calendar
  import opened Types
  import Text
  import RetirementPolicy
  import Storage

  const EARLIEST_BIRTH_YEAR: int := 1940
  /** The youngest working age the form accepts, in years. */
  const MIN_WORK_AGE: int := 16

  /** The form's state: the name, the six date fields as typed, and the two choices. */
  datatype Form = Form(
    name: string,
    gender: Gender,
    birthYear: string,
    birthMonth: string,
    birthDay: string,
    workStartYear: string,
    workStartMonth: string,
    workStartDay: string,
    jobType: JobType)

  /** The form as it starts out and as cancelling resets it. */
  const EMPTY_FORM: Form := Form("", Male, "", "", "", "", "", "", General)

  /** The checks of the chain, in the order they run. */
  datatype FormError =
    | EmptyName
    | BadBirthYear
    | BadBirthMonth
    | BadBirthDay
    | BadWorkYear
    | BadWorkMonth
    | BadWorkDay
    | WorkBeforeBirth

  function Rank(e: FormError): nat
  {
    match e
    case EmptyName => 0
    case BadBirthYear => 1
    case BadBirthMonth => 2
    case BadBirthDay => 3
    case BadWorkYear => 4
    case BadWorkMonth => 5
    case BadWorkDay => 6
    case WorkBeforeBirth => 7
  }

  /** What a form that passes every check yields. */
  datatype Entry = Entry(name: string, gender: Gender, jobType: JobType, birthDate: Date, workStartDate: Date)

  datatype Checked = Accepted(entry: Entry) | Rejected(error: FormError)

  /** `parseInt` of the six date fields; None stands for NaN. */
  datatype Fields = Fields(
    year: Option<int>, month: Option<int>, day: Option<int>,
    workYear: Option<int>, workMonth: Option<int>, workDay: Option<int>)

  function Parse(form: Form): Fields
  {
    Fields(
      Text.ParseInt(form.birthYear), Text.ParseInt(form.birthMonth), Text.ParseInt(form.birthDay),
      Text.ParseInt(form.workStartYear), Text.ParseInt(form.workStartMonth), Text.ParseInt(form.workStartDay))
  }

  /** `!n` on a parsed number: NaN and 0 are both falsy. */
  predicate Falsy(n: Option<int>)
  {
    n.None? || n.value == 0
  }

  predicate OutOfRange(n: Option<int>, lo: int, hi: int)
  {
    Falsy(n) || n.value < lo || n.value > hi
  }

  predicate BirthParsed(f: Fields)
  {
    f.year.Some? && f.month.Some? && f.day.Some?
  }

  predicate WorkParsed(f: Fields)
  {
    f.workYear.Some? && f.workMonth.Some? && f.workDay.Some?
  }

  /** `new Date(year, month - 1, day)`. */
  function BirthDate(f: Fields): Date
    requires BirthParsed(f)
  {
    NewDate(f.year.value, f.month.value - 1, f.day.value)
  }

  /** `new Date(workYear, workMonth - 1, workDay)`. */
  function WorkStartDate(f: Fields): Date
    requires WorkParsed(f)
  {
    NewDate(f.workYear.value, f.workMonth.value - 1, f.workDay.value)
  }

  /** Each check on its own, on the trimmed name and the parsed fields: the condition
      under which it turns the form away. */
  predicate Fails(name: string, f: Fields, currentYear: int, e: FormError)
  {
    match e
    case EmptyName => name == []
    case BadBirthYear => OutOfRange(f.year, EARLIEST_BIRTH_YEAR, currentYear - MIN_WORK_AGE)
    case BadBirthMonth => OutOfRange(f.month, 1, 12)
    case BadBirthDay => OutOfRange(f.day, 1, 31)
    case BadWorkYear =>
      Falsy(f.workYear) || (f.year.Some? && f.workYear.value < f.year.value + MIN_WORK_AGE)
      || f.workYear.value > currentYear
    case BadWorkMonth => OutOfRange(f.workMonth, 1, 12)
    case BadWorkDay => OutOfRange(f.workDay, 1, 31)
    case WorkBeforeBirth => WorkStartsBeforeBirth(f)
  }

  /** `workStartDate.getTime() < birthDate.getTime()`. */
  predicate WorkStartsBeforeBirth(f: Fields)
  {
    BirthParsed(f) && WorkParsed(f) && Time(WorkStartDate(f)) < Time(BirthDate(f))
  }

  /** The validation chain of both screens, `currentYear` being `new Date().getFullYear()`:
      the name is trimmed, the six date fields are parsed, and the checks run in order. */
  function ValidateProfileInput(form: Form, currentYear: int): (r: Checked)
    ensures r.Accepted? ==> BirthParsed(Parse(form)) && WorkParsed(Parse(form))
    ensures r.Accepted? ==>
              r.entry == Entry(Text.Trim(form.name), form.gender, form.jobType,
                               BirthDate(Parse(form)), WorkStartDate(Parse(form)))
  {
    CheckFields(Text.Trim(form.name), form.gender, form.jobType, Parse(form), currentYear)
  }

  /** The chain once the name is trimmed and the six fields are parsed: the first failing
      check is reported, and a form that passes them all yields the name and the two dates. */
  function CheckFields(name: string, gender: Gender, jobType: JobType, f: Fields, currentYear: int): (r: Checked)
    ensures r.Accepted? ==> BirthParsed(f) && WorkParsed(f)
    ensures r.Accepted? ==> r.entry == Entry(name, gender, jobType, BirthDate(f), WorkStartDate(f))
  {
    if name == [] then Rejected(EmptyName)
    else if OutOfRange(f.year, EARLIEST_BIRTH_YEAR, currentYear - MIN_WORK_AGE) then Rejected(BadBirthYear)
    else if OutOfRange(f.month, 1, 12) then Rejected(BadBirthMonth)
    else if OutOfRange(f.day, 1, 31) then Rejected(BadBirthDay)
    else if Falsy(f.workYear) || f.workYear.value < f.year.value + MIN_WORK_AGE
            || f.workYear.value > currentYear then Rejected(BadWorkYear)
    else if OutOfRange(f.workMonth, 1, 12) then Rejected(BadWorkMonth)
    else if OutOfRange(f.workDay, 1, 31) then Rejected(BadWorkDay)
    else if WorkStartsBeforeBirth(f) then Rejected(WorkBeforeBirth)
    else Accepted(Entry(name, gender, jobType, BirthDate(f), WorkStartDate(f)))
  }

  /** The chain reports the first check that fails, in the order of the checks. */
  lemma FirstFailureReported(name: string, gender: Gender, jobType: JobType, f: Fields, currentYear: int)
    ensures var r := CheckFields(name, gender, jobType, f, currentYear);
            r.Rejected? ==> Fails(name, f, currentYear, r.error)
                            && forall e :: Rank(e) < Rank(r.error) ==> !Fails(name, f, currentYear, e)
  {
  }

  /** The chain accepts exactly the forms that no check turns away. */
  lemma AcceptedIffNoCheckFails(name: string, gender: Gender, jobType: JobType, f: Fields, currentYear: int)
    ensures CheckFields(name, gender, jobType, f, currentYear).Accepted? <==>
            forall e :: !Fails(name, f, currentYear, e)
  {
    if CheckFields(name, gender, jobType, f, currentYear).Accepted? {
      AcceptedPassesEveryCheck(name, gender, jobType, f, currentYear);
    } else {
      FirstFailureReported(name, gender, jobType, f, currentYear);
    }
  }

  /** An accepted form fails no check. */
  lemma AcceptedPassesEveryCheck(name: string, gender: Gender, jobType: JobType, f: Fields, currentYear: int)
    requires CheckFields(name, gender, jobType, f, currentYear).Accepted?
    ensures forall e :: !Fails(name, f, currentYear, e)
  {
    forall e
      ensures !Fails(name, f, currentYear, e)
    {
    }
  }

  /** A month number 1..12 and a day number 1..31 name a day of that year: at worst the
      day runs into the next month (31 April is 1 May), never into the next year. */
  lemma FormDay(y: int, m: int, d: int)
    requires 0 <= m < 12 && 1 <= d <= 31
    ensures NewDate(y, m, d).year == y
    ensures EpochDays(NewDate(y, m, d)) == DayNumber(y, m, d)
  {
    assert m / 12 == 0 && m % 12 == m;
    assert NewDate(y, m, d) == NormDay(y, m, d, 0);
    NormDayNumber(y, m, d, 0);
    if d > DaysInMonth(y, m) {
      assert m < 11;
      assert d - DaysInMonth(y, m) <= 3;
      assert NormDay(y, m, d, 0) == NormDay(y, m + 1, d - DaysInMonth(y, m), 0);
    }
  }

  /** A work start at least sixteen calendar years after the birth year lies at least
      fifteen full years of days after the birth date, whatever the months and days. */
  lemma WorkStartLongAfterBirth(y: int, m: int, d: int, wy: int, wm: int, wd: int)
    requires 0 <= m < 12 && 1 <= d <= 31 && 0 <= wm < 12 && 1 <= wd <= 31
    requires wy >= y + MIN_WORK_AGE
    ensures EpochDays(NewDate(wy, wm, wd)) - EpochDays(NewDate(y, m, d)) >= 15 * 365
  {
    FormDay(y, m, d);
    FormDay(wy, wm, wd);
    YearLength(y);
    DaysBeforeYearGrows(y + 1, wy);
    assert DaysBeforeMonth(y, m) <= 335;
  }

  /** The last check of the chain never fires: once the year checks pass, the work start
      is always later than the birth date, so no form is turned away as WorkBeforeBirth. */
  lemma WorkBeforeBirthNeverReported(name: string, gender: Gender, jobType: JobType, f: Fields, currentYear: int)
    ensures CheckFields(name, gender, jobType, f, currentYear) != Rejected(WorkBeforeBirth)
  {
    if !OutOfRange(f.year, EARLIEST_BIRTH_YEAR, currentYear - MIN_WORK_AGE) && !OutOfRange(f.month, 1, 12)
       && !OutOfRange(f.day, 1, 31) && !Falsy(f.workYear) && f.workYear.value >= f.year.value + MIN_WORK_AGE
       && !OutOfRange(f.workMonth, 1, 12) && !OutOfRange(f.workDay, 1, 31)
    {
      WorkNotBeforeBirth(f);
    }
  }

  /** Months 1..12, days 1..31 and a work year sixteen years after the birth year put the
      work start after the birth date. */
  lemma WorkNotBeforeBirth(f: Fields)
    requires BirthParsed(f) && WorkParsed(f)
    requires 1 <= f.month.value <= 12 && 1 <= f.day.value <= 31
    requires 1 <= f.workMonth.value <= 12 && 1 <= f.workDay.value <= 31
    requires f.workYear.value >= f.year.value + MIN_WORK_AGE
    ensures !WorkStartsBeforeBirth(f)
  {
    var birth, work := BirthDate(f), WorkStartDate(f);
    WorkStartLongAfterBirth(f.year.value, f.month.value - 1, f.day.value,
                            f.workYear.value, f.workMonth.value - 1, f.workDay.value);
    assert EpochDays(work) >= EpochDays(birth) + 1;
    assert Time(work) >= Time(birth) + DAY_MS - birth.msOfDay;
  }

  /** What the chain guarantees when it accepts: the birth year lies between 1940 and
      sixteen years before the current year, the work start year between sixteen years
      after the birth year and the current year, both dates are midnights, and the work
      start lies at least fifteen years of days after the birth. */
  lemma AcceptedDates(name: string, gender: Gender, jobType: JobType, f: Fields, currentYear: int)
    requires CheckFields(name, gender, jobType, f, currentYear).Accepted?
    ensures var entry := CheckFields(name, gender, jobType, f, currentYear).entry;
            && name != []
            && entry.birthDate.year == f.year.value
            && EARLIEST_BIRTH_YEAR <= entry.birthDate.year <= currentYear - MIN_WORK_AGE
            && entry.workStartDate.year == f.workYear.value
            && entry.birthDate.year + MIN_WORK_AGE <= entry.workStartDate.year <= currentYear
            && entry.birthDate.msOfDay == 0 && entry.workStartDate.msOfDay == 0
            && EpochDays(entry.workStartDate) - EpochDays(entry.birthDate) >= 15 * 365
  {
    FormDay(f.year.value, f.month.value - 1, f.day.value);
    FormDay(f.workYear.value, f.workMonth.value - 1, f.workDay.value);
    WorkStartLongAfterBirth(f.year.value, f.month.value - 1, f.day.value,
                            f.workYear.value, f.workMonth.value - 1, f.workDay.value);
  }

  /** An accepted form's name is not blank, and the entry keeps it trimmed. */
  lemma AcceptedName(form: Form, currentYear: int)
    requires ValidateProfileInput(form, currentYear).Accepted?
    ensures !Text.Blank(form.name) && ValidateProfileInput(form, currentYear).entry.name == Text.Trim(form.name)
  {
    Text.TrimSpec(form.name);
  }

  // ----- onboarding -----

  /** The retirement the policy resolver gives for an accepted form, the work start being known. */
  function RetirementOf(entry: Entry, now: Date): RetirementPolicy.Retirement
  {
    RetirementPolicy.CalculateRetirement(entry.gender, entry.jobType, entry.birthDate, Some(entry.workStartDate), now)
  }

  /** The profile onboarding builds from an accepted form: the id is `Date.now()` as text. */
  function NewProfile(entry: Entry, now: Date): (p: UserProfile)
  {
    var retirement := RetirementOf(entry, now);
    UserProfile(
      Text.IntToString(Time(now)), entry.name, entry.gender, entry.birthDate, entry.jobType,
      Some(Valid(entry.workStartDate)), retirement.retirementAge, Valid(retirement.retirementDate),
      None, now, now)
  }

  datatype Completion = Completed(profile: UserProfile, alreadyRetired: bool) | Refused(error: FormError)

  /** `handleComplete`: validate the form; on success compute the retirement, build the
      profile, note whether the retirement date has already passed (the congratulation
      alert) and save the profile; on failure nothing is saved. */
  method HandleComplete(form: Form, now: Date, store: Storage.Store) returns (outcome: Completion)
    modifies store
    ensures ValidateProfileInput(form, now.year).Rejected? ==>
              outcome == Refused(ValidateProfileInput(form, now.year).error) && store.profile == old(store.profile)
    ensures ValidateProfileInput(form, now.year).Accepted? ==>
              var entry := ValidateProfileInput(form, now.year).entry;
              && outcome == Completed(NewProfile(entry, now), Time(RetirementOf(entry, now).retirementDate) < Time(now))
              && store.profile == Some(outcome.profile)
    ensures store.schedules == old(store.schedules) && store.appSettings == old(store.appSettings)
    ensures store.widgetSettings == old(store.widgetSettings)
  {
    var checked := ValidateProfileInput(form, now.year);
    if checked.Rejected? {
      return Refused(checked.error);
    }
    var retirementInfo := RetirementOf(checked.entry, now);
    var alreadyRetired := Time(retirementInfo.retirementDate) < Time(now);
    var profile := NewProfile(checked.entry, now);
    store.SaveUserProfile(profile);
    outcome := Completed(profile, alreadyRetired);
  }

  /** The profile onboarding saves carries the validated data, no image, and now as both
      its creation and its update time. */
  lemma NewProfileCarriesEntry(entry: Entry, now: Date)
    ensures var p := NewProfile(entry, now);
            && p.name == entry.name && p.gender == entry.gender && p.jobType == entry.jobType
            && p.birthDate == entry.birthDate && p.workStartDate == Some(Valid(entry.workStartDate))
            && p.createdAt == now && p.updatedAt == now && p.profileImage == None
  {
  }

  /** The retirement age onboarding saves is the policy resolver's for the entry, `work`
      being the entry's work start as the resolver receives it: the pre-delay age raised by
      the delay months, at most five years. */
  lemma NewProfileRetirementAge(entry: Entry, now: Date, work: Option<Date>)
    requires work == Some(entry.workStartDate)
    ensures var pre := RetirementPolicy.PreDelayAge(entry.gender, entry.jobType, work, now);
            var delay := RetirementPolicy.DelayMonths(entry.gender, entry.jobType, entry.birthDate.year);
            var age := NewProfile(entry, now).retirementAge;
            age == pre + delay / 12 && pre <= age <= pre + 5
  {
    NewProfileRetirement(entry, now, work);
  }

  /** The retirement date onboarding saves is the policy resolver's for the entry: the
      birth date at the pre-delay age, moved forward by the delay months. */
  lemma NewProfileRetirementDate(entry: Entry, now: Date, work: Option<Date>)
    requires work == Some(entry.workStartDate)
    ensures var pre := RetirementPolicy.PreDelayAge(entry.gender, entry.jobType, work, now);
            var preDate := SetFullYear(entry.birthDate, entry.birthDate.year + pre);
            var delay := RetirementPolicy.DelayMonths(entry.gender, entry.jobType, entry.birthDate.year);
            NewProfile(entry, now).retirementDate == Valid(SetMonth(preDate, preDate.month + delay))
  {
    RetirementPolicy.RetirementDateSpec(entry.gender, entry.jobType, entry.birthDate, work, now);
    NewProfileRetirement(entry, now, work);
  }

  /** The retirement onboarding saves is the resolver's answer for the entry. */
  lemma NewProfileRetirement(entry: Entry, now: Date, work: Option<Date>)
    requires work == Some(entry.workStartDate)
    ensures var r := RetirementPolicy.CalculateRetirement(entry.gender, entry.jobType, entry.birthDate, work, now);
            NewProfile(entry, now).retirementDate == Valid(r.retirementDate)
            && NewProfile(entry, now).retirementAge == r.retirementAge
  {
  }

  // ----- settings -----

  /** The three date fields `startEditing` writes for a date: `getFullYear()`,
      `getMonth() + 1` and `getDate()` as text, or "NaN" for the Invalid Date. */
  function DateFields(s: Stamp): (string, string, string)
  {
    match s
    case Valid(d) => (Text.IntToString(d.year), Text.IntToString(d.month + 1), Text.IntToString(d.day))
    case Invalid => ("NaN", "NaN", "NaN")
  }

  /** The form `startEditing` fills from a profile; a missing work start shows today. */
  function FormOf(profile: UserProfile, today: Date): Form
  {
    var birth := DateFields(Valid(profile.birthDate));
    var work := DateFields(if profile.workStartDate.Some? then profile.workStartDate.value else Valid(today));
    Form(profile.name, profile.gender, birth.0, birth.1, birth.2, work.0, work.1, work.2, profile.jobType)
  }

  /** `updateProfile` with the edited fields: the form's values and a fresh retirement
      replace the old ones, `updatedAt` becomes now, everything else is kept. */
  function Revise(profile: UserProfile, entry: Entry, now: Date): UserProfile
  {
    var retirement := RetirementOf(entry, now);
    profile.(name := entry.name, gender := entry.gender, birthDate := entry.birthDate,
             workStartDate := Some(Valid(entry.workStartDate)), jobType := entry.jobType,
             retirementAge := retirement.retirementAge, retirementDate := Valid(retirement.retirementDate),
             updatedAt := now)
  }

  /** A revision keeps the profile's identity, creation time and picture, and gives it the
      retirement the resolver computes for the edited data. */
  lemma ReviseKeepsIdentity(profile: UserProfile, form: Form, now: Date)
    requires ValidateProfileInput(form, now.year).Accepted?
    ensures var entry := ValidateProfileInput(form, now.year).entry;
            var q := Revise(profile, entry, now);
            && q.id == profile.id && q.createdAt == profile.createdAt && q.profileImage == profile.profileImage
            && q.updatedAt == now
            && q == NewProfile(entry, now).(id := profile.id, createdAt := profile.createdAt,
                                            profileImage := profile.profileImage)
  {
  }

  datatype Saving = NothingToEdit | Declined(error: FormError) | Updated(profile: UserProfile)

  /** The editing state of the settings screen. The profile being edited is the one the
      store holds, as the shared profile state mirrors it. */
  class SettingsScreen {
    var isEditing: bool
    var editForm: Form

    constructor()
      ensures !isEditing && editForm == EMPTY_FORM
    {
      isEditing := false;
      editForm := EMPTY_FORM;
    }

    /** `startEditing`: without a profile nothing happens; otherwise the form is filled
        from the profile and editing starts. */
    method StartEditing(profile: Option<UserProfile>, today: Date)
      modifies this
      ensures profile.None? ==> isEditing == old(isEditing) && editForm == old(editForm)
      ensures profile.Some? ==> isEditing && editForm == FormOf(profile.value, today)
    {
      if profile.None? {
        return;
      }
      editForm := FormOf(profile.value, today);
      isEditing := true;
    }

    /** `cancelEditing`: editing stops and the form returns to its empty state. */
    method CancelEditing()
      modifies this
      ensures !isEditing && editForm == EMPTY_FORM
    {
      isEditing := false;
      editForm := EMPTY_FORM;
    }

    /** `saveChanges`: without a profile nothing happens; a form that fails a check is
        reported and editing goes on; otherwise the revised profile is saved and editing
        stops. */
    method SaveChanges(now: Date, store: Storage.Store) returns (outcome: Saving)
      modifies this, store
      ensures editForm == old(editForm)
      ensures store.schedules == old(store.schedules) && store.appSettings == old(store.appSettings)
      ensures store.widgetSettings == old(store.widgetSettings)
      ensures old(store.profile).None? ==>
                outcome == NothingToEdit && store.profile == old(store.profile) && isEditing == old(isEditing)
      ensures old(store.profile).Some? && ValidateProfileInput(editForm, now.year).Rejected? ==>
                outcome == Declined(ValidateProfileInput(editForm, now.year).error)
                && store.profile == old(store.profile) && isEditing == old(isEditing)
      ensures old(store.profile).Some? && ValidateProfileInput(editForm, now.year).Accepted? ==>
                outcome == Updated(Revise(old(store.profile).value, ValidateProfileInput(editForm, now.year).entry, now))
                && store.profile == Some(outcome.profile) && !isEditing
    {
      var profile := store.GetUserProfile();
      if profile.None? {
        return NothingToEdit;
      }
      var checked := ValidateProfileInput(editForm, now.year);
      if checked.Rejected? {
        return Declined(checked.error);
      }
      var updated := Revise(profile.value, checked.entry, now);
      store.SaveUserProfile(updated);
      isEditing := false;
      outcome := Updated(updated);
    }
  }

  /** The numbers a date field reads back as: the date's, or none for the Invalid Date. */
  function YearOf(s: Stamp): Option<int>
  {
    if s.Valid? then Some(s.date.year) else None
  }

  function MonthOf(s: Stamp): Option<int>
  {
    if s.Valid? then Some(s.date.month + 1) else None
  }

  function DayOf(s: Stamp): Option<int>
  {
    if s.Valid? then Some(s.date.day) else None
  }

  /** The date fields of a real date read back as that date's numbers, and those of the
      Invalid Date as NaN. */
  lemma DateFieldsReadBack(s: Stamp)
    ensures var fields := DateFields(s);
            && Text.ParseInt(fields.0) == YearOf(s)
            && Text.ParseInt(fields.1) == MonthOf(s)
            && Text.ParseInt(fields.2) == DayOf(s)
  {
    if s.Valid? {
      var d := s.date;
      assert DateFields(s) == (Text.IntToString(d.year), Text.IntToString(d.month + 1), Text.IntToString(d.day));
      ParseIntOfIntToStringAlone(d.year);
      ParseIntOfIntToStringAlone(d.month + 1);
      ParseIntOfIntToStringAlone(d.day);
    } else {
      assert DateFields(s) == ("NaN", "NaN", "NaN");
      assert Text.TrimStart("NaN") == "NaN";
      assert !Text.IsDigit('N');
    }
  }

  /** A number's text on its own reads back as that number. */
  lemma ParseIntOfIntToStringAlone(n: int)
    ensures Text.ParseInt(Text.IntToString(n)) == Some(n)
  {
    Text.ParseIntOfIntToString(n, []);
    assert Text.IntToString(n) + [] == Text.IntToString(n);
  }

  /** The fields `startEditing` writes for a birth date and a work start. */
  function FieldsOf(b: Date, w: Stamp): Fields
  {
    Fields(Some(b.year), Some(b.month + 1), Some(b.day), YearOf(w), MonthOf(w), DayOf(w))
  }

  /** The form `startEditing` fills parses back to the birth date's numbers and the work
      start's (today's when it is missing), or to NaN for an Invalid work start. */
  lemma ParsedFormOf(profile: UserProfile, today: Date)
    ensures var w := if profile.workStartDate.Some? then profile.workStartDate.value else Valid(today);
            Parse(FormOf(profile, today)) == FieldsOf(profile.birthDate, w)
  {
    var w := if profile.workStartDate.Some? then profile.workStartDate.value else Valid(today);
    FormOfDateFields(profile, today, w);
    var b := Valid(profile.birthDate);
    ParseOfDateFields(FormOf(profile, today), b, w);
    assert FieldsOf(profile.birthDate, w) == Fields(YearOf(b), MonthOf(b), DayOf(b), YearOf(w), MonthOf(w), DayOf(w));
  }

  /** The date fields of the filled form are those written for the two stamps. */
  lemma FormOfDateFields(profile: UserProfile, today: Date, w: Stamp)
    requires w == if profile.workStartDate.Some? then profile.workStartDate.value else Valid(today)
    ensures var form := FormOf(profile, today);
            && (form.birthYear, form.birthMonth, form.birthDay) == DateFields(Valid(profile.birthDate))
            && (form.workStartYear, form.workStartMonth, form.workStartDay) == DateFields(w)
  {
  }

  /** A form whose date fields are those written for two stamps parses to their numbers. */
  lemma ParseOfDateFields(form: Form, b: Stamp, w: Stamp)
    requires (form.birthYear, form.birthMonth, form.birthDay) == DateFields(b)
    requires (form.workStartYear, form.workStartMonth, form.workStartDay) == DateFields(w)
    ensures Parse(form) == Fields(YearOf(b), MonthOf(b), DayOf(b), YearOf(w), MonthOf(w), DayOf(w))
  {
    ParseOfForm(form);
    DateFieldsReadBack(b);
    DateFieldsReadBack(w);
  }

  /** Parsing a form reads each of its six date fields on its own. */
  lemma ParseOfForm(form: Form)
    ensures Parse(form) == Fields(Text.ParseInt(form.birthYear), Text.ParseInt(form.birthMonth),
                                  Text.ParseInt(form.birthDay), Text.ParseInt(form.workStartYear),
                                  Text.ParseInt(form.workStartMonth), Text.ParseInt(form.workStartDay))
  {
  }

  /** `new Date(getFullYear(), getMonth(), getDate())` is the same day at midnight. */
  lemma MidnightOfFields(d: Date)
    ensures NewDate(d.year, d.month + 1 - 1, d.day) == d.(msOfDay := 0)
  {
    assert d.month + 1 - 1 == d.month;
  }

  /** The chain on the numbers of two real dates: only the name and the two year checks
      can fail, and a pass gives the dates back at midnight. */
  lemma CheckFieldsOfDates(name: string, gender: Gender, jobType: JobType, b: Date, w: Stamp, currentYear: int)
    ensures var r := CheckFields(name, gender, jobType, FieldsOf(b, w), currentYear);
            && (r.Accepted? <==>
                  name != [] && EARLIEST_BIRTH_YEAR <= b.year <= currentYear - MIN_WORK_AGE
                  && w.Valid? && b.year + MIN_WORK_AGE <= w.date.year <= currentYear)
            && (r.Accepted? ==> r.entry.birthDate == b.(msOfDay := 0) && r.entry.workStartDate == w.date.(msOfDay := 0))
  {
    var f := FieldsOf(b, w);
    var r := CheckFields(name, gender, jobType, f, currentYear);
    MidnightOfFields(b);
    if w.Valid? {
      MidnightOfFields(w.date);
      if name != [] && EARLIEST_BIRTH_YEAR <= b.year <= currentYear - MIN_WORK_AGE
         && b.year + MIN_WORK_AGE <= w.date.year <= currentYear
      {
        WorkStartLongAfterBirth(b.year, b.month, b.day, w.date.year, w.date.month, w.date.day);
      }
    }
    if r.Accepted? {
      assert BirthDate(f) == NewDate(b.year, b.month + 1 - 1, b.day);
      assert WorkStartDate(f) == NewDate(w.date.year, w.date.month + 1 - 1, w.date.day);
    }
  }

  /** Editing a profile and saving without changes: the form passes exactly when the
      profile's name is not blank, its birth year lies between 1940 and sixteen years
      before now, and a real work start year lies between sixteen years after the birth
      year and now; and then the dates come back unchanged, set to midnight. */
  lemma EditRoundTrip(profile: UserProfile, today: Date, currentYear: int)
    ensures var w := if profile.workStartDate.Some? then profile.workStartDate.value else Valid(today);
            var r := ValidateProfileInput(FormOf(profile, today), currentYear);
            && (r.Accepted? <==>
                  !Text.Blank(profile.name)
                  && EARLIEST_BIRTH_YEAR <= profile.birthDate.year <= currentYear - MIN_WORK_AGE
                  && w.Valid? && profile.birthDate.year + MIN_WORK_AGE <= w.date.year <= currentYear)
            && (r.Accepted? ==>
                  r.entry.birthDate == profile.birthDate.(msOfDay := 0)
                  && r.entry.workStartDate == w.date.(msOfDay := 0))
  {
    var w := if profile.workStartDate.Some? then profile.workStartDate.value else Valid(today);
    var form := FormOf(profile, today);
    Text.TrimSpec(profile.name);
    ParsedFormOf(profile, today);
    CheckFieldsOfDates(Text.Trim(profile.name), profile.gender, profile.jobType, profile.birthDate, w, currentYear);
  }
}

=== FILE: storage.dfy ===
/** The key-value persistence of src/services/StorageService.ts, held as the fields of one
    object: the profile under "user_profile", the daily schedules under "daily_schedules",
    the app settings under "app_settings" and the widget settings under "widget_settings".
    A field is None when its key is absent. The record history lives in a separate store
    object, so nothing here can change it. */
module Storage {
  import opened Basics
  import opened Calendar
  import opened Types

  /** A schedule as it reads back from storage: its `createdAt` may be missing. */
  datatype StoredSchedule = StoredSchedule(schedule: DailySchedule, hasCreatedAt: bool)

  /** A schedule as `saveDailySchedule` writes it: every field present. */
  function Stash(schedule: DailySchedule): StoredSchedule
  {
    StoredSchedule(schedule, true)
  }

  /** The mapping in `getAllDailySchedules`: a missing `createdAt` becomes now. */
  function Revive(stored: StoredSchedule, now: Date): (schedule: DailySchedule)
    ensures schedule.(createdAt := stored.schedule.createdAt) == stored.schedule
    ensures stored.hasCreatedAt ==> schedule == stored.schedule
    ensures !stored.hasCreatedAt ==> schedule.createdAt == now
  {
    if stored.hasCreatedAt then stored.schedule else stored.schedule.(createdAt := now)
  }

  /** A schedule that was written reads back unchanged. */
  lemma ReviveStash(schedule: DailySchedule, now: Date)
    ensures Revive(Stash(schedule), now) == schedule
  {
  }

  /** `findIndex(s => s.date === date)`: the first position holding that day, or -1. */
  function ScheduleIndex(schedules: seq<DailySchedule>, date: DateKey): (i: int)
    ensures -1 <= i < |schedules|
    ensures i >= 0 ==> schedules[i].date == date && forall j :: 0 <= j < i ==> schedules[j].date != date
    ensures i < 0 ==> forall j :: 0 <= j < |schedules| ==> schedules[j].date != date
    decreases |schedules|
  {
    if schedules == [] then -1
    else if schedules[0].date == date then 0
    else
      var k := ScheduleIndex(schedules[1..], date);
      if k < 0 then -1 else k + 1
  }

  /** The schedule replaces the first one of its day in place, or is appended. */
  function UpsertSchedule(schedules: seq<DailySchedule>, schedule: DailySchedule): seq<DailySchedule>
  {
    var i := ScheduleIndex(schedules, schedule.date);
    if i >= 0 then schedules[i := schedule] else schedules + [schedule]
  }

  /** An upsert reorders nothing: every position keeps its schedule except the first one of
      the schedule's day, which takes the new schedule; a new day goes to the end. */
  lemma UpsertScheduleSpec(schedules: seq<DailySchedule>, schedule: DailySchedule)
    ensures var u := UpsertSchedule(schedules, schedule);
            var i := ScheduleIndex(schedules, schedule.date);
            && |u| == (if i >= 0 then |schedules| else |schedules| + 1)
            && (forall j :: 0 <= j < |schedules| && j != i ==> u[j] == schedules[j])
            && (i >= 0 ==> u[i] == schedule)
            && (i < 0 ==> u[|schedules|] == schedule)
            && ScheduleIndex(u, schedule.date) == (if i >= 0 then i else |schedules|)
  {
  }

  /** `find(s => s.date === date) || null`. */
  function FindSchedule(schedules: seq<DailySchedule>, date: DateKey): (found: Option<DailySchedule>)
    ensures found.Some? ==> found.value in schedules && found.value.date == date
    ensures found.None? <==> forall s :: s in schedules ==> s.date != date
    ensures forall i :: (0 <= i < |schedules| && schedules[i].date == date
                         && forall j :: 0 <= j < i ==> schedules[j].date != date) ==> found == Some(schedules[i])
  {
    var i := ScheduleIndex(schedules, date);
    if i >= 0 then Some(schedules[i]) else None
  }

  class Store {
    var profile: Option<UserProfile>
    var schedules: Option<seq<StoredSchedule>>
    var appSettings: Option<AppSettings>
    var widgetSettings: Option<WidgetSettings>

    constructor()
      ensures profile == None && schedules == None && appSettings == None && widgetSettings == None
    {
      profile := None;
      schedules := None;
      appSettings := None;
      widgetSettings := None;
    }

    /** The schedules as `getAllDailySchedules` returns them at `now`. */
    function Schedules(now: Date): (all: seq<DailySchedule>)
      reads this
      ensures schedules.None? ==> all == []
      ensures schedules.Some? ==> |all| == |schedules.value|
                                  && forall i :: 0 <= i < |all| ==> all[i] == Revive(schedules.value[i], now)
    {
      match schedules
      case None => []
      case Some(stored) => seq(|stored|, i requires 0 <= i < |stored| => Revive(stored[i], now))
    }

    /** `saveUserProfile`. */
    method SaveUserProfile(p: UserProfile)
      modifies this
      ensures profile == Some(p)
      ensures schedules == old(schedules) && appSettings == old(appSettings) && widgetSettings == old(widgetSettings)
    {
      profile := Some(p);
    }

    /** `getUserProfile`: null when nothing is stored, otherwise the profile saved last. */
    method GetUserProfile() returns (p: Option<UserProfile>)
      ensures p == profile
    {
      p := profile;
    }

    /** `getAllDailySchedules`: [] when nothing is stored; each schedule with a missing
        `createdAt` gets now. */
    method GetAllDailySchedules(now: Date) returns (all: seq<DailySchedule>)
      ensures schedules.None? ==> all == []
      ensures schedules.Some? ==> |all| == |schedules.value|
      ensures forall i :: 0 <= i < |all| ==> all[i].date == schedules.value[i].schedule.date
      ensures forall i :: 0 <= i < |all| && schedules.value[i].hasCreatedAt ==> all[i] == schedules.value[i].schedule
      ensures all == Schedules(now)
    {
      all := Schedules(now);
    }

    /** `getDailySchedule`: the first schedule of that day, or null. */
    method GetDailySchedule(date: DateKey, now: Date) returns (found: Option<DailySchedule>)
      ensures found.Some? ==> found.value in Schedules(now) && found.value.date == date
      ensures found.None? <==> forall s :: s in Schedules(now) ==> s.date != date
      ensures found == FindSchedule(Schedules(now), date)
    {
      var all := GetAllDailySchedules(now);
      found := FindSchedule(all, date);
    }

    /** `saveDailySchedule`: read all schedules, replace the one of the same day at its
        position or append, and write the list back. Every schedule is written with its
        `createdAt`, so the list reads back the same at any later time. */
    method SaveDailySchedule(schedule: DailySchedule, now: Date)
      modifies this
      ensures schedules.Some?
      ensures forall i :: 0 <= i < |schedules.value| ==> schedules.value[i].hasCreatedAt
      ensures forall later: Date :: Schedules(later) == UpsertSchedule(old(Schedules(now)), schedule)
      ensures profile == old(profile) && appSettings == old(appSettings) && widgetSettings == old(widgetSettings)
    {
      var all := GetAllDailySchedules(now);
      var existingIndex := ScheduleIndex(all, schedule.date);
      if existingIndex >= 0 {
        all := all[existingIndex := schedule];
      } else {
        all := all + [schedule];
      }
      schedules := Some(seq(|all|, i requires 0 <= i < |all| => Stash(all[i])));
      forall later: Date
        ensures Schedules(later) == all
      {
        assert forall i :: 0 <= i < |all| ==> Schedules(later)[i] == all[i];
      }
    }

    /** `saveAppSettings`. */
    method SaveAppSettings(settings: AppSettings)
      modifies this
      ensures appSettings == Some(settings)
      ensures profile == old(profile) && schedules == old(schedules) && widgetSettings == old(widgetSettings)
    {
      appSettings := Some(settings);
    }

    /** `getAppSettings`: null when nothing is stored. */
    method GetAppSettings() returns (settings: Option<AppSettings>)
      ensures settings == appSettings
    {
      settings := appSettings;
    }

    /** `saveWidgetSettings`. */
    method SaveWidgetSettings(settings: WidgetSettings)
      modifies this
      ensures widgetSettings == Some(settings)
      ensures profile == old(profile) && schedules == old(schedules) && appSettings == old(appSettings)
    {
      widgetSettings := Some(settings);
    }

    /** `getWidgetSettings`: null when nothing is stored. */
    method GetWidgetSettings() returns (settings: Option<WidgetSettings>)
      ensures settings == widgetSettings
    {
      settings := widgetSettings;
    }

    /** `clearAllData`: the four keys of this store are removed; other objects, such as the
        record history, are outside what it may modify. */
    method ClearAllData()
      modifies this
      ensures profile == None && schedules == None && appSettings == None && widgetSettings == None
    {
      profile := None;
      schedules := None;
      appSettings := None;
      widgetSettings := None;
    }
  }

  /** Saving a schedule and reading its day back gives that schedule, and every other day
      reads back as before. */
  lemma SavedScheduleReadsBack(before: seq<DailySchedule>, schedule: DailySchedule, date: DateKey)
    ensures date == schedule.date ==> FindSchedule(UpsertSchedule(before, schedule), date) == Some(schedule)
    ensures date != schedule.date ==> FindSchedule(UpsertSchedule(before, schedule), date) == FindSchedule(before, date)
  {
    UpsertScheduleSpec(before, schedule);
    var i := ScheduleIndex(before, schedule.date);
    var u := UpsertSchedule(before, schedule);
    if date != schedule.date {
      var k := ScheduleIndex(before, date);
      if k >= 0 {
        assert u[k] == before[k];
      }
    }
  }
}

=== FILE: text.dfy ===
/** The string conversions the modelled code relies on: decimal rendering of integers
    (template literals `${n}`), `parseInt`, `Number(...)` on short numeric strings,
    `String.prototype.trim` and splitting at a separator. */
module Text {
  import opened Basics

  predicate IsDigit(c: char) { '0' <= c <= '9' }

  predicate AllDigits(s: string) { forall i :: 0 <= i < |s| ==> IsDigit(s[i]) }

  function DigitChar(d: nat): (c: char)
    requires d < 10
    ensures IsDigit(c) && (c as int) - ('0' as int) == d
  {
    "0123456789"[d]
  }

  /** Decimal rendering of a non-negative integer, without leading zeros. */
  function NatToString(n: nat): (s: string)
    ensures |s| >= 1 && AllDigits(s)
    ensures |s| > 1 ==> s[0] != '0'
    decreases n
  {
    if n < 10 then [DigitChar(n)] else NatToString(n / 10) + [DigitChar(n % 10)]
  }

  /** `${n}` for an integer-valued number. */
  function IntToString(n: int): (s: string)
    ensures |s| >= 1
    ensures n >= 0 <==> IsDigit(s[0])
    ensures n < 0 ==> s[0] == '-'
  {
    if n < 0 then "-" + NatToString(-n) else NatToString(n)
  }

  /** The value of a string of decimal digits (the empty string reads as 0). */
  function DigitsValue(s: string): nat
    requires AllDigits(s)
  {
    if s == [] then 0
    else DigitsValue(s[..|s| - 1]) * 10 + ((s[|s| - 1] as int) - ('0' as int))
  }

  lemma {:induction false} NatToStringRoundTrip(n: nat)
    ensures DigitsValue(NatToString(n)) == n
    decreases n
  {
    if n >= 10 {
      var s := NatToString(n);
      assert s[..|s| - 1] == NatToString(n / 10);
      NatToStringRoundTrip(n / 10);
    }
  }

  /** Rendering is injective: two numbers print alike only when they are equal. */
  lemma IntToStringInjective(a: int, b: int)
    requires IntToString(a) == IntToString(b)
    ensures a == b
  {
    var s := IntToString(a);
    if a >= 0 {
      assert IsDigit(s[0]);
      NatToStringRoundTrip(a);
      NatToStringRoundTrip(b);
    } else {
      assert !IsDigit(s[0]);
      assert NatToString(-a) == s[1..] == NatToString(-b);
      NatToStringRoundTrip(-a);
      NatToStringRoundTrip(-b);
    }
  }

  /** The characters JavaScript's `trim` and `parseInt` treat as white space
      (ASCII blanks, no-break spaces, line and paragraph separators and the
      Unicode space separators, among them the ideographic space U+3000). */
  predicate IsWhiteSpace(c: char)
  {
    c == ' ' || c == '\t' || c == '\n' || c == '\r' || c == '\U{000B}' || c == '\U{000C}'
    || c == '\U{00A0}' || c == '\U{1680}' || ('\U{2000}' <= c <= '\U{200A}')
    || c == '\U{2028}' || c == '\U{2029}' || c == '\U{202F}' || c == '\U{205F}'
    || c == '\U{3000}' || c == '\U{FEFF}'
  }

  predicate Blank(s: string) { forall i :: 0 <= i < |s| ==> IsWhiteSpace(s[i]) }

  /** `s.trimStart()`. */
  function TrimStart(s: string): (r: string)
    ensures |r| <= |s|
  {
    if s != [] && IsWhiteSpace(s[0]) then TrimStart(s[1..]) else s
  }

  /** `s.trimEnd()`. */
  function TrimEnd(s: string): (r: string)
    ensures |r| <= |s|
  {
    if s != [] && IsWhiteSpace(s[|s| - 1]) then TrimEnd(s[..|s| - 1]) else s
  }

  /** `trimStart` removes exactly the leading white space: what it drops is blank and what
      it keeps is a suffix that does not start with white space. */
  lemma {:induction false} TrimStartSpec(s: string)
    ensures var r := TrimStart(s);
            && r == s[|s| - |r|..]
            && Blank(s[..|s| - |r|])
            && (r != [] ==> !IsWhiteSpace(r[0]))
  {
    if s != [] && IsWhiteSpace(s[0]) {
      TrimStartSpec(s[1..]);
      var r := TrimStart(s);
      assert s[..|s| - |r|] == [s[0]] + s[1..][..|s| - 1 - |r|];
    }
  }

  /** `trimEnd` removes exactly the trailing white space. */
  lemma {:induction false} TrimEndSpec(s: string)
    ensures var r := TrimEnd(s);
            && r == s[..|r|]
            && Blank(s[|r|..])
            && (r != [] ==> !IsWhiteSpace(r[|r| - 1]))
  {
    if s != [] && IsWhiteSpace(s[|s| - 1]) {
      var t := s[..|s| - 1];
      TrimEndSpec(t);
      var r := TrimEnd(s);
      assert s[|r|..] == t[|r|..] + [s[|s| - 1]];
      assert t[..|r|] == s[..|r|];
    }
  }

  /** `s.trim()`. */
  function Trim(s: string): string
  {
    TrimEnd(TrimStart(s))
  }

  /** Trimming empties a text exactly when it is all white space, and otherwise leaves a
      text that neither starts nor ends with white space. */
  lemma TrimSpec(s: string)
    ensures Trim(s) == [] <==> Blank(s)
    ensures Trim(s) != [] ==> !IsWhiteSpace(Trim(s)[0]) && !IsWhiteSpace(Trim(s)[|Trim(s)| - 1])
  {
    var t := TrimStart(s);
    var r := TrimEnd(t);
    TrimStartSpec(s);
    TrimEndSpec(t);
    assert s == s[..|s| - |t|] + t;
    if r == [] {
      assert t == t[|r|..];
    }
    if r != [] {
      assert r[0] == t[0];
    }
  }

  /** The longest prefix of `s` made of decimal digits. */
  function DigitPrefix(s: string): (p: string)
    ensures AllDigits(p) && |p| <= |s| && p == s[..|p|]
    ensures |p| < |s| ==> !IsDigit(s[|p|])
  {
    if s != [] && IsDigit(s[0]) then [s[0]] + DigitPrefix(s[1..]) else []
  }

  lemma {:induction false} DigitPrefixOfDigits(s: string)
    requires AllDigits(s)
    ensures DigitPrefix(s) == s
  {
    if s != [] {
      DigitPrefixOfDigits(s[1..]);
    }
  }

  /** `parseInt(s)` without a radix: leading white space is skipped and a sign is read;
      then a "0x" or "0X" prefix selects base 16, and otherwise the longest run of decimal
      digits is read; NaN (None) when there is no digit. */
  function ParseInt(s: string): Option<int>
  {
    ParseSigned(TrimStart(s))
  }

  /** `parseInt` after the leading white space: an optional sign, then the magnitude. */
  function ParseSigned(t: string): Option<int>
  {
    var negative := t != [] && t[0] == '-';
    var body := if t != [] && (t[0] == '-' || t[0] == '+') then t[1..] else t;
    var magnitude := ParseMagnitude(body);
    if magnitude.None? then None
    else if negative then Some(-(magnitude.value as int))
    else magnitude
  }

  /** Whether a text after the sign starts with the base-16 prefix "0x" or "0X". */
  predicate HexMarked(body: string)
  {
    |body| >= 2 && body[0] == '0' && (body[1] == 'x' || body[1] == 'X')
  }

  /** The unsigned part of `parseInt`: the longest run of digits of the selected base. */
  function ParseMagnitude(body: string): (m: Option<nat>)
    ensures !HexMarked(body) ==> (m.Some? <==> DigitPrefix(body) != [])
    ensures !HexMarked(body) && m.Some? ==> m.value == DigitsValue(DigitPrefix(body))
  {
    if HexMarked(body) then
      var digits := HexPrefix(body[2..]);
      if digits == [] then None else Some(HexValue(digits))
    else
      var digits := DigitPrefix(body);
      if digits == [] then None else Some(DigitsValue(digits))
  }

  predicate IsHexDigit(c: char) { IsDigit(c) || 'a' <= c <= 'f' || 'A' <= c <= 'F' }

  predicate AllHexDigits(s: string) { forall i :: 0 <= i < |s| ==> IsHexDigit(s[i]) }

  function HexDigitValue(c: char): (d: nat)
    requires IsHexDigit(c)
    ensures d < 16
  {
    if IsDigit(c) then (c as int) - ('0' as int)
    else if 'a' <= c <= 'f' then (c as int) - ('a' as int) + 10
    else (c as int) - ('A' as int) + 10
  }

  /** The longest prefix of `s` made of base-16 digits. */
  function HexPrefix(s: string): (p: string)
    ensures AllHexDigits(p) && |p| <= |s| && p == s[..|p|]
    ensures |p| < |s| ==> !IsHexDigit(s[|p|])
  {
    if s != [] && IsHexDigit(s[0]) then [s[0]] + HexPrefix(s[1..]) else []
  }

  /** The value of a string of base-16 digits. */
  function HexValue(s: string): nat
    requires AllHexDigits(s)
  {
    if s == [] then 0
    else HexValue(s[..|s| - 1]) * 16 + HexDigitValue(s[|s| - 1])
  }

  /** "0x7B0" is read in base 16, as 1968. */
  lemma ParseIntOfHexText()
    ensures ParseInt("0x7B0") == Some(1968)
  {
    var s := "0x7B0";
    TrimStartOfNonSpace(s);
    assert HexMarked(s);
    assert s[2..] == "7B0";
    assert HexPrefix("7B0") == "7B0" by {
      assert "7B0"[1..] == "B0" && "B0"[1..] == "0" && "0"[1..] == [];
    }
    assert "7B0"[..2] == "7B" && "7B"[..1] == "7" && "7"[..0] == [];
    assert HexValue("7") == 7;
    assert HexValue("7B") == 7 * 16 + 11;
    assert HexValue("7B0") == 123 * 16;
    assert ParseMagnitude(s) == Some(1968);
  }

  /** A text after which a digit run has ended: nothing, or a character that is neither a
      digit nor the "x" of a base-16 prefix. */
  predicate EndsRun(rest: string)
  {
    rest == [] || (!IsDigit(rest[0]) && rest[0] != 'x' && rest[0] != 'X')
  }

  /** A text that starts with something other than white space is its own `trimStart`. */
  lemma TrimStartOfNonSpace(s: string)
    requires s != [] && !IsWhiteSpace(s[0])
    ensures TrimStart(s) == s
  {
  }

  /** Digits followed by a text that does not start with a digit: the digits are the prefix. */
  lemma {:induction false} DigitPrefixOfDigitsThen(s: string, rest: string)
    requires AllDigits(s) && (rest == [] || !IsDigit(rest[0]))
    ensures DigitPrefix(s + rest) == s
  {
    if s != [] {
      assert (s + rest)[1..] == s[1..] + rest;
      DigitPrefixOfDigitsThen(s[1..], rest);
    }
  }

  lemma ParseIntOfDigits(digits: string, rest: string)
    requires digits != [] && AllDigits(digits) && EndsRun(rest)
    ensures ParseInt(digits + rest) == Some(DigitsValue(digits))
  {
    DigitPrefixOfDigitsThen(digits, rest);
    UnsignedText(digits + rest, digits);
  }

  lemma ParseIntOfNegativeDigits(digits: string, rest: string)
    requires digits != [] && AllDigits(digits) && EndsRun(rest)
    ensures ParseInt("-" + digits + rest) == Some(-(DigitsValue(digits) as int))
  {
    var t := digits + rest;
    assert "-" + digits + rest == ['-'] + t;
    DigitPrefixOfDigitsThen(digits, rest);
    NegativeText(t, digits);
  }

  /** A text that starts with its digit run reads as that run's value. */
  lemma UnsignedText(t: string, digits: string)
    requires digits != [] && AllDigits(digits) && DigitPrefix(t) == digits && !HexMarked(t)
    ensures ParseInt(t) == Some(DigitsValue(digits))
  {
    assert t[0] == digits[0] && IsDigit(t[0]);
    TrimStartOfNonSpace(t);
  }

  /** A minus sign followed by a digit run reads as the negated value of the run. */
  lemma NegativeText(t: string, digits: string)
    requires digits != [] && AllDigits(digits) && DigitPrefix(t) == digits && !HexMarked(t)
    ensures ParseInt(['-'] + t) == Some(-(DigitsValue(digits) as int))
  {
    var s := ['-'] + t;
    TrimStartOfNonSpace(s);
    assert s[1..] == t;
  }

  /** `parseInt` reads back what `${n}` printed, whatever non-digit text follows it. */
  lemma ParseIntOfIntToString(n: int, rest: string)
    requires EndsRun(rest)
    ensures ParseInt(IntToString(n) + rest) == Some(n)
  {
    var s := IntToString(n);
    if n >= 0 {
      assert s == NatToString(n);
      ParseIntOfNatToString(n, rest);
    } else {
      assert s == "-" + NatToString(-n);
      ParseIntOfNegatedNatToString(-n, rest);
    }
  }

  lemma ParseIntOfNatToString(n: nat, rest: string)
    requires EndsRun(rest)
    ensures ParseInt(NatToString(n) + rest) == Some(n)
  {
    ParseIntOfDigits(NatToString(n), rest);
    NatToStringRoundTrip(n);
  }

  lemma ParseIntOfNegatedNatToString(n: nat, rest: string)
    requires EndsRun(rest)
    ensures ParseInt("-" + NatToString(n) + rest) == Some(-(n as int))
  {
    var digits := NatToString(n);
    NatToStringRoundTrip(n);
    NegativeValue(digits, rest, n);
  }

  lemma NegativeValue(digits: string, rest: string, n: nat)
    requires digits != [] && AllDigits(digits) && EndsRun(rest)
    requires DigitsValue(digits) == n
    ensures ParseInt("-" + digits + rest) == Some(-(n as int))
  {
    ParseIntOfNegativeDigits(digits, rest);
  }

  /** `Number(s)` on a decimal text: after trimming, the empty text is 0; otherwise an
      optional sign followed by a decimal literal is its signed value, and anything else
      is NaN. */
  function ToNumber(s: string): (r: Number)
    ensures AllDigits(s) && s != [] ==> r == Val(DigitsValue(s) as real)
    ensures Blank(s) ==> r == Val(0.0)
  {
    var t := Trim(s);
    TrimSpec(s);
    DigitTextIsItsOwnLiteral(s);
    if t == [] then Val(0.0)
    else
      var body := if t[0] == '-' || t[0] == '+' then t[1..] else t;
      match DecimalLiteral(body)
      case None => NaN
      case Some(x) => if t[0] == '-' then Val(-x) else Val(x)
  }

  lemma DigitTextIsItsOwnLiteral(s: string)
    ensures AllDigits(s) && s != [] ==> Trim(s) == s && DigitPrefix(s) == s
  {
    if AllDigits(s) && s != [] {
      assert TrimStart(s) == s && TrimEnd(s) == s;
      DigitPrefixOfDigits(s);
    }
  }

  /** The value of an unsigned decimal literal: digits, optionally a point and more digits,
      with at least one digit in all ("5", "5.", ".5", "8.25"). */
  function DecimalLiteral(s: string): Option<real>
  {
    var whole := DigitPrefix(s);
    var rest := s[|whole|..];
    if rest == [] then
      if whole == [] then None else Some(DigitsValue(whole) as real)
    else if rest[0] == '.' && AllDigits(rest[1..]) && (whole != [] || |rest| > 1) then
      Some(DigitsValue(whole) as real + Fraction(rest[1..]))
    else None
  }

  /** The value of the digits after a decimal point. */
  function Fraction(f: string): (x: real)
    requires AllDigits(f)
    ensures 0.0 <= x < 1.0
  {
    DigitsBelowPower(f);
    Ratio(DigitsValue(f) as real, Power10(|f|) as real)
  }

  function Ratio(a: real, b: real): (x: real)
    requires 0.0 <= a < b
    ensures 0.0 <= x < 1.0
  {
    assert a / b * b == a;
    a / b
  }

  function Power10(n: nat): (p: nat)
    ensures p >= 1
  {
    if n == 0 then 1 else 10 * Power10(n - 1)
  }

  lemma {:induction false} DigitsBelowPower(f: string)
    requires AllDigits(f)
    ensures DigitsValue(f) < Power10(|f|)
  {
    if f != [] {
      DigitsBelowPower(f[..|f| - 1]);
    }
  }

  /** A text that neither starts nor ends with white space is its own `trim`. */
  lemma TrimOfUnspaced(text: string)
    requires text != [] && !IsWhiteSpace(text[0]) && !IsWhiteSpace(text[|text| - 1])
    ensures Trim(text) == text
  {
    TrimStartOfNonSpace(text);
  }

  lemma DecimalLiteralOfPoint(whole: string, frac: string)
    requires whole != [] && AllDigits(whole) && AllDigits(frac)
    ensures DecimalLiteral(whole + "." + frac) == Some(DigitsValue(whole) as real + Fraction(frac))
  {
    var body := whole + "." + frac;
    DigitPrefixOfDigitsThen(whole, "." + frac);
    assert body == whole + ("." + frac);
    assert body[|whole|..] == "." + frac;
    assert ("." + frac)[1..] == frac;
  }

  lemma DecimalLiteralOfDigits(digits: string)
    requires digits != [] && AllDigits(digits)
    ensures DecimalLiteral(digits) == Some(DigitsValue(digits) as real)
  {
    DigitPrefixOfDigits(digits);
  }

  /** `Number` reads a literal as its value, and with a leading minus as its negation. */
  lemma ToNumberOfSigned(body: string, x: real)
    requires body != [] && IsDigit(body[0]) && !IsWhiteSpace(body[|body| - 1])
    requires DecimalLiteral(body) == Some(x)
    ensures ToNumber(body) == Val(x)
    ensures ToNumber("-" + body) == Val(-x)
  {
    TrimOfUnspaced(body);
    assert body[0] != '-' && body[0] != '+';
    var text := "-" + body;
    assert text[|text| - 1] == body[|body| - 1];
    TrimOfUnspaced(text);
    assert text[0] == '-' && text[1..] == body;
  }

  /** `Number` reads a decimal with a point: "8.5" is 8.5, "-0.25" is -0.25. */
  lemma ToNumberOfDecimal(whole: string, frac: string)
    requires whole != [] && AllDigits(whole) && AllDigits(frac)
    ensures ToNumber(whole + "." + frac) == Val(DigitsValue(whole) as real + Fraction(frac))
    ensures ToNumber("-" + (whole + "." + frac)) == Val(-(DigitsValue(whole) as real + Fraction(frac)))
  {
    var body := whole + "." + frac;
    var x := DigitsValue(whole) as real + Fraction(frac);
    DecimalLiteralOfPoint(whole, frac);
    assert body[0] == whole[0];
    if frac == [] {
      assert body[|body| - 1] == '.';
    } else {
      assert body[|body| - 1] == frac[|frac| - 1];
      assert IsDigit(frac[|frac| - 1]);
    }
    assert !IsWhiteSpace(body[|body| - 1]);
    ToNumberOfSigned(body, x);
  }

  /** `Number` reads a whole number: "1" is 1, "-1" is -1. */
  lemma ToNumberOfInteger(digits: string)
    requires digits != [] && AllDigits(digits)
    ensures ToNumber(digits) == Val(DigitsValue(digits) as real)
    ensures ToNumber("-" + digits) == Val(-(DigitsValue(digits) as real))
  {
    DecimalLiteralOfDigits(digits);
    ToNumberOfSigned(digits, DigitsValue(digits) as real);
  }

  /** The text before the first `sep`, and the text after it when `sep` occurs. */
  function SplitOnce(s: string, sep: char): (r: (string, Option<string>))
    ensures sep !in r.0
    ensures r.1.None? ==> r.0 == s
    ensures r.1.Some? ==> s == r.0 + [sep] + r.1.value
  {
    if s == [] then ([], None)
    else if s[0] == sep then ([], Some(s[1..]))
    else
      var rest := SplitOnce(s[1..], sep);
      ([s[0]] + rest.0, rest.1)
  }

  /** Splitting at the first separator finds it where it was put. */
  lemma {:induction false} SplitOnceAt(a: string, sep: char, b: string)
    requires sep !in a
    ensures SplitOnce(a + [sep] + b, sep) == (a, Some(b))
  {
    var s := a + [sep] + b;
    if a == [] {
      assert s[1..] == b;
    } else {
      assert s[0] == a[0] && s[1..] == a[1..] + [sep] + b;
      SplitOnceAt(a[1..], sep, b);
      assert [a[0]] + a[1..] == a;
    }
  }

  lemma {:induction false} SplitOnceWithoutSep(s: string, sep: char)
    requires sep !in s
    ensures SplitOnce(s, sep) == (s, None)
  {
    if s != [] {
      assert s[0] != sep;
      SplitOnceWithoutSep(s[1..], sep);
      assert [s[0]] + s[1..] == s;
    }
  }

  /** The first two fields of `s.split(sep)`; the second is `undefined` (None)
      when `s` has no separator. */
  function FirstTwoFields(s: string, sep: char): (r: (string, Option<string>))
    ensures sep !in r.0
    ensures r.1.Some? ==> sep !in r.1.value
  {
    var (first, rest) := SplitOnce(s, sep);
    match rest
    case None => (first, None)
    case Some(tail) => (first, Some(SplitOnce(tail, sep).0))
  }

  /** A text with exactly one separator splits into the two texts around it. */
  lemma FirstTwoFieldsOfPair(a: string, sep: char, b: string)
    requires sep !in a && sep !in b
    ensures FirstTwoFields(a + [sep] + b, sep) == (a, Some(b))
  {
    SplitOnceAt(a, sep, b);
    SplitOnceWithoutSep(b, sep);
  }
}

=== FILE: timeanalysis.dfy ===
/** The time-distribution calculator and projector (src/services/TimeAnalysisService.ts):
    the daily work/sleep/free split, totals and averages over recorded schedules, the
    countdown to retirement in a chosen unit, career progress, and the lifetime projection
    built from the history records. "Now" is a parameter. */
module TimeAnalysis {
  import opened Basics
  import opened Calendar
  import opened Types
  import Text
  import opened DateUtils

  // ----- clock texts -----

  /** `parseTime`: "HH:mm" split at ':' and read with `Number`, as hours plus minutes / 60.
      A text without ':' has no minutes field, which makes the result NaN. */
  function ParseClock(s: string): (r: Number)
    ensures Text.FirstTwoFields(s, ':').1.None? ==> r == NaN
  {
    var (hours, minutes) := Text.FirstTwoFields(s, ':');
    match minutes
    case None => NaN
    case Some(m) => Text.ToNumber(hours).Plus(Text.ToNumber(m).Over(60.0))
  }

  /** A clock text of two digit runs reads as its hours plus its minutes in sixtieths. */
  lemma ParseClockOfDigits(h: string, m: string)
    requires h != [] && Text.AllDigits(h) && m != [] && Text.AllDigits(m)
    ensures ParseClock(h + ":" + m) ==
            Val(Text.DigitsValue(h) as real + Text.DigitsValue(m) as real / 60.0)
  {
    assert ':' !in h && ':' !in m;
    Text.FirstTwoFieldsOfPair(h, ':', m);
  }

  /** A time of day in hours: a number in [0, 24). */
  predicate IsClock(t: Number)
  {
    t.Val? && 0.0 <= t.v < 24.0
  }

  /** "09:30" is 9.5 hours. */
  lemma ParseClockExample()
    ensures ParseClock("09:30") == Val(9.5) && IsClock(ParseClock("09:30"))
  {
    assert Text.DigitsValue("09") == 9 by {
      assert "09"[..1] == "0";
      assert "0"[..0] == [];
    }
    assert Text.DigitsValue("30") == 30 by {
      assert "30"[..1] == "3";
      assert "3"[..0] == [];
    }
    assert "09:30" == "09" + ":" + "30";
    ParseClockOfDigits("09", "30");
  }

  /** `calculateWorkHours`: end minus start, plus 24 when negative (work past midnight). */
  function WorkHours(schedule: DailySchedule): Number
  {
    var startTime := ParseClock(schedule.workStartTime);
    var endTime := ParseClock(schedule.workEndTime);
    var hours := endTime.Minus(startTime);
    if hours.Val? && hours.v < 0.0 then Val(hours.v + 24.0) else hours
  }

  /** Work past midnight wraps once: the hours are end minus start, plus 24 when that is
      negative, so two clock times give a duration in [0, 24); a NaN on either side gives NaN. */
  lemma WorkHoursSpec(schedule: DailySchedule)
    ensures var h := WorkHours(schedule);
            var start := ParseClock(schedule.workStartTime);
            var end := ParseClock(schedule.workEndTime);
            && (h.Val? <==> start.Val? && end.Val?)
            && (h.Val? ==> h.v == end.v - start.v || h.v == end.v - start.v + 24.0)
            && (IsClock(start) && IsClock(end) ==> 0.0 <= h.v < 24.0)
  {
  }

  /** `calculateSleepHours`: wake minus sleep, plus 24 when not positive (sleep past
      midnight; equal times count as a full day). */
  function SleepHours(schedule: DailySchedule): Number
  {
    var sleepTime := ParseClock(schedule.sleepTime);
    var wakeTime := ParseClock(schedule.wakeUpTime);
    var hours := wakeTime.Minus(sleepTime);
    if hours.Val? && hours.v <= 0.0 then Val(hours.v + 24.0) else hours
  }

  /** Sleep past midnight wraps once: the hours are wake minus sleep, plus 24 when that is
      not positive, so two clock times give a duration in (0, 24]; a NaN on either side gives
      NaN. */
  lemma SleepHoursSpec(schedule: DailySchedule)
    ensures var h := SleepHours(schedule);
            var sleep := ParseClock(schedule.sleepTime);
            var wake := ParseClock(schedule.wakeUpTime);
            && (h.Val? <==> sleep.Val? && wake.Val?)
            && (h.Val? ==> h.v == wake.v - sleep.v || h.v == wake.v - sleep.v + 24.0)
            && (IsClock(sleep) && IsClock(wake) ==> 0.0 < h.v <= 24.0)
  {
  }

  // ----- the day's split -----

  /** `isWeekend`: Sunday or Saturday. */
  predicate IsWeekend(date: Date)
  {
    var dayOfWeek := WeekDay(date);
    dayOfWeek == 0 || dayOfWeek == 6
  }

  /** The simplified holiday list as (month counted from 1, day) pairs. */
  const HOLIDAYS: seq<(int, int)> := [(1, 1), (5, 1), (10, 1), (10, 2), (10, 3)]

  /** `isHoliday`: the date's month and day appear in the holiday list. */
  predicate IsHoliday(date: Date)
  {
    var month := date.month + 1;
    var day := date.day;
    exists i :: 0 <= i < |HOLIDAYS| && HOLIDAYS[i] == (month, day)
  }

  /** The holidays are exactly New Year's Day, Labour Day and the first three days of
      October. */
  lemma HolidaysAreFiveDays(date: Date)
    ensures IsHoliday(date) <==>
            (date.month == 0 && date.day == 1) || (date.month == 4 && date.day == 1)
            || (date.month == 9 && 1 <= date.day <= 3)
  {
    var key := (date.month + 1, date.day);
    if (date.month == 0 && date.day == 1) { assert HOLIDAYS[0] == key; }
    if (date.month == 4 && date.day == 1) { assert HOLIDAYS[1] == key; }
    if (date.month == 9 && date.day == 1) { assert HOLIDAYS[2] == key; }
    if (date.month == 9 && date.day == 2) { assert HOLIDAYS[3] == key; }
    if (date.month == 9 && date.day == 3) { assert HOLIDAYS[4] == key; }
  }

  /** Moving a date by whole weeks keeps its day of the week, so weekends recur every
      seven days. */
  lemma WeekendRecursWeekly(date: Date, weeks: int)
    ensures WeekDay(SetDate(date, date.day + 7 * weeks)) == WeekDay(date)
    ensures IsWeekend(SetDate(date, date.day + 7 * weeks)) <==> IsWeekend(date)
  {
    var later := SetDate(date, date.day + 7 * weeks);
    ShiftedEpochDays(date, 7 * weeks);
    WholeWeeks(EpochDays(date) + 4, weeks);
    assert WeekDay(later) == (EpochDays(date) + 4 + 7 * weeks) % 7;
  }

  lemma WholeWeeks(x: int, weeks: int)
    ensures (x + 7 * weeks) % 7 == x % 7
  {
    assert x + 7 * weeks == 7 * (x / 7 + weeks) + x % 7;
  }

  /** One bucket of the day's split: hours and percent, either of which may be NaN. */
  datatype Portion = Portion(hours: Number, percentage: Number)

  datatype DaySplit = DaySplit(work: Portion, sleep: Portion, free: Portion)

  /** The default split of a weekend or holiday without a schedule. */
  const REST_DAY: DaySplit :=
    DaySplit(Portion(Val(0.0), Val(0.0)), Portion(Val(8.0), Val(33.3)), Portion(Val(16.0), Val(66.7)))

  /** The default split of a working day without a schedule. */
  const WORK_DAY: DaySplit :=
    DaySplit(Portion(Val(8.0), Val(33.3)), Portion(Val(8.0), Val(33.3)), Portion(Val(8.0), Val(33.3)))

  /** Hours as a share of the 24-hour day, in percent. */
  function DayPercent(hours: Number): (p: Number)
    ensures p.Val? <==> hours.Val?
    ensures p.Val? ==> p.v * 24.0 == hours.v * 100.0
  {
    hours.Over(24.0).Times(Val(100.0))
  }

  /** `calculateDailyTimeDistribution`. Without a schedule the split is a default chosen by
      the target date (the given date, else now); an Invalid Date is neither a weekend nor a
      holiday. With a schedule the free time is what work and sleep leave, never negative. */
  function DailyTimeDistribution(schedule: Option<DailySchedule>, date: Option<Stamp>, now: Date): (split: DaySplit)
    ensures schedule.None? ==>
              var target := if date.Some? then date.value else Valid(now);
              split == if target.Valid? && (IsWeekend(target.date) || IsHoliday(target.date))
                       then REST_DAY else WORK_DAY
    ensures schedule.Some? ==>
              && split.work.hours == WorkHours(schedule.value)
              && split.sleep.hours == SleepHours(schedule.value)
              && split.free.hours == MaxZero(Val(24.0).Minus(split.work.hours).Minus(split.sleep.hours))
    ensures schedule.Some? ==>
              && split.work.percentage == DayPercent(split.work.hours)
              && split.sleep.percentage == DayPercent(split.sleep.hours)
              && split.free.percentage == DayPercent(split.free.hours)
  {
    var targetDate := if date.Some? then date.value else Valid(now);
    match schedule
    case None =>
      var isWeekend := targetDate.Valid? && IsWeekend(targetDate.date);
      var isHoliday := targetDate.Valid? && IsHoliday(targetDate.date);
      if isWeekend || isHoliday then REST_DAY else WORK_DAY
    case Some(s) =>
      var workHours := WorkHours(s);
      var sleepHours := SleepHours(s);
      var freeHours := MaxZero(Val(24.0).Minus(workHours).Minus(sleepHours));
      DaySplit(Portion(workHours, DayPercent(workHours)),
               Portion(sleepHours, DayPercent(sleepHours)),
               Portion(freeHours, DayPercent(freeHours)))
  }

  /** With a schedule whose work and sleep fit in the day, the three buckets fill exactly 24
      hours and 100 percent. */
  lemma ScheduledSplitFillsTheDay(schedule: DailySchedule, date: Option<Stamp>, now: Date)
    requires WorkHours(schedule).Val? && SleepHours(schedule).Val?
    requires WorkHours(schedule).v + SleepHours(schedule).v <= 24.0
    ensures var split := DailyTimeDistribution(Some(schedule), date, now);
            && split.work.hours.v + split.sleep.hours.v + split.free.hours.v == 24.0
            && split.work.percentage.v + split.sleep.percentage.v + split.free.percentage.v == 100.0
  {
    var split := DailyTimeDistribution(Some(schedule), date, now);
    var w, s, f := split.work.hours.v, split.sleep.hours.v, split.free.hours.v;
    assert f == 24.0 - w - s;
    ThreeDayPercents(w, s, f, split.work.percentage.v, split.sleep.percentage.v, split.free.percentage.v);
  }

  lemma ThreeDayPercents(w: real, s: real, f: real, pw: real, ps: real, pf: real)
    requires w + s + f == 24.0
    requires pw * 24.0 == w * 100.0 && ps * 24.0 == s * 100.0 && pf * 24.0 == f * 100.0
    ensures pw + ps + pf == 100.0
  {
  }

  /** When work and sleep overrun the day, the free bucket is clamped to zero, so the hours
      then add up to more than 24. */
  lemma ScheduledSplitOverrun(schedule: DailySchedule, date: Option<Stamp>, now: Date)
    requires WorkHours(schedule).Val? && SleepHours(schedule).Val?
    requires WorkHours(schedule).v + SleepHours(schedule).v > 24.0
    ensures var split := DailyTimeDistribution(Some(schedule), date, now);
            split.free.hours == Val(0.0) && split.free.percentage == Val(0.0)
            && split.work.hours.v + split.sleep.hours.v + split.free.hours.v > 24.0
  {
    var split := DailyTimeDistribution(Some(schedule), date, now);
    var w, s := WorkHours(schedule), SleepHours(schedule);
    assert split.free.hours == MaxZero(Val(24.0).Minus(w).Minus(s));
    assert split.free.percentage == DayPercent(Val(0.0));
  }

  /** The defaults fill 24 hours; the rest-day percents add up to 100, the working-day
      percents to 99.9 (three times 33.3). */
  lemma DefaultSplitsFillTheDay()
    ensures REST_DAY.work.hours.v + REST_DAY.sleep.hours.v + REST_DAY.free.hours.v == 24.0
    ensures REST_DAY.work.percentage.v + REST_DAY.sleep.percentage.v + REST_DAY.free.percentage.v == 100.0
    ensures WORK_DAY.work.hours.v + WORK_DAY.sleep.hours.v + WORK_DAY.free.hours.v == 24.0
    ensures WORK_DAY.work.percentage.v + WORK_DAY.sleep.percentage.v + WORK_DAY.free.percentage.v == 99.9
  {
  }

  /** New Year's Day 2024 was a Monday, yet without a schedule it gets the rest-day split. */
  lemma NewYearIsRestDay(now: Date)
    ensures DailyTimeDistribution(None, Some(Valid(DateTime(2024, 0, 1, 0))), now) == REST_DAY
  {
    HolidaysAreFiveDays(DateTime(2024, 0, 1, 0));
  }

  // ----- totals over recorded schedules -----

  datatype Bucket = Work | Sleep | Free

  /** One schedule's hours in a bucket; the free hours are 24 minus work minus sleep and,
      unlike the day's split, are not clamped at zero. */
  function HoursOf(schedule: DailySchedule, bucket: Bucket): Number
  {
    match bucket
    case Work => WorkHours(schedule)
    case Sleep => SleepHours(schedule)
    case Free => Val(24.0).Minus(WorkHours(schedule)).Minus(SleepHours(schedule))
  }

  /** Each schedule's hours in a bucket, in list order. */
  function HoursList(schedules: seq<DailySchedule>, bucket: Bucket): seq<Number>
  {
    seq(|schedules|, i requires 0 <= i < |schedules| => HoursOf(schedules[i], bucket))
  }

  /** The running sum of a list of hours, left to right. */
  function Sum(hours: seq<Number>): Number
    decreases |hours|
  {
    if hours == [] then Val(0.0) else Sum(hours[..|hours| - 1]).Plus(hours[|hours| - 1])
  }

  /** A running total over schedules: the bucket's hours summed in list order. */
  function Total(schedules: seq<DailySchedule>, bucket: Bucket): Number
  {
    Sum(HoursList(schedules, bucket))
  }

  /** A sum is a number exactly when every summand is: one NaN poisons the total. */
  lemma {:induction false} SumIsNumber(hours: seq<Number>)
    ensures Sum(hours).Val? <==> forall i :: 0 <= i < |hours| ==> hours[i].Val?
    decreases |hours|
  {
    if hours != [] {
      var init := hours[..|hours| - 1];
      SumIsNumber(init);
      assert forall i :: 0 <= i < |init| ==> init[i] == hours[i];
    }
  }

  /** Three lists of numbers that split 24 hours at every position sum to 24 per position. */
  lemma {:induction false} SumsFillTheDays(work: seq<Number>, sleep: seq<Number>, free: seq<Number>)
    requires |work| == |sleep| == |free|
    requires forall i :: 0 <= i < |work| ==>
               work[i].Val? && sleep[i].Val? && free[i] == Val(24.0 - work[i].v - sleep[i].v)
    ensures Sum(work).Val? && Sum(sleep).Val? && Sum(free).Val?
    ensures Sum(work).v + Sum(sleep).v + Sum(free).v == 24.0 * |work| as real
    decreases |work|
  {
    if work != [] {
      var n := |work| - 1;
      SumsFillTheDays(work[..n], sleep[..n], free[..n]);
    }
  }

  /** Both the work times and the sleep times of a schedule read as numbers. */
  predicate Parses(schedule: DailySchedule)
  {
    WorkHours(schedule).Val? && SleepHours(schedule).Val?
  }

  predicate AllParse(schedules: seq<DailySchedule>)
  {
    forall i :: 0 <= i < |schedules| ==> Parses(schedules[i])
  }

  /** A total is a number exactly when every schedule's hours in that bucket are. */
  lemma TotalIsNumber(schedules: seq<DailySchedule>, bucket: Bucket)
    ensures Total(schedules, bucket).Val? <==>
            forall i :: 0 <= i < |schedules| ==> HoursOf(schedules[i], bucket).Val?
  {
    var hours := HoursList(schedules, bucket);
    SumIsNumber(hours);
    assert forall i :: 0 <= i < |schedules| ==> hours[i] == HoursOf(schedules[i], bucket);
  }

  /** Over any list of parsable schedules the three totals add up to 24 hours per day. */
  lemma TotalsFillTheDays(schedules: seq<DailySchedule>)
    requires AllParse(schedules)
    ensures Total(schedules, Work).Val? && Total(schedules, Sleep).Val? && Total(schedules, Free).Val?
    ensures Total(schedules, Work).v + Total(schedules, Sleep).v + Total(schedules, Free).v
            == 24.0 * |schedules| as real
  {
    var work, sleep, free := HoursList(schedules, Work), HoursList(schedules, Sleep), HoursList(schedules, Free);
    EveryDaySplits(schedules, work, sleep, free);
    SumsFillTheDays(work, sleep, free);
  }

  /** Position by position, the three hour lists of parsable schedules split 24 hours. */
  lemma EveryDaySplits(schedules: seq<DailySchedule>, work: seq<Number>, sleep: seq<Number>, free: seq<Number>)
    requires AllParse(schedules)
    requires work == HoursList(schedules, Work) && sleep == HoursList(schedules, Sleep)
    requires free == HoursList(schedules, Free)
    ensures |work| == |sleep| == |free| == |schedules|
    ensures forall i :: 0 <= i < |work| ==>
              work[i].Val? && sleep[i].Val? && free[i] == Val(24.0 - work[i].v - sleep[i].v)
  {
    forall i | 0 <= i < |work|
      ensures work[i].Val? && sleep[i].Val? && free[i] == Val(24.0 - work[i].v - sleep[i].v)
    {
      FreeIsTheRest(schedules[i]);
    }
  }

  /** A parsable schedule's free hours are what its work and sleep leave of 24. */
  lemma FreeIsTheRest(schedule: DailySchedule)
    requires Parses(schedule)
    ensures HoursOf(schedule, Work).Val? && HoursOf(schedule, Sleep).Val?
    ensures HoursOf(schedule, Free) == Val(24.0 - HoursOf(schedule, Work).v - HoursOf(schedule, Sleep).v)
  {
    var w, s := WorkHours(schedule), SleepHours(schedule);
    assert HoursOf(schedule, Free) == Val(24.0).Minus(w).Minus(s);
  }

  /** `calculateDaysUntilRetirement` on a valid date: whole days left, rounded up, never
      negative. */
  function DaysUntil(retirementDate: Date, now: Date): (days: int)
    ensures days >= 0
    ensures Time(retirementDate) - Time(now) <= 0 ==> days == 0
    ensures Time(retirementDate) - Time(now) > 0 ==>
              (days - 1) * DAY_MS < Time(retirementDate) - Time(now) <= days * DAY_MS
  {
    var diffTime := Time(retirementDate) - Time(now);
    var diffDays := -((-diffTime) / DAY_MS);
    Max(0, diffDays)
  }

  /** `calculateDaysUntilRetirement`: NaN for an Invalid Date. */
  function DaysUntilRetirement(profile: UserProfile, now: Date): (days: Number)
    ensures days.Val? <==> profile.retirementDate.Valid?
    ensures days.Val? ==> days.v == DaysUntil(profile.retirementDate.date, now) as real && days.v >= 0.0
  {
    match profile.retirementDate
    case Invalid => NaN
    case Valid(d) => Val(DaysUntil(d, now) as real)
  }

  /** `calculateTimeAnalysis`: zero totals for no schedules; otherwise the running totals of
      each bucket, their averages per schedule, and the free hours projected over the days
      left. */
  method CalculateTimeAnalysis(schedules: seq<DailySchedule>, profile: UserProfile, now: Date)
    returns (r: TimeAnalysis)
    ensures r.daysUntilRetirement == DaysUntilRetirement(profile, now)
    ensures schedules == [] ==>
              && r.totalWorkHours == Val(0.0) && r.totalSleepHours == Val(0.0) && r.totalFreeHours == Val(0.0)
              && r.averageWorkHours == Val(0.0) && r.averageSleepHours == Val(0.0)
              && r.averageFreeHours == Val(0.0) && r.freeTimeUntilRetirement == Val(0.0)
    ensures schedules != [] ==>
              && r.totalWorkHours == Total(schedules, Work)
              && r.totalSleepHours == Total(schedules, Sleep)
              && r.totalFreeHours == Total(schedules, Free)
    ensures schedules != [] ==>
              && r.averageWorkHours == r.totalWorkHours.Over(|schedules| as real)
              && r.averageSleepHours == r.totalSleepHours.Over(|schedules| as real)
              && r.averageFreeHours == r.totalFreeHours.Over(|schedules| as real)
              && r.freeTimeUntilRetirement == r.averageFreeHours.Times(r.daysUntilRetirement)
  {
    if |schedules| == 0 {
      r := TimeAnalysis(Val(0.0), Val(0.0), Val(0.0), Val(0.0), Val(0.0), Val(0.0),
                        DaysUntilRetirement(profile, now), Val(0.0));
      return;
    }
    var totalWorkHours, totalSleepHours, totalFreeHours := RunningTotals(schedules);
    var n := |schedules| as real;
    var averageWorkHours := totalWorkHours.Over(n);
    var averageSleepHours := totalSleepHours.Over(n);
    var averageFreeHours := totalFreeHours.Over(n);
    var daysUntilRetirement := DaysUntilRetirement(profile, now);
    var freeTimeUntilRetirement := averageFreeHours.Times(daysUntilRetirement);
    r := TimeAnalysis(totalWorkHours, totalSleepHours, totalFreeHours,
                      averageWorkHours, averageSleepHours, averageFreeHours,
                      daysUntilRetirement, freeTimeUntilRetirement);
  }

  /** The loop of `calculateTimeAnalysis`: each schedule's work, sleep and free hours added
      to three running totals, in list order. */
  method RunningTotals(schedules: seq<DailySchedule>)
    returns (totalWorkHours: Number, totalSleepHours: Number, totalFreeHours: Number)
    ensures totalWorkHours == Total(schedules, Work)
    ensures totalSleepHours == Total(schedules, Sleep)
    ensures totalFreeHours == Total(schedules, Free)
  {
    ghost var work, sleep, free := HoursList(schedules, Work), HoursList(schedules, Sleep), HoursList(schedules, Free);
    totalWorkHours, totalSleepHours, totalFreeHours := Val(0.0), Val(0.0), Val(0.0);
    var i := 0;
    while i < |schedules|
      invariant 0 <= i <= |schedules|
      invariant totalWorkHours == Sum(work[..i])
      invariant totalSleepHours == Sum(sleep[..i])
      invariant totalFreeHours == Sum(free[..i])
    {
      var schedule := schedules[i];
      var workHours := WorkHours(schedule);
      var sleepHours := SleepHours(schedule);
      var freeHours := Val(24.0).Minus(workHours).Minus(sleepHours);
      SumOfPrefix(work, i);
      SumOfPrefix(sleep, i);
      SumOfPrefix(free, i);
      assert work[i] == workHours && sleep[i] == sleepHours && free[i] == freeHours;
      totalWorkHours := totalWorkHours.Plus(workHours);
      totalSleepHours := totalSleepHours.Plus(sleepHours);
      totalFreeHours := totalFreeHours.Plus(freeHours);
      i := i + 1;
    }
    assert work[..i] == work && sleep[..i] == sleep && free[..i] == free;
  }

  /** A running sum one step further along a list. */
  lemma SumOfPrefix(hours: seq<Number>, i: int)
    requires 0 <= i < |hours|
    ensures Sum(hours[..i + 1]) == Sum(hours[..i]).Plus(hours[i])
  {
    assert hours[..i + 1][..i] == hours[..i];
  }

  /** Over parsable schedules the three averages add up to one 24-hour day. */
  lemma AveragesFillOneDay(schedules: seq<DailySchedule>)
    requires schedules != [] && AllParse(schedules)
    ensures Total(schedules, Work).Val? && Total(schedules, Sleep).Val? && Total(schedules, Free).Val?
    ensures var n := |schedules| as real;
            Total(schedules, Work).Over(n).v + Total(schedules, Sleep).Over(n).v
            + Total(schedules, Free).Over(n).v == 24.0
  {
    TotalsFillTheDays(schedules);
    ThreeAverages(Total(schedules, Work), Total(schedules, Sleep), Total(schedules, Free), |schedules| as real);
  }

  lemma ThreeAverages(work: Number, sleep: Number, free: Number, n: real)
    requires n > 0.0 && work.Val? && sleep.Val? && free.Val? && work.v + sleep.v + free.v == 24.0 * n
    ensures work.Over(n).v + sleep.Over(n).v + free.Over(n).v == 24.0
  {
    assert work.Over(n).v == work.v / n && sleep.Over(n).v == sleep.v / n && free.Over(n).v == free.v / n;
    assert work.v / n + sleep.v / n + free.v / n == (work.v + sleep.v + free.v) / n;
  }

  // ----- the countdown -----

  const RETIRED: string := "已退休！🎉"

  /** The countdown in a unit, for a positive difference in milliseconds: every unit is the
      difference rounded down; a month is 30.44 days and a year 365.25 days, both counted
      from the whole days; an unknown unit counts days. */
  function CountdownValue(diffTime: int, format: DisplayFormat): int
  {
    var diffDays := diffTime / DAY_MS;
    match format
    case Milliseconds => diffTime
    case Seconds => diffTime / SECOND_MS
    case Minutes => diffTime / MINUTE_MS
    case Hours => diffTime / HOUR_MS
    case Days => diffDays
    case Months => diffDays * 100 / 3044
    case Years => diffDays * 4 / 1461
    case UnknownFormat => diffDays
  }

  /** For a positive difference the units nest: years ≤ months ≤ days ≤ hours ≤ minutes ≤
      seconds ≤ milliseconds, each rounded down from the exact quotient. */
  lemma CountdownUnitsNest(diffTime: int)
    requires diffTime > 0
    ensures var v := (f: DisplayFormat) => CountdownValue(diffTime, f);
            && 0 <= v(Years) <= v(Months) <= v(Days) <= v(Hours) <= v(Minutes) <= v(Seconds)
            && v(Seconds) <= v(Milliseconds) == diffTime
    ensures var days := CountdownValue(diffTime, Days);
            && days * DAY_MS <= diffTime < (days + 1) * DAY_MS
            && CountdownValue(diffTime, Years) * 1461 <= days * 4 < (CountdownValue(diffTime, Years) + 1) * 1461
            && CountdownValue(diffTime, Months) * 3044 <= days * 100
            && days * 100 < (CountdownValue(diffTime, Months) + 1) * 3044
    ensures CountdownValue(diffTime, UnknownFormat) == CountdownValue(diffTime, Days)
  {
    var days := diffTime / DAY_MS;
    var hours := diffTime / HOUR_MS;
    var minutes := diffTime / MINUTE_MS;
    var seconds := diffTime / SECOND_MS;
    assert days * 24 <= hours by {
      assert days * DAY_MS <= diffTime;
      assert (days * 24) * HOUR_MS <= diffTime;
    }
    assert hours * 60 <= minutes by {
      assert (hours * 60) * MINUTE_MS <= diffTime;
    }
    assert minutes * 60 <= seconds by {
      assert (minutes * 60) * SECOND_MS <= diffTime;
    }
  }

  /** `formatTimeUntilRetirement`: an error text for an Invalid Date, the retired text once
      the date is reached, else the count in the chosen unit. */
  function FormatTimeUntilRetirement(profile: UserProfile, format: DisplayFormat, now: Date): (text: string)
    ensures profile.retirementDate.Invalid? ==> text == DATE_ERROR
    ensures text == RETIRED <==>
            profile.retirementDate.Valid? && Time(profile.retirementDate.date) <= Time(now)
    ensures profile.retirementDate.Valid? && Time(profile.retirementDate.date) > Time(now) ==>
              Text.ParseInt(text) == Some(CountdownValue(Time(profile.retirementDate.date) - Time(now), format))
  {
    match profile.retirementDate
    case Invalid => DATE_ERROR
    case Valid(retirementDate) =>
      var diffTime := Time(retirementDate) - Time(now);
      if diffTime <= 0 then RETIRED
      else
        var count := CountdownValue(diffTime, format);
        assert count >= 0 by {
          var days := diffTime / DAY_MS;
          assert days >= 0;
        }
        CountText(count);
        Text.IntToString(count)
  }

  /** A count renders as digits, which read back as the count and cannot be the retired
      text. */
  lemma CountText(count: int)
    requires count >= 0
    ensures Text.ParseInt(Text.IntToString(count)) == Some(count)
    ensures Text.IntToString(count) != RETIRED
  {
    Text.ParseIntOfIntToString(count, []);
    assert Text.IntToString(count) + [] == Text.IntToString(count);
    assert Text.IsDigit(Text.IntToString(count)[0]);
    assert Text.IntToString(count)[0] != RETIRED[0];
  }

  /** 1000 days and 1 ms before the date, the countdown shows 1000 days, 32 months, 2 years. */
  lemma CountdownExample()
    ensures CountdownValue(1000 * DAY_MS + 1, Days) == 1000
    ensures CountdownValue(1000 * DAY_MS + 1, Months) == 32
    ensures CountdownValue(1000 * DAY_MS + 1, Years) == 2
  {
  }

  // ----- career progress -----

  /** The work start both progress and projection use: a valid stored work start, else the
      birth date's month and day 22 years on, at midnight. */
  function EffectiveWorkStart(profile: UserProfile): (workStart: Date)
    ensures profile.workStartDate.Some? && profile.workStartDate.value.Valid? ==>
              workStart == profile.workStartDate.value.date
    ensures !(profile.workStartDate.Some? && profile.workStartDate.value.Valid?)
            && profile.birthDate.day <= DaysInMonth(profile.birthDate.year + 22, profile.birthDate.month) ==>
              workStart == DateTime(profile.birthDate.year + 22, profile.birthDate.month, profile.birthDate.day, 0)
  {
    if profile.workStartDate.Some? && profile.workStartDate.value.Valid? then
      profile.workStartDate.value.date
    else
      NewDate(profile.birthDate.year + 22, profile.birthDate.month, profile.birthDate.day)
  }

  /** The progress of a career from `workStart` to `retirement` at instant `now`, in
      milliseconds: 0 before the start, 100 from the retirement instant on, else the elapsed
      share in percent, clamped to [0, 1] before scaling. */
  function ProgressPercent(workStart: int, retirement: int, now: int): (progress: real)
    ensures 0.0 <= progress <= 100.0
    ensures now < workStart ==> progress == 0.0
    ensures progress == 100.0 <==> workStart <= now && retirement <= now
    ensures workStart <= now < retirement ==>
              progress * (retirement - workStart) as real == (now - workStart) as real * 100.0
  {
    if now < workStart then 0.0
    else if now >= retirement then 100.0
    else
      var totalWorkingTime := (retirement - workStart) as real;
      var timeWorked := (now - workStart) as real;
      var ratio := timeWorked / totalWorkingTime;
      assert 0.0 <= ratio < 1.0;
      var progress := if ratio < 0.0 then 0.0 else if ratio > 1.0 then 1.0 else ratio;
      progress * 100.0
  }

  /** Progress never goes backwards as time passes. */
  lemma ProgressPercentMonotone(workStart: int, retirement: int, earlier: int, later: int)
    requires earlier <= later
    ensures ProgressPercent(workStart, retirement, earlier) <= ProgressPercent(workStart, retirement, later)
  {
    var p1, p2 := ProgressPercent(workStart, retirement, earlier), ProgressPercent(workStart, retirement, later);
    if earlier >= workStart && later < retirement {
      var total := (retirement - workStart) as real;
      assert (p2 - p1) * total == (later - earlier) as real * 100.0;
      PositiveFactor(p2 - p1, total, (later - earlier) as real * 100.0);
    }
  }

  lemma PositiveFactor(x: real, t: real, y: real)
    requires t > 0.0 && y >= 0.0 && x * t == y
    ensures x >= 0.0
  {
  }

  /** `calculateRetirementProgress`: 0 for an Invalid Date, else the progress from the
      effective work start to the retirement date. */
  function RetirementProgress(profile: UserProfile, now: Date): (progress: real)
    ensures 0.0 <= progress <= 100.0
    ensures profile.retirementDate.Invalid? ==> progress == 0.0
    ensures Time(now) < Time(EffectiveWorkStart(profile)) ==> progress == 0.0
    ensures progress == 100.0 <==>
            profile.retirementDate.Valid? && Time(EffectiveWorkStart(profile)) <= Time(now)
            && Time(profile.retirementDate.date) <= Time(now)
  {
    var workStartDate := EffectiveWorkStart(profile);
    match profile.retirementDate
    case Invalid => 0.0
    case Valid(retirementDate) => ProgressPercent(Time(workStartDate), Time(retirementDate), Time(now))
  }

  /** A career's progress never goes backwards as time passes. */
  lemma ProgressMonotone(profile: UserProfile, earlier: Date, later: Date)
    requires Time(earlier) <= Time(later)
    ensures RetirementProgress(profile, earlier) <= RetirementProgress(profile, later)
  {
    if profile.retirementDate.Valid? {
      ProgressPercentMonotone(Time(EffectiveWorkStart(profile)), Time(profile.retirementDate.date),
                              Time(earlier), Time(later));
    }
  }

  // ----- the career projection -----

  /** The running total of a bucket's hours over history records. */
  function RecordTotal(records: seq<DailyTimeRecord>, bucket: Bucket): real
    decreases |records|
  {
    if records == [] then 0.0
    else
      var data := records[|records| - 1].timeData;
      var hours := match bucket case Work => data.work.hours case Sleep => data.sleep.hours case Free => data.free.hours;
      RecordTotal(records[..|records| - 1], bucket) + hours
  }

  /** A projected bucket: its hours (NaN when the retirement date is invalid) and its
      percent of the grand total. */
  datatype Projection = Projection(hours: Number, percentage: Number)

  datatype CareerDistribution = CareerDistribution(
    spentWork: Projection, spentSleep: Projection, spentFree: Projection,
    remainingWork: Projection, remainingSleep: Projection, remainingFree: Projection,
    unspentTime: Projection,
    totalDays: Number, workedDays: int, remainingDays: Number, historicalDaysCount: int,
    averageWork: real, averageSleep: real, averageFree: real)

  /** Hours as a percent of the grand total, or 0 when the grand total is not positive
      (NaN included). */
  function CareerPercent(hours: Number, grandTotal: Number): (p: Number)
    ensures grandTotal.Val? && grandTotal.v > 0.0 && hours.Val? ==> p.Val? && p.v * grandTotal.v == hours.v * 100.0
    ensures !(grandTotal.Val? && grandTotal.v > 0.0) ==> p == Val(0.0)
  {
    if grandTotal.Val? && grandTotal.v > 0.0 then hours.Over(grandTotal.v).Times(Val(100.0)) else Val(0.0)
  }

  /** Whole days from one instant to another, never negative. */
  function WholeDaysBetween(from: Date, to: Date): (days: int)
    ensures days >= 0
    ensures Time(to) >= Time(from) ==> days * DAY_MS <= Time(to) - Time(from) < (days + 1) * DAY_MS
    ensures Time(to) < Time(from) ==> days == 0
  {
    Max(0, (Time(to) - Time(from)) / DAY_MS)
  }

  lemma SixPercentsSumTo100(a: real, b: real, c: real, d: real, e: real, f: real, g: real,
                            pa: real, pb: real, pc: real, pd: real, pe: real, pf: real)
    requires g == a + b + c + d + e + f && g > 0.0
    requires pa * g == a * 100.0 && pb * g == b * 100.0 && pc * g == c * 100.0
    requires pd * g == d * 100.0 && pe * g == e * 100.0 && pf * g == f * 100.0
    ensures pa + pb + pc + pd + pe + pf == 100.0
  {
    ShareOfTotal(pa, a, g);
    ShareOfTotal(pb, b, g);
    ShareOfTotal(pc, c, g);
    ShareOfTotal(pd, d, g);
    ShareOfTotal(pe, e, g);
    ShareOfTotal(pf, f, g);
    assert a / g + b / g + c / g + d / g + e / g + f / g == (a + b + c + d + e + f) / g;
  }

  lemma ShareOfTotal(p: real, a: real, g: real)
    requires g > 0.0 && p * g == a * 100.0
    ensures p == a / g * 100.0
  {
  }

  /** The average hours of a bucket over the history, 8 when there is no history. */
  function Average(total: real, count: nat): (avg: real)
    ensures count == 0 ==> avg == 8.0
    ensures count > 0 ==> avg * count as real == total
  {
    if count > 0 then total / count as real else 8.0
  }

  /** The projection from the average hours per bucket: hours spent over the days worked,
      hours still to come over the days remaining, and every bucket's percent of the grand
      total. */
  function Projected(totalDays: Number, workedDays: int, remainingDays: Number, count: nat,
                     avgWork: real, avgSleep: real, avgFree: real): (r: CareerDistribution)
  {
    var spentWork := Val(avgWork * workedDays as real);
    var spentSleep := Val(avgSleep * workedDays as real);
    var spentFree := Val(avgFree * workedDays as real);
    var remainingWork := Val(avgWork).Times(remainingDays);
    var remainingSleep := Val(avgSleep).Times(remainingDays);
    var remainingFree := Val(avgFree).Times(remainingDays);
    var grand := Sum6(spentWork, spentSleep, spentFree, remainingWork, remainingSleep, remainingFree);
    var unspent := remainingWork.Plus(remainingSleep).Plus(remainingFree);
    var r := CareerDistribution(
      Projection(spentWork, CareerPercent(spentWork, grand)),
      Projection(spentSleep, CareerPercent(spentSleep, grand)),
      Projection(spentFree, CareerPercent(spentFree, grand)),
      Projection(remainingWork, CareerPercent(remainingWork, grand)),
      Projection(remainingSleep, CareerPercent(remainingSleep, grand)),
      Projection(remainingFree, CareerPercent(remainingFree, grand)),
      Projection(unspent, CareerPercent(unspent, grand)),
      totalDays, workedDays, remainingDays, count, avgWork, avgSleep, avgFree);
    assert GrandTotal(r) == grand;
    r
  }

  /** Each bucket's spent and remaining hours together are its average over the whole
      career, and the unspent time is the three remaining buckets; with no valid remaining
      days every remaining bucket, the unspent time and so the grand total are NaN. */
  lemma ProjectedHours(totalDays: Number, workedDays: int, remainingDays: Number, count: nat,
                       avgWork: real, avgSleep: real, avgFree: real)
    ensures var r := Projected(totalDays, workedDays, remainingDays, count, avgWork, avgSleep, avgFree);
            remainingDays.Val? ==>
              && r.spentWork.hours.Val? && r.remainingWork.hours.Val?
              && r.spentWork.hours.v + r.remainingWork.hours.v == avgWork * (workedDays as real + remainingDays.v)
              && r.spentSleep.hours.Val? && r.remainingSleep.hours.Val?
              && r.spentSleep.hours.v + r.remainingSleep.hours.v == avgSleep * (workedDays as real + remainingDays.v)
              && r.spentFree.hours.Val? && r.remainingFree.hours.Val?
              && r.spentFree.hours.v + r.remainingFree.hours.v == avgFree * (workedDays as real + remainingDays.v)
              && r.unspentTime.hours
                 == Val(r.remainingWork.hours.v + r.remainingSleep.hours.v + r.remainingFree.hours.v)
    ensures var r := Projected(totalDays, workedDays, remainingDays, count, avgWork, avgSleep, avgFree);
            remainingDays.NaN? ==>
              && r.remainingWork.hours.NaN? && r.remainingSleep.hours.NaN? && r.remainingFree.hours.NaN?
              && r.unspentTime.hours.NaN? && GrandTotal(r).NaN?
  {
    if remainingDays.Val? {
      var w := workedDays as real;
      Distribute(avgWork, w, remainingDays.v);
      Distribute(avgSleep, w, remainingDays.v);
      Distribute(avgFree, w, remainingDays.v);
    }
  }

  lemma Distribute(a: real, x: real, y: real)
    ensures a * x + a * y == a * (x + y)
  {
  }

  /** When the grand total is positive the six bucket percents add up to 100; otherwise
      every percent, the unspent time's included, is 0. */
  lemma ProjectedPercentages(totalDays: Number, workedDays: int, remainingDays: Number, count: nat,
                             avgWork: real, avgSleep: real, avgFree: real)
    ensures var r := Projected(totalDays, workedDays, remainingDays, count, avgWork, avgSleep, avgFree);
            var grand := GrandTotal(r);
            grand.Val? && grand.v > 0.0 ==>
              && r.spentWork.percentage.Val? && r.spentSleep.percentage.Val? && r.spentFree.percentage.Val?
              && r.remainingWork.percentage.Val? && r.remainingSleep.percentage.Val?
              && r.remainingFree.percentage.Val?
              && r.spentWork.percentage.v + r.spentSleep.percentage.v + r.spentFree.percentage.v
              + r.remainingWork.percentage.v + r.remainingSleep.percentage.v
              + r.remainingFree.percentage.v == 100.0
    ensures var r := Projected(totalDays, workedDays, remainingDays, count, avgWork, avgSleep, avgFree);
            var grand := GrandTotal(r);
            !(grand.Val? && grand.v > 0.0) ==>
              && r.spentWork.percentage == Val(0.0) && r.spentSleep.percentage == Val(0.0)
              && r.spentFree.percentage == Val(0.0) && r.remainingWork.percentage == Val(0.0)
              && r.remainingSleep.percentage == Val(0.0) && r.remainingFree.percentage == Val(0.0)
              && r.unspentTime.percentage == Val(0.0)
  {
    var r := Projected(totalDays, workedDays, remainingDays, count, avgWork, avgSleep, avgFree);
    var grand := GrandTotal(r);
    if grand.Val? && grand.v > 0.0 {
      SixPercentsSumTo100(r.spentWork.hours.v, r.spentSleep.hours.v, r.spentFree.hours.v,
                          r.remainingWork.hours.v, r.remainingSleep.hours.v, r.remainingFree.hours.v, grand.v,
                          r.spentWork.percentage.v, r.spentSleep.percentage.v, r.spentFree.percentage.v,
                          r.remainingWork.percentage.v, r.remainingSleep.percentage.v,
                          r.remainingFree.percentage.v);
    }
  }

  /** `calculateCareerTimeDistributionFromHistory`: days of the career (to the retirement
      date, NaN when that date is invalid), days worked (to now) and days left; the hours of
      the history summed per bucket; then the projection from their averages. */
  method CareerTimeDistributionFromHistory(profile: UserProfile, records: seq<DailyTimeRecord>, now: Date)
    returns (r: CareerDistribution)
    ensures r.historicalDaysCount == |records|
    ensures r.averageWork == Average(RecordTotal(records, Work), |records|)
    ensures r.averageSleep == Average(RecordTotal(records, Sleep), |records|)
    ensures r.averageFree == Average(RecordTotal(records, Free), |records|)
    ensures r.workedDays == WholeDaysBetween(EffectiveWorkStart(profile), now)
    ensures r.totalDays.Val? <==> profile.retirementDate.Valid?
    ensures r.totalDays.Val? ==>
              r.totalDays.v == WholeDaysBetween(EffectiveWorkStart(profile), profile.retirementDate.date) as real
    ensures r.remainingDays.Val? <==> profile.retirementDate.Valid?
    ensures r.remainingDays.Val? ==>
              r.remainingDays.v >= 0.0 && r.remainingDays.v >= r.totalDays.v - r.workedDays as real
              && (r.remainingDays.v == 0.0 || r.remainingDays.v == r.totalDays.v - r.workedDays as real)
    ensures r == Projected(r.totalDays, r.workedDays, r.remainingDays, |records|,
                           r.averageWork, r.averageSleep, r.averageFree)
  {
    var workStartDate := EffectiveWorkStart(profile);
    var totalWorkingDays := match profile.retirementDate
      case Invalid => NaN
      case Valid(retirementDate) => Val(WholeDaysBetween(workStartDate, retirementDate) as real);
    var workedDays := WholeDaysBetween(workStartDate, now);
    var remainingDays := MaxZero(totalWorkingDays.Minus(Val(workedDays as real)));

    var totalHistoricalWork, totalHistoricalSleep, totalHistoricalFree := HistoryTotals(records);
    var historicalDaysCount := |records|;

    var avgWorkHours := Average(totalHistoricalWork, historicalDaysCount);
    var avgSleepHours := Average(totalHistoricalSleep, historicalDaysCount);
    var avgFreeHours := Average(totalHistoricalFree, historicalDaysCount);
    var actualWorkedDays := Min(workedDays, WholeDaysBetween(workStartDate, now));
    r := Projected(totalWorkingDays, actualWorkedDays, remainingDays, historicalDaysCount,
                   avgWorkHours, avgSleepHours, avgFreeHours);
    assert r.averageWork == avgWorkHours && r.averageSleep == avgSleepHours && r.averageFree == avgFreeHours;
    assert r.totalDays == totalWorkingDays && r.workedDays == actualWorkedDays;
    assert r.remainingDays == remainingDays && r.historicalDaysCount == historicalDaysCount;
  }

  /** The loop of `calculateCareerTimeDistributionFromHistory`: each record's hours added to
      three running totals, in list order. */
  method HistoryTotals(records: seq<DailyTimeRecord>)
    returns (totalHistoricalWork: real, totalHistoricalSleep: real, totalHistoricalFree: real)
    ensures totalHistoricalWork == RecordTotal(records, Work)
    ensures totalHistoricalSleep == RecordTotal(records, Sleep)
    ensures totalHistoricalFree == RecordTotal(records, Free)
  {
    totalHistoricalWork, totalHistoricalSleep, totalHistoricalFree := 0.0, 0.0, 0.0;
    var i := 0;
    while i < |records|
      invariant 0 <= i <= |records|
      invariant totalHistoricalWork == RecordTotal(records[..i], Work)
      invariant totalHistoricalSleep == RecordTotal(records[..i], Sleep)
      invariant totalHistoricalFree == RecordTotal(records[..i], Free)
    {
      var record := records[i];
      assert records[..i + 1][..i] == records[..i];
      totalHistoricalWork := totalHistoricalWork + record.timeData.work.hours;
      totalHistoricalSleep := totalHistoricalSleep + record.timeData.sleep.hours;
      totalHistoricalFree := totalHistoricalFree + record.timeData.free.hours;
      i := i + 1;
    }
    assert records[..i] == records;
  }

  /** (spent work + remaining work) + (spent sleep + remaining sleep) + (spent free +
      remaining free), as the projection adds them. */
  function Sum6(sw: Number, ss: Number, sf: Number, rw: Number, rs: Number, rf: Number): (total: Number)
    ensures total.Val? <==> sw.Val? && ss.Val? && sf.Val? && rw.Val? && rs.Val? && rf.Val?
    ensures total.Val? ==> total.v == sw.v + ss.v + sf.v + rw.v + rs.v + rf.v
  {
    sw.Plus(rw).Plus(ss.Plus(rs)).Plus(sf.Plus(rf))
  }

  /** The grand total of a projection: every spent and remaining bucket. */
  function GrandTotal(r: CareerDistribution): Number
  {
    Sum6(r.spentWork.hours, r.spentSleep.hours, r.spentFree.hours,
         r.remainingWork.hours, r.remainingSleep.hours, r.remainingFree.hours)
  }
}

=== FILE: timerecords.dfy ===
/** The history of daily splits (src/services/TimeDataStorageService.ts): one record per
    day, kept newest first, and the cached split of yesterday that is moved into the
    history the next day. The key-value store is the object's fields: `stored` is the
    parsed value under "time_records" (None when the key is absent) and `yesterdayData`
    the one under "yesterday_time_data". */
module TimeRecords {
  import opened Basics
  import opened Calendar
  import opened Types
  import Text

  // ----- the record list -----

  /** Every day appears at most once. */
  predicate UniqueDates(rs: seq<DailyTimeRecord>)
  {
    forall i, j :: 0 <= i < j < |rs| ==> rs[i].date != rs[j].date
  }

  /** Ordered by the day's midnight, latest first. */
  predicate NewestFirst(rs: seq<DailyTimeRecord>)
  {
    forall i, j :: 0 <= i < j < |rs| ==> KeyTime(rs[j].date) <= KeyTime(rs[i].date)
  }

  /** `findIndex(r => r.date === date)`: the first position holding that day, or -1. */
  function IndexOfDate(rs: seq<DailyTimeRecord>, date: DateKey): (i: int)
    ensures -1 <= i < |rs|
    ensures i >= 0 ==> rs[i].date == date && forall j :: 0 <= j < i ==> rs[j].date != date
    ensures i < 0 ==> forall j :: 0 <= j < |rs| ==> rs[j].date != date
    decreases |rs|
  {
    if rs == [] then -1
    else if rs[0].date == date then 0
    else
      var k := IndexOfDate(rs[1..], date);
      if k < 0 then -1 else k + 1
  }

  /** `find(r => r.date === date) || null`: the first record of that day. */
  function FindByDate(rs: seq<DailyTimeRecord>, date: DateKey): (found: Option<DailyTimeRecord>)
    ensures found.Some? ==> found.value in rs && found.value.date == date
    ensures found.None? <==> forall x :: x in rs ==> x.date != date
    ensures found.Some? && UniqueDates(rs) ==> forall x :: x in rs && x.date == date ==> x == found.value
    ensures forall i :: (0 <= i < |rs| && rs[i].date == date
                         && forall j :: 0 <= j < i ==> rs[j].date != date) ==> found == Some(rs[i])
  {
    var i := IndexOfDate(rs, date);
    if i >= 0 then Some(rs[i]) else None
  }

  /** The record replaces the first one of its day in place, or is appended. */
  function Upsert(rs: seq<DailyTimeRecord>, record: DailyTimeRecord): seq<DailyTimeRecord>
  {
    var i := IndexOfDate(rs, record.date);
    if i >= 0 then rs[i := record] else rs + [record]
  }

  /** After an upsert the record is present, every record of another day survives, nothing
      else is added, and the list grows by one exactly when the day was new. */
  lemma UpsertSpec(rs: seq<DailyTimeRecord>, record: DailyTimeRecord)
    ensures record in Upsert(rs, record)
    ensures forall x :: x in rs && x.date != record.date ==> x in Upsert(rs, record)
    ensures forall y :: y in Upsert(rs, record) ==> y == record || y in rs
    ensures |Upsert(rs, record)| == if FindByDate(rs, record.date).Some? then |rs| else |rs| + 1
  {
    var i := IndexOfDate(rs, record.date);
    var u := Upsert(rs, record);
    if i >= 0 {
      assert u[i] == record;
      forall x | x in rs && x.date != record.date
        ensures x in u
      {
        var j :| 0 <= j < |rs| && rs[j] == x;
        assert u[j] == x;
      }
      forall y | y in u
        ensures y == record || y in rs
      {
        var j :| 0 <= j < |u| && u[j] == y;
        assert j != i ==> y == rs[j];
      }
    }
  }

  /** An upsert keeps every day unique. */
  lemma UpsertKeepsDatesUnique(rs: seq<DailyTimeRecord>, record: DailyTimeRecord)
    requires UniqueDates(rs)
    ensures UniqueDates(Upsert(rs, record))
  {
    var i := IndexOfDate(rs, record.date);
    var u := Upsert(rs, record);
    forall a, b | 0 <= a < b < |u|
      ensures u[a].date != u[b].date
    {
      if i < 0 && b == |rs| {
        assert u[a] == rs[a];
      }
    }
  }

  // ----- sorting newest first -----

  /** Places a record after every record at least as new, so records of equal days keep
      their order as the stable `Array.prototype.sort` keeps it. */
  function Insert(sorted: seq<DailyTimeRecord>, record: DailyTimeRecord): (r: seq<DailyTimeRecord>)
    ensures multiset(r) == multiset(sorted) + multiset{record}
    decreases |sorted|
  {
    if sorted == [] || KeyTime(record.date) > KeyTime(sorted[0].date) then
      [record] + sorted
    else
      assert sorted == [sorted[0]] + sorted[1..];
      [sorted[0]] + Insert(sorted[1..], record)
  }

  /** What an insertion holds: the record and the records it was inserted among. */
  lemma InsertMembers(sorted: seq<DailyTimeRecord>, record: DailyTimeRecord)
    ensures forall y :: y in Insert(sorted, record) <==> y == record || y in sorted
  {
    var r := Insert(sorted, record);
    forall y
      ensures y in r <==> y == record || y in sorted
    {
      calc {
        y in r;
        y in multiset(r);
        y in multiset(sorted) + multiset{record};
        y == record || y in sorted;
      }
    }
  }

  /** Inserting into a list ordered newest first keeps it ordered. */
  lemma {:induction false} InsertKeepsNewestFirst(sorted: seq<DailyTimeRecord>, record: DailyTimeRecord)
    requires NewestFirst(sorted)
    ensures NewestFirst(Insert(sorted, record))
    decreases |sorted|
  {
    if sorted == [] || KeyTime(record.date) > KeyTime(sorted[0].date) {
    } else {
      var rest := Insert(sorted[1..], record);
      InsertKeepsNewestFirst(sorted[1..], record);
      InsertMembers(sorted[1..], record);
      forall y | y in rest
        ensures KeyTime(y.date) <= KeyTime(sorted[0].date)
      {
        if y != record {
          var k :| 0 <= k < |sorted[1..]| && sorted[1..][k] == y;
          assert sorted[k + 1] == y;
        }
      }
      NewestFirstCons(sorted[0], rest);
    }
  }

  /** What a save leaves in the list: the record, every record of another day, nothing
      else, newest first, and still one record per day when there was one before. */
  lemma SavedRecords(rs: seq<DailyTimeRecord>, record: DailyTimeRecord)
    ensures var out := SortNewestFirst(Upsert(rs, record));
            && record in out && NewestFirst(out)
            && (forall x :: x in rs && x.date != record.date ==> x in out)
            && (forall y :: y in out ==> y == record || y in rs)
            && (UniqueDates(rs) ==> UniqueDates(out))
  {
    var u := Upsert(rs, record);
    var out := SortNewestFirst(u);
    UpsertSpec(rs, record);
    if UniqueDates(rs) {
      UpsertKeepsDatesUnique(rs, record);
      SortKeepsDatesUnique(u);
    }
    assert forall y :: y in out <==> y in multiset(out);
    assert forall y :: y in u <==> y in multiset(u);
  }

  /** A record no older than every record of a list ordered newest first can go in front. */
  lemma NewestFirstCons(first: DailyTimeRecord, rest: seq<DailyTimeRecord>)
    requires NewestFirst(rest)
    requires forall y :: y in rest ==> KeyTime(y.date) <= KeyTime(first.date)
    ensures NewestFirst([first] + rest)
  {
    var r := [first] + rest;
    forall i, j | 0 <= i < j < |r|
      ensures KeyTime(r[j].date) <= KeyTime(r[i].date)
    {
      assert r[j] == rest[j - 1];
      if i > 0 {
        assert r[i] == rest[i - 1];
      }
    }
  }

  /** `records.sort((a, b) => new Date(b.date).getTime() - new Date(a.date).getTime())`:
      the same records, latest day first. */
  function SortNewestFirst(rs: seq<DailyTimeRecord>): (r: seq<DailyTimeRecord>)
    ensures multiset(r) == multiset(rs)
    ensures NewestFirst(r)
    decreases |rs|
  {
    if rs == [] then []
    else
      assert rs == rs[..|rs| - 1] + [rs[|rs| - 1]];
      var sortedInit := SortNewestFirst(rs[..|rs| - 1]);
      InsertKeepsNewestFirst(sortedInit, rs[|rs| - 1]);
      Insert(sortedInit, rs[|rs| - 1])
  }

  /** Records of the same days as a list with no repeated day, and one more day. */
  lemma {:induction false} InsertKeepsDatesUnique(sorted: seq<DailyTimeRecord>, record: DailyTimeRecord)
    requires UniqueDates(sorted)
    requires forall x :: x in sorted ==> x.date != record.date
    ensures UniqueDates(Insert(sorted, record))
    decreases |sorted|
  {
    if sorted == [] || KeyTime(record.date) > KeyTime(sorted[0].date) {
      assert Insert(sorted, record) == [record] + sorted;
      UniqueDatesCons(record, sorted);
    } else {
      var rest := Insert(sorted[1..], record);
      InsertKeepsDatesUnique(sorted[1..], record);
      InsertMembers(sorted[1..], record);
      assert Insert(sorted, record) == [sorted[0]] + rest;
      forall y | y in rest
        ensures y.date != sorted[0].date
      {
        if y != record {
          var k :| 0 <= k < |sorted[1..]| && sorted[1..][k] == y;
          assert sorted[k + 1] == y;
        }
      }
      UniqueDatesCons(sorted[0], rest);
    }
  }

  /** A record of a day missing from a list with no repeated day can go in front. */
  lemma UniqueDatesCons(first: DailyTimeRecord, rest: seq<DailyTimeRecord>)
    requires UniqueDates(rest)
    requires forall y :: y in rest ==> y.date != first.date
    ensures UniqueDates([first] + rest)
  {
    var r := [first] + rest;
    forall i, j | 0 <= i < j < |r|
      ensures r[i].date != r[j].date
    {
      assert r[j] == rest[j - 1];
      if i > 0 {
        assert r[i] == rest[i - 1];
      }
    }
  }

  /** Sorting keeps every day unique. */
  lemma {:induction false} SortKeepsDatesUnique(rs: seq<DailyTimeRecord>)
    requires UniqueDates(rs)
    ensures UniqueDates(SortNewestFirst(rs))
    decreases |rs|
  {
    if rs != [] {
      var init, last := rs[..|rs| - 1], rs[|rs| - 1];
      SortKeepsDatesUnique(init);
      var sortedInit := SortNewestFirst(init);
      forall x | x in sortedInit
        ensures x.date != last.date
      {
        assert x in multiset(init);
        var j :| 0 <= j < |init| && init[j] == x;
        assert rs[j] == x;
      }
      InsertKeepsDatesUnique(sortedInit, last);
    }
  }

  // ----- display -----

  const MONTH_MARK: char := '月'
  const DAY_MARK: char := '日'

  /** `formatDateForDisplay`: "M月D日", month counted from 1, neither padded. */
  function FormatDateForDisplay(date: CalendarKey): string
  {
    Text.IntToString(date.month) + [MONTH_MARK] + Text.IntToString(date.day) + [DAY_MARK]
  }

  /** Reads an "M月D日" text back into its month and day. */
  function ParseDisplayDate(s: string): Option<(int, int)>
  {
    match Text.SplitOnce(s, MONTH_MARK)
    case (_, None) => None
    case (month, Some(rest)) =>
      match (Text.ParseInt(month), Text.ParseInt(rest))
      case (Some(m), Some(d)) => Some((m, d))
      case _ => None
  }

  /** The displayed text names the month and the day it was made from. */
  lemma DisplayDateRoundTrip(date: CalendarKey)
    ensures ParseDisplayDate(FormatDateForDisplay(date)) == Some((date.month, date.day))
  {
    var month := Text.IntToString(date.month);
    var rest := Text.IntToString(date.day) + [DAY_MARK];
    assert Text.AllDigits(month);
    assert MONTH_MARK !in month by {
      assert !Text.IsDigit(MONTH_MARK);
    }
    assert FormatDateForDisplay(date) == month + [MONTH_MARK] + rest;
    Text.SplitOnceAt(month, MONTH_MARK, rest);
    Text.ParseIntOfIntToString(date.month, []);
    assert month + [] == month;
    Text.ParseIntOfIntToString(date.day, [DAY_MARK]);
  }

  /** Two days display alike only when they share month and day. */
  lemma DisplayDateDistinguishes(a: CalendarKey, b: CalendarKey)
    requires FormatDateForDisplay(a) == FormatDateForDisplay(b)
    ensures a.month == b.month && a.day == b.day
  {
    DisplayDateRoundTrip(a);
    DisplayDateRoundTrip(b);
  }

  // ----- the store -----

  class TimeRecordStore {
    var stored: Option<seq<DailyTimeRecord>>
    var yesterdayData: Option<TimeData>

    constructor()
      ensures stored == None && yesterdayData == None
    {
      stored := None;
      yesterdayData := None;
    }

    /** `getAllTimeRecords`: the stored list, or [] when nothing is stored. */
    function Records(): (rs: seq<DailyTimeRecord>)
      reads this
      ensures stored.None? ==> rs == []
      ensures stored.Some? ==> rs == stored.value
    {
      match stored
      case None => []
      case Some(rs) => rs
    }

    /** `getTimeRecordByDate`: the first stored record of that day, or null. */
    method GetTimeRecordByDate(date: DateKey) returns (found: Option<DailyTimeRecord>)
      ensures found.Some? ==> found.value in Records() && found.value.date == date
      ensures found.None? <==> forall x :: x in Records() ==> x.date != date
      ensures found == FindByDate(Records(), date)
    {
      var records := Records();
      found := FindByDate(records, date);
    }

    /** `saveTimeRecord`: upsert by day, then sort newest first and store. */
    method SaveTimeRecord(record: DailyTimeRecord)
      modifies this
      ensures stored == Some(SortNewestFirst(Upsert(old(Records()), record)))
      ensures yesterdayData == old(yesterdayData)
      ensures record in Records() && NewestFirst(Records())
      ensures forall x :: x in old(Records()) && x.date != record.date ==> x in Records()
      ensures forall y :: y in Records() ==> y == record || y in old(Records())
      ensures UniqueDates(old(Records())) ==> UniqueDates(Records())
    {
      var records := Records();
      SavedRecords(records, record);
      var existingIndex := IndexOfDate(records, record.date);
      if existingIndex >= 0 {
        records := records[existingIndex := record];
      } else {
        records := records + [record];
      }
      records := SortNewestFirst(records);
      stored := Some(records);
    }

    /** `getYesterdayTimeData`. */
    method GetYesterdayTimeData() returns (data: Option<TimeData>)
      ensures data == yesterdayData
    {
      data := yesterdayData;
    }

    /** `saveYesterdayTimeData`. */
    method SaveYesterdayTimeData(timeData: TimeData)
      modifies this
      ensures yesterdayData == Some(timeData) && stored == old(stored)
    {
      yesterdayData := Some(timeData);
    }

    /** `checkAndSaveYesterdayRecord`: when yesterday has no record yet and a split of
        yesterday is cached, that split is saved as yesterday's record stamped with now;
        otherwise nothing changes. */
    method CheckAndSaveYesterdayRecord(now: Date)
      modifies this
      ensures var day := YesterdayKey(now);
              FindByDate(old(Records()), day).Some? || old(yesterdayData).None? ==>
                stored == old(stored) && yesterdayData == old(yesterdayData)
      ensures var day := YesterdayKey(now);
              FindByDate(old(Records()), day).None? && old(yesterdayData).Some? ==>
                && stored == Some(SortNewestFirst(old(Records()) + [DailyTimeRecord(day, old(yesterdayData).value, Time(now))]))
                && yesterdayData == old(yesterdayData)
    {
      var yesterdayDateStr := YesterdayKey(now);
      var existingRecord := GetTimeRecordByDate(yesterdayDateStr);
      if existingRecord.Some? {
        return;
      }
      var data := GetYesterdayTimeData();
      if data.Some? {
        var record := DailyTimeRecord(yesterdayDateStr, data.value, Time(now));
        SaveTimeRecord(record);
      }
    }
  }

  /** The key of the day before `now` (`setDate(getDate() - 1)`). */
  function YesterdayKey(now: Date): (k: CalendarKey)
    ensures DayNumber(k.year, k.month - 1, k.day) == EpochDays(now) - 1
  {
    ShiftedEpochDays(now, -1);
    KeyOf(SetDate(now, now.day - 1))
  }
}

=== FILE: types.dfy ===
/** The application's records: the user profile, a day's raw schedule, the time-analysis
    summary and the settings records (src/types/index.ts). */
module Types {
  import opened Basics
  import opened Calendar

  datatype Gender = Male | Female

  /** The five job categories; `Unlisted` stands for any other stored value. */
  datatype JobType = General | Special | CivilServant | Enterprise | Flexible | Unlisted

  /** The single user profile. `workStartDate` and `retirementDate` are Date objects read
      back from storage and may be the Invalid Date; `birthDate` is always a real day. */
  datatype UserProfile = UserProfile(
    id: string,
    name: string,
    gender: Gender,
    birthDate: Date,
    jobType: JobType,
    workStartDate: Option<Stamp>,
    retirementAge: int,
    retirementDate: Stamp,
    profileImage: Option<string>,
    createdAt: Date,
    updatedAt: Date)

  /** One day's clock times, each an "HH:mm" text. */
  datatype DailySchedule = DailySchedule(
    id: string,
    date: DateKey,
    workStartTime: string,
    workEndTime: string,
    sleepTime: string,
    wakeUpTime: string,
    notes: Option<string>,
    createdAt: Date)

  /** One bucket of a stored day: hours and their share of the day in percent. */
  datatype Share = Share(hours: real, percentage: real)

  datatype TimeData = TimeData(work: Share, sleep: Share, free: Share)

  /** A history record: the day it describes, that day's split and when it was written. */
  datatype DailyTimeRecord = DailyTimeRecord(date: CalendarKey, timeData: TimeData, timestamp: int)

  datatype TimeAnalysis = TimeAnalysis(
    totalWorkHours: Number,
    totalSleepHours: Number,
    totalFreeHours: Number,
    averageWorkHours: Number,
    averageSleepHours: Number,
    averageFreeHours: Number,
    daysUntilRetirement: Number,
    freeTimeUntilRetirement: Number)

  /** The countdown unit; `UnknownFormat` stands for any other requested value. */
  datatype DisplayFormat = Years | Months | Days | Hours | Minutes | Seconds | Milliseconds | UnknownFormat

  datatype Theme = Light | Dark | Auto

  datatype WidgetSettings = WidgetSettings(
    displayFormat: DisplayFormat,
    backgroundImage: Option<string>,
    showProgressRing: bool,
    theme: Theme)

  datatype Notifications = Notifications(dailyReminder: bool, reminderTime: string, weeklyAnalysis: bool)

  datatype Privacy = Privacy(requireAuth: bool, biometricAuth: bool)

  datatype AppSettings = AppSettings(notifications: Notifications, widget: WidgetSettings, privacy: Privacy)
}
